=== FILE: README.md ===
# ANIMA.log symbol pipeline, in Dafny

ANIMA.log is a dream journal. Each entry is analysed by a language model, which returns a list of
detected symbol names and a dominant Jungian archetype. This project models the part of the
application that turns those analyses into a symbol store, and proves properties of that model:

- **`POST /api/analyze`** stores the entry and upserts one symbol per detected name (`Analyze`).
- **`lib/symbol-normalizer.ts`** folds a symbol name to its singular, lower-case form (`SymbolNormalizer`).
- **`lib/archetype-normalizer.ts`** maps a free-form archetype label to one of twenty-one standard names
  (`ArchetypeNormalizer`). `ArchetypeFixedPoints` proves every standard name is a fixed point.
- **`DELETE /api/symbols`** deletes orphaned symbols and resynchronises counts (`Reconcile`).
- **`GET /api/symbols/connections`** exports the symbol graph with undirected, de-duplicated edges (`GraphExport`).
- **`GET /api/constellations`** detects recurring symbols and names the pattern. The alert component picks
  the question shown for it (`Constellations`).
- **`scripts/merge-duplicate-symbols.ts`** merges symbols whose names normalize alike (`MergeDuplicates`).
- **`scripts/fix-archetype-typos.ts`** rewrites stored archetype labels (`FixArchetypes`).
- **`components/ConstellationGraph.tsx`** builds, focuses and filters the symbol map (`ConstellationGraph`).
- **`components/SymbolLib.tsx`** supplies the library's tables, sort and ASCII picture (`SymbolLib`).

Shared modules:

- `Common`: `Option`, counting, and `Array.from(new Set(...))`.
- `Text`: JavaScript `trim`, case mapping, `includes`, `join`, string `<`, and the UTF-16 code units behind `length` and indexing.
- `JsObject`: inherited property names and `Object.entries` order.
- `Sorting`: the stable `Array.prototype.sort` with a `b - a` comparator.
- `Store`: the database as one immutable value.

The database, the HTTP layer, the language model, clocks and randomness are not modelled. Each
route or script is a function from a database value to a database value and a response. Data from
outside is a parameter: the model's analysis, the ids the database assigns, the entries of the
last seven days, and the noise count.

## Model

| member | source | states |
|---|---|---|
| Analyze.NewEntry | app/api/analyze/route.ts:21-33 | The stored entry keeps the request's type. The content lands in `contentText` for `text` and in `imageUrl` for `image`. The symbols and archetype are copied from the analysis without normalization. |
| Analyze.UpsertShape | app/api/analyze/route.ts:37-49 | One upsert raises the count of the symbol with that name by one in place. Otherwise it appends a new symbol with count 1 and the entry's archetype. Names stay unique. |
| Analyze.UpsertAllShape | app/api/analyze/route.ts:36-50 | After the loop the names are exactly the old names plus the listed ones. Old symbols keep their positions and gain their listed count. Appended symbols are new names. Names stay unique. |
| Analyze.UpsertAllCounts | app/api/analyze/route.ts:36-50 | Every name's count rises by the number of times the analysis lists it, repeats included. Unlisted names keep their counts. |
| Analyze.PostRejectsMissingFields | app/api/analyze/route.ts:10-15 | A missing or empty `type` or `content` gets the 400 answer and leaves the database unchanged. |
| Analyze.PostStoresOneEntry | app/api/analyze/route.ts:5-52 | A valid request appends exactly one entry and answers with the analysis. It leaves connections and constellations alone and applies the upsert loop to the symbols. |
| SymbolNormalizer.NormalizeSymbol | lib/symbol-normalizer.ts:6-75 | A blank input (empty or all whitespace) comes back unchanged. Any other input gives a non-empty result. |
| SymbolNormalizer.KeyOfNonBlank | lib/symbol-normalizer.ts:7-12 | A non-blank name keeps a non-empty key after lower-casing and trimming. |
| SymbolNormalizer.TableValuesNonEmpty | lib/symbol-normalizer.ts:24-55 | Every value of the specific-rules table has at least three characters. |
| SymbolNormalizer.BlankUnchanged | lib/symbol-normalizer.ts:7-9 | An all-whitespace name is returned as given. |
| SymbolNormalizer.TableHit | lib/symbol-normalizer.ts:57-60 | A key found in the specific-rules table returns the table's value. |
| SymbolNormalizer.HeuristicStrip | lib/symbol-normalizer.ts:62-74 | Off the table, a key of three or more UTF-16 code units ending in `y`, `i`, `e` or `a` loses that last character. A stripped result keeps at least two code units. Any other key is returned as it is. |
| SymbolNormalizer.StripBounds | lib/symbol-normalizer.ts:63-71 | The suffix rule alone: it removes at most one final `y`, `i`, `e` or `a`, and does so exactly when the stem keeps two or more code units. |
| SymbolNormalizer.ShortKeysKept | lib/symbol-normalizer.ts:66-70 | A key of two UTF-16 code units or fewer that is off the table is never shortened. |
| SymbolNormalizer.AstralStemStripped | lib/symbol-normalizer.ts:66-70 | A character above U+FFFF is two code units, so `😀y` loses its `y` though only one character is left. |
| SymbolNormalizer.SelfMappedEntriesAreFixed | lib/symbol-normalizer.ts:38-44 | `ogień`, `księżyc` and `las` map to themselves. |
| SymbolNormalizer.TableShieldsSlonce | lib/symbol-normalizer.ts:39 | The table keeps `słońce` whole, though the `e` rule would strip it to `słońc`. |
| SymbolNormalizer.TableExamples | lib/symbol-normalizer.ts:17-18 | The comment's examples hold: `koty` gives `kot` and `psy` gives `pies`. |
| SymbolNormalizer.FishExamples | lib/symbol-normalizer.ts:34 | `ryby` gives `ryba`, and `ryba` gives `ryb`. |
| SymbolNormalizer.NotIdempotent | lib/symbol-normalizer.ts:6-75 | Some name normalizes differently the second time, so the normalizer is not idempotent. |
| SymbolNormalizer.NormalizeCanonical | lib/symbol-normalizer.ts:12-72 | For a trimmed, lower-case name, the key is the name itself. The result is then the table value or the stripped name. |
| SymbolNormalizer.NormalizeSymbols | lib/symbol-normalizer.ts:80-84 | The result has no duplicates and no empty string. |
| SymbolNormalizer.NormalizeSymbolsContents | lib/symbol-normalizer.ts:80-84 | The result holds exactly the non-empty normalized forms of the inputs. |
| SymbolNormalizer.BlankLabelsSurvive | lib/symbol-normalizer.ts:81 | A non-empty, all-whitespace label passes `filter(Boolean)` and reaches the result. |
| SymbolNormalizer.NormalizeSymbolsOrder | lib/symbol-normalizer.ts:81-83 | The result lists the non-empty normalized forms in order of first appearance. |
| SymbolNormalizer.AsWrittenAgreesOffInheritedNames | lib/symbol-normalizer.ts:58-59 | For a key that is not an inherited member name, the plain object lookup agrees with the own-property model. |
| SymbolNormalizer.AsWrittenReturnsInheritedMember | lib/symbol-normalizer.ts:58-59 | As written, `normalizeSymbol("constructor")` returns `Object.prototype.constructor`. The own-property model returns the string `constructor`. |
| ArchetypeNormalizer.Correction | lib/archetype-normalizer.ts:39-228 | Every value of the corrections table is one of the twenty-one standard names. |
| ArchetypeNormalizer.Similarity | lib/archetype-normalizer.ts:276-291 | The similarity score lies in [0, 1] and is 1 for two empty sequences. The fuzzy step applies it to UTF-16 code units. |
| ArchetypeNormalizer.SimilarityThreshold | lib/archetype-normalizer.ts:259-261 | `CloseEnough` (five times the matches at least four times the longer length) holds exactly when the score is at least 0.8. |
| ArchetypeNormalizer.MatchesOfSelf | lib/archetype-normalizer.ts:283-288 | Every character of a string is found in the string itself. |
| ArchetypeNormalizer.CloseToItself | lib/archetype-normalizer.ts:276-291 | A non-empty string scores 1 against itself and passes the threshold. |
| ArchetypeNormalizer.FarByLength | lib/archetype-normalizer.ts:277-290 | When the shorter string is under 4/5 of the longer one's length, the pair is never close. |
| ArchetypeNormalizer.FarByMisses | lib/archetype-normalizer.ts:283-290 | Positions of the shorter string whose character is missing from the longer one lower the score enough to rule the pair out. |
| ArchetypeNormalizer.FirstClose | lib/archetype-normalizer.ts:258-264 | A name it returns is from the remaining standard names and passes the threshold. |
| ArchetypeNormalizer.FirstCloseFinds | lib/archetype-normalizer.ts:258-264 | The loop returns the first close standard name. |
| ArchetypeNormalizer.FirstCloseNone | lib/archetype-normalizer.ts:258-269 | With no close standard name the loop falls through. |
| ArchetypeNormalizer.FirstCloseResult | lib/archetype-normalizer.ts:258-264 | The loop finds nothing exactly when no name is close. A name it finds is preceded only by names that are not close. |
| ArchetypeNormalizer.FirstCloseIndex | lib/archetype-normalizer.ts:258-264 | A name the loop returns sits at a position that passes the threshold, and every name before it fails. |
| ArchetypeNormalizer.FirstCloseMisses | lib/archetype-normalizer.ts:258-269 | When the loop falls through, every remaining name fails the threshold. |
| ArchetypeNormalizer.NormalizeArchetype | lib/archetype-normalizer.ts:233-270 | The result is a standard name or null. A missing or blank label gives null. |
| ArchetypeNormalizer.ValidIffNormalizes | lib/archetype-normalizer.ts:296-300 | `isValidArchetype` holds exactly when normalization yields a name. A valid label is present and non-empty. |
| ArchetypeNormalizer.TrimmedLabel | lib/archetype-normalizer.ts:234-238 | A label without surrounding whitespace is not blank and trims to itself. |
| ArchetypeNormalizer.TableHits | lib/archetype-normalizer.ts:240-249 | A trimmed label found in the table returns its value. Failing that, its upper-case form found in the table returns that value. |
| ArchetypeNormalizer.KienRule | lib/archetype-normalizer.ts:252-255 | Off the table, an upper-case form containing `KIEŃ`, or equal to `KIEN`, gives `CIEŃ`. |
| ArchetypeNormalizer.FuzzyStep | lib/archetype-normalizer.ts:257-269 | Past the table and the `KIEŃ` rule, the result is the first standard name within the threshold, or null when there is none. Labels are compared by their UTF-16 code units. |
| ArchetypeNormalizer.FuzzyStepIsFirstClose | lib/archetype-normalizer.ts:257-264 | Past the table and the `KIEŃ` rule, the result is the loop over the standard names, run on the code units of the upper-case label. |
| ArchetypeNormalizer.FuzzyStepPicksFirst | lib/archetype-normalizer.ts:258-263 | When the i-th standard name is the first close one, it is the result. |
| ArchetypeNormalizer.StandardNamesAreShort | lib/archetype-normalizer.ts:8-36 | No standard name is longer than nine characters. |
| ArchetypeNormalizer.LongLabelsRejected | lib/archetype-normalizer.ts:257-269 | A label of twelve or more characters that reaches the fuzzy step normalizes to null. |
| ArchetypeNormalizer.StandardNamesInBmp | lib/archetype-normalizer.ts:8-36 | No standard name has a character above U+FFFF. |
| ArchetypeNormalizer.CloseEnoughOfCodePoints | lib/archetype-normalizer.ts:276-291 | Comparing code points gives the same answer as comparing characters. |
| ArchetypeNormalizer.CloseEnoughInBmp | lib/archetype-normalizer.ts:276-291 | For labels without characters above U+FFFF, the code-unit score passes exactly when the character score does. |
| ArchetypeNormalizer.AstralCharactersCountTwice | lib/archetype-normalizer.ts:276-291 | `PERSONA😀` has nine code units and fails the threshold against `PERSONA` (7/9). Counted by characters it would pass (7/8). |
| ArchetypeNormalizer.DocExamples | lib/archetype-normalizer.ts:3 | The header's examples hold: `KIEŃ` and `Cień` both give `CIEŃ`. |
| ArchetypeNormalizer.AsWrittenAgreesOffInheritedNames | lib/archetype-normalizer.ts:241-249 | When neither the trimmed nor the upper-case label is an inherited member name, the plain object lookup agrees with the own-property model. |
| ArchetypeNormalizer.AsWrittenReturnsInheritedMember | lib/archetype-normalizer.ts:241-242 | As written, `normalizeArchetype("hasOwnProperty")` returns the inherited function. The own-property model returns null. |
| ArchetypeFixedPoints.FixedByTable | lib/archetype-normalizer.ts:240-243 | A trimmed name that the table maps to itself is a fixed point. |
| ArchetypeFixedPoints.FixedByFuzzy | lib/archetype-normalizer.ts:257-264 | An upper-case standard name off the table, outside the `KIEŃ` rule and far from every earlier standard name, is a fixed point. |
| ArchetypeFixedPoints.StandardNamesAreFixed | lib/archetype-normalizer.ts:8-36 | Each of the twenty-one standard names normalizes to itself. |
| ArchetypeFixedPoints.NormalizeArchetypeIdempotent | lib/archetype-normalizer.ts:233-270 | Normalizing a normalized label changes nothing. |
| Reconcile.LiveIffCounted | app/api/symbols/route.ts:37-45 | A name is live exactly when its derived count is positive. |
| Reconcile.LiveNamesAreImages | app/api/symbols/route.ts:38-45 | The live names are exactly the normalized forms of the names the entries list. |
| Reconcile.ActualCountAppend | app/api/symbols/route.ts:75-84 | The derived count of a name adds up entry by entry. |
| Reconcile.SurvivorsExactly | app/api/symbols/route.ts:50-96 | A symbol survives exactly when its name is live, and it takes the derived count. The number of survivors is the total minus the orphans. |
| Reconcile.SurvivorCounts | app/api/symbols/route.ts:71-96 | Every surviving symbol has a live name and a positive count equal to the number of times that name is listed after normalization. |
| Reconcile.KeepConnectionsExactly | app/api/symbols/route.ts:54-62 | A connection is kept exactly when neither end is a deleted symbol. |
| Reconcile.DeleteReport | app/api/symbols/route.ts:32-102 | Entries and constellations are untouched. The survivors plus `deletedCount` equal the symbols before. |
| Reconcile.NoOrphans | app/api/symbols/route.ts:52-53 | When every name is live, nothing is deleted. |
| Reconcile.SurvivorsOfReconciled | app/api/symbols/route.ts:86-94 | When every name is live and every count is right, no symbol changes and nothing is written. |
| Reconcile.KeepAll | app/api/symbols/route.ts:54-62 | With nothing deleted, every connection is kept. |
| Reconcile.DeleteIdempotent | app/api/symbols/route.ts:32-102 | A second run deletes nothing and changes nothing. |
| GraphExport.NodeOf | app/api/symbols/connections/route.ts:43-51 | A node copies id, name, category, level and count from its symbol. |
| GraphExport.FallbackNodeOf | app/api/symbols/connections/route.ts:23-31 | In the fallback branch an empty or missing category becomes null. A missing or zero level becomes 1. |
| GraphExport.Canonical | app/api/symbols/connections/route.ts:58-60 | The pair is the connection's ends, the smaller id first. |
| GraphExport.CanonicalUndirected | app/api/symbols/connections/route.ts:57-60 | A connection and its reverse give the same pair. |
| GraphExport.CanonicalPairsMeet | app/api/symbols/connections/route.ts:57-60 | Two ordered pairs over the same two ids are equal. |
| GraphExport.FindKey | app/api/symbols/connections/route.ts:65 | The lookup finds the first link with the key, or reports that none has it. |
| GraphExport.MergePairKey | app/api/symbols/connections/route.ts:64-75 | One step either appends a new pair with the connection's strength, or raises the strength of the pair already present to the maximum. |
| GraphExport.LinksPairs | app/api/symbols/connections/route.ts:54-76 | With a pair-valued key, the links list the distinct canonical pairs in order of first appearance. |
| GraphExport.LinksStrength | app/api/symbols/connections/route.ts:69-74 | Each link's strength is the largest among the connections of its pair. |
| GraphExport.LinksShape | app/api/symbols/connections/route.ts:54-76 | Each link is ordered smaller id first. No two links join the same two ids in either direction. |
| GraphExport.LinksCover | app/api/symbols/connections/route.ts:56-76 | Every connection has a link with its canonical pair. |
| GraphExport.EdgeIdsDistinct | app/api/symbols/connections/route.ts:78-81 | Edge ids are pairwise distinct. |
| GraphExport.ExportEdgesShape | app/api/symbols/connections/route.ts:53-81 | The exported edges are ordered, numbered `edge-0`, `edge-1`, ..., and join no two ids twice. |
| GraphExport.ExportEdgesCover | app/api/symbols/connections/route.ts:56-81 | Every connection is represented by the edge of its pair. |
| GraphExport.ExportEdgesStrength | app/api/symbols/connections/route.ts:69-81 | Each edge comes from some connection of its pair and carries the largest strength among them. |
| GraphExport.NodesMembers | app/api/symbols/connections/route.ts:43-51 | Every symbol has its node, and every node is some symbol's node. |
| GraphExport.NodesOrdered | app/api/symbols/connections/route.ts:7-11 | Nodes come by non-increasing count, whatever the stored order. |
| GraphExport.ExportNodes | app/api/symbols/connections/route.ts:18-51 | In both branches, one node per symbol, field by field. The fallback branch has no edges. |
| GraphExport.TextKeyInjective | app/api/symbols/connections/route.ts:62 | Over ids without `-`, equal string keys mean equal pairs. |
| GraphExport.ShorterFirstDiffers | app/api/symbols/connections/route.ts:62 | A shorter first id gives a different string key from a longer first id that contains no `-`. |
| GraphExport.FindKeyAgree | app/api/symbols/connections/route.ts:65 | A key that matches exactly when the pair matches finds the same link as the pair itself. |
| GraphExport.MergeAgree | app/api/symbols/connections/route.ts:64-75 | Under such a key, one step gives the same links as under the pair. |
| GraphExport.LinksAgree | app/api/symbols/connections/route.ts:54-76 | A key that tells the canonical pairs apart gives the same links as the pair itself. |
| GraphExport.PlainIdsInjective | app/api/symbols/connections/route.ts:62 | When no id contains `-`, the string key tells the canonical pairs apart. |
| GraphExport.AsWrittenAgreesOnPlainIds | app/api/symbols/connections/route.ts:53-86 | When no id contains `-`, the route with the string key exports exactly the pair-keyed graph. |
| GraphExport.HyphenatedIdsCollide | app/api/symbols/connections/route.ts:62 | Pairs `a-b`/`c` and `a`/`b-c` share the key `a-b-c`. The route reports one edge for two distinct pairs. |
| Constellations.OwnMembers | app/api/constellations/route.ts:28 | The names that get a numeric count are exactly the listed names that are not inherited members. |
| Constellations.KeysMembers | app/api/constellations/route.ts:38 | `Object.entries` lists exactly the counted names. |
| Constellations.TalliesExactly | app/api/constellations/route.ts:25-38 | Every pair counts its key, repeats included. Every counted name has its pair. |
| Constellations.FrequentExactly | app/api/constellations/route.ts:39 | The filter keeps exactly the pairs counted at least twice. |
| Constellations.ArchetypeLabelsExactly | app/api/constellations/route.ts:31-34 | The archetype labels counted are exactly the truthy ones. |
| Constellations.SortedFrequent | app/api/constellations/route.ts:38-40 | The sorted frequent pairs are ordered by count. Each pair counts a listed, non-inherited name at least twice, and every such name has its pair. |
| Constellations.TopKeysMissing | app/api/constellations/route.ts:40-41 | A pair left out follows five pairs with counts at least as large. |
| Constellations.TopKeysFacts | app/api/constellations/route.ts:38-42 | From a sorted list with one pair per key, the keys taken are distinct and counted at least twice, by non-increasing count. |
| Constellations.TalliesDistinct | app/api/constellations/route.ts:25-38 | `Object.entries` of the counting object gives each name one pair. |
| Constellations.FrequentDistinct | app/api/constellations/route.ts:39 | The filter on a count of at least two keeps keys distinct. |
| Constellations.SortedFrequentKeysDistinct | app/api/constellations/route.ts:38-40 | After filtering and sorting by count, no key appears twice. |
| Constellations.RecurringFacts | app/api/constellations/route.ts:37-42 | At most five recurring symbols, distinct, each listed at least twice, by non-increasing count. |
| Constellations.RecurringTop | app/api/constellations/route.ts:37-42 | A name listed twice or more is left out only when five names listed at least as often were taken. |
| Constellations.RecurringIff | app/api/constellations/route.ts:37-48 | Something recurs exactly when some non-inherited name is listed at least twice. |
| Constellations.TallyHead | app/api/constellations/route.ts:44-45 | The head of the stable sort is a label of maximal count. |
| Constellations.DominantNone | app/api/constellations/route.ts:44-45 | There is no dominant archetype exactly when no truthy, non-inherited label exists. |
| Constellations.DominantFacts | app/api/constellations/route.ts:44-45 | The dominant archetype is a truthy label of maximal count, the first such in `Object.entries` order. |
| Constellations.PatternNameIsKnown | app/api/constellations/route.ts:86-118 | The pattern name is one of the eight. |
| Constellations.FewSymbolsNoElement | app/api/constellations/route.ts:109-117 | With fewer than three symbols, no element pattern is named. |
| Constellations.WaterFirst | app/api/constellations/route.ts:96-109 | Three symbols, one of which contains a water word once lower-cased, always give `ZANURZENIE`. |
| Constellations.ArchetypePatterns | app/api/constellations/route.ts:113-115 | Below three symbols, `CIENIE`, `ANIMA` and `ANIMUS` come exactly from the labels `Cień`, `Anima` and `Animus`. |
| Constellations.NormalizedArchetypesNeverNamePattern | app/api/constellations/route.ts:113-115 | A missing archetype, or one of the upper-case standard names the normalizer produces, never yields those three patterns. |
| Constellations.DescriptionArchetype | app/api/constellations/route.ts:120-128 | The description lists the symbols. It carries the archetype sentence exactly when the archetype is truthy, and distinct truthy archetypes give distinct descriptions. |
| Constellations.ConfidenceBounds | app/api/constellations/route.ts:61 | Confidence lies in [0, 1] and is positive for any symbol. It is n/5 up to five symbols and 1 from five symbols on. |
| Constellations.GetSavesIffRecurring | app/api/constellations/route.ts:47-76 | A constellation is stored and returned exactly when something recurs. Otherwise the database is unchanged and the answer is the no-pattern message. |
| Constellations.QuestionsCoverPatterns | components/ConstellationAlert.tsx:102-114 | The question falls back exactly for a name outside the eight patterns. `ANIMA` and `ANIMUS` share a question. |
| Constellations.OnlyAnimaAnimusShare | components/ConstellationAlert.tsx:103-112 | No other two patterns share a question. |
| Constellations.RouteQuestionsNeverFallBack | components/ConstellationAlert.tsx:85 | A pattern the route returns always has its own question. |
| MergeDuplicates.MembersExactly | scripts/merge-duplicate-symbols.ts:20-26 | A group holds exactly the symbols whose key is the group's key. |
| MergeDuplicates.GroupsPartition | scripts/merge-duplicate-symbols.ts:18-31 | Every symbol lies in the group of its own key and in no other. The duplicate keys are distinct, and a key is among them exactly when its group has two or more members. |
| MergeDuplicates.KeepNoDuplicates | scripts/merge-duplicate-symbols.ts:29-31 | Filtering distinct keys keeps them distinct. |
| MergeDuplicates.NoDuplicatesNoChange | scripts/merge-duplicate-symbols.ts:33-36 | With no group of two, the script changes nothing. |
| MergeDuplicates.KeeperChoice | scripts/merge-duplicate-symbols.ts:43-52 | The kept symbol is a member, named the key when any member is. No member that ties with it on the name test has a larger count. |
| MergeDuplicates.RewriteNamesExactly | scripts/merge-duplicate-symbols.ts:75-82 | The rewrite keeps length and order and replaces exactly the names that normalize to the key. |
| MergeDuplicates.WrittenIffChanged | scripts/merge-duplicate-symbols.ts:74-91 | An entry is written exactly when its list changes. |
| MergeDuplicates.RewriteNoLongerTouched | scripts/merge-duplicate-symbols.ts:75-84 | A rewritten list is not touched again for the same key. |
| MergeDuplicates.DeleteIdsExactly | scripts/merge-duplicate-symbols.ts:95-100 | Deletion removes exactly the rows with a listed id. |
| MergeDuplicates.DeletedAreOtherMembers | scripts/merge-duplicate-symbols.ts:52-53 | The rows deleted are exactly the members other than the kept one. |
| MergeDuplicates.MergeGroupOk | scripts/merge-duplicate-symbols.ts:61-68 | When the kept row exists and no other row holds the key, the rename succeeds. |
| MergeDuplicates.MergeGroupShape | scripts/merge-duplicate-symbols.ts:40-101 | Without a name clash, the group becomes one row with the key as its name and the group's total. Other symbols are untouched. |
| MergeDuplicates.MergeGroupKeepsTotal | scripts/merge-duplicate-symbols.ts:55-92 | Without a name clash, the sum of all counts is unchanged. Every entry is rewritten as the loop over entries does it: a name that normalizes to the key, spelled otherwise, becomes the key, and untouched entries stay as they are. Connections and constellations are unchanged. |
| MergeDuplicates.NameClashAborts | scripts/merge-duplicate-symbols.ts:62-68 | Renaming onto a name another row holds throws. The script stops with the earlier groups' writes in place. |
| FixArchetypes.CleanIffStandard | scripts/fix-archetype-typos.ts:29-33 | A label is left alone exactly when it is missing, empty or a standard name. |
| FixArchetypes.ChangesIffFixedDiffers | scripts/fix-archetype-typos.ts:31-41 | A label is updated exactly when the stored value changes. |
| FixArchetypes.FixedIsClean | scripts/fix-archetype-typos.ts:31-41 | What the script writes would not be updated again. |
| FixArchetypes.KienExample | scripts/fix-archetype-typos.ts:3 | The header example holds: `KIEŃ` is rewritten to `CIEŃ`. |
| FixArchetypes.InheritedLabelWritesNull | scripts/fix-archetype-typos.ts:31-41 | For the stored label `hasOwnProperty` the model updates the label to null. The normalizer as written returns the inherited method there, the value the script would pass to `update`. |
| FixArchetypes.WritesZero | scripts/fix-archetype-typos.ts:28-45 | A column produces no update exactly when none of its labels changes. |
| FixArchetypes.CorrectionsExactly | scripts/fix-archetype-typos.ts:34 | The table holds exactly the changed labels. Each maps to the replacement of one of its occurrences, or to `null`. |
| FixArchetypes.CorrectedAt | scripts/fix-archetype-typos.ts:34 | A label in the table was changed at some position. |
| FixArchetypes.ChangedIsCorrected | scripts/fix-archetype-typos.ts:34 | A label changed at some position is in the table. |
| FixArchetypes.NoTyposIff | scripts/fix-archetype-typos.ts:77-85 | The table is empty exactly when nothing was fixed. |
| FixArchetypes.CorrectedAreChanged | scripts/fix-archetype-typos.ts:28-75 | Every label in the run's table was changed in some entry or symbol. |
| FixArchetypes.ChangedAreCorrected | scripts/fix-archetype-typos.ts:28-75 | Every label changed in some entry or symbol is in the run's table. |
| FixArchetypes.RunCorrections | scripts/fix-archetype-typos.ts:28-75 | The run's table is exactly the labels changed anywhere, each with a replacement. |
| FixArchetypes.RunOnlyArchetypes | scripts/fix-archetype-typos.ts:36-41 | The run touches only the archetype columns. Every row keeps its place and other fields. |
| FixArchetypes.RunCleans | scripts/fix-archetype-typos.ts:28-75 | After a run every label is missing, empty or standard. |
| FixArchetypes.NothingFixedIffClean | scripts/fix-archetype-typos.ts:77-85 | The run fixes nothing exactly when every label is already clean, and then leaves the database as it was. |
| FixArchetypes.RunIdempotent | scripts/fix-archetype-typos.ts:11-86 | A second run fixes nothing, records nothing and changes nothing. |
| ConstellationGraph.GenerateNoise | components/ConstellationGraph.tsx:38-53 | `count` noise items, or none for a count of zero or less. |
| ConstellationGraph.NoiseShape | components/ConstellationGraph.tsx:42-50 | Noise item `i` is `noise-i`, of size 1, with no relations. Its label is pattern `i mod 12`, so labels repeat every twelve items. |
| ConstellationGraph.PatternsDistinct | components/ConstellationGraph.tsx:39 | The twelve noise patterns are distinct. |
| ConstellationGraph.NoiseIdsDistinct | components/ConstellationGraph.tsx:44 | Noise ids are pairwise distinct. |
| ConstellationGraph.RelationsMembers | components/ConstellationGraph.tsx:96-103 | An id is a relation of a node exactly when some edge links the two. |
| ConstellationGraph.RelationsSymmetric | components/ConstellationGraph.tsx:96-103 | Between two distinct nodes, relations are symmetric. |
| ConstellationGraph.SizeIff | components/ConstellationGraph.tsx:106 | An item is big exactly when its count is at least five or its level is at least four. A missing level never counts. |
| ConstellationGraph.BuildShape | components/ConstellationGraph.tsx:94-122 | Item `i` is node `i`'s symbol item, with its name, node and relations. The noise follows in order. |
| ConstellationGraph.BuiltRelationsSymmetric | components/ConstellationGraph.tsx:96-103 | Between the items of two distinct nodes, each is related to the other or neither is. |
| ConstellationGraph.CategoryColors | components/ConstellationGraph.tsx:139-152 | The four categories get four distinct colours. Anything else is grey. |
| ConstellationGraph.FindSelected | components/ConstellationGraph.tsx:162 | A found item has the selected id. |
| ConstellationGraph.FindSelectedFirst | components/ConstellationGraph.tsx:162 | The lookup returns the first item with the selected id, or nothing when there is none. |
| ConstellationGraph.RelatedIffFocused | components/ConstellationGraph.tsx:162-165 | An item is related exactly when the first item with the selected id lists it. |
| ConstellationGraph.OpacityRules | components/ConstellationGraph.tsx:155-168 | Without a selection everything is opaque. With one, noise is dim, the selection is opaque, related items are 0.8 and the rest are dim. |
| ConstellationGraph.OpacityOnDistinctIds | components/ConstellationGraph.tsx:155-168 | On a grid with distinct ids, another symbol is bright exactly when the selected item lists it. |
| ConstellationGraph.BorderRules | components/ConstellationGraph.tsx:171-180 | The border is white for the selection, green for its relations and dark otherwise. |
| ConstellationGraph.BrightIffGreen | components/ConstellationGraph.tsx:155-180 | Under a selection, a symbol is at 0.8 opacity exactly when its border is green. |
| ConstellationGraph.ToggleFlipsOne | components/ConstellationGraph.tsx:245-252 | A button flips its own category and no other. Pressing it twice restores the filter. |
| ConstellationGraph.ShownExactly | components/ConstellationGraph.tsx:270-276 | The shown items are exactly the grid's items that pass the filter, and no more of them than the grid has. |
| ConstellationGraph.ShownAppend | components/ConstellationGraph.tsx:270-276 | Filtering keeps the grid's order: the filter of a joined grid is the join of the filters of its pieces. |
| ConstellationGraph.ShownItems | components/ConstellationGraph.tsx:271-276 | Noise is always shown. A symbol is shown exactly when its category is visible. |
| ConstellationGraph.ClickRules | components/ConstellationGraph.tsx:286-290 | Clicking noise does nothing. Clicking a symbol selects it, or clears the selection when it was selected. |
| SymbolLib.LevelDescriptions | components/SymbolLib.tsx:65-80 | Levels 1 to 5 have five distinct descriptions. Every other level reads `UNKNOWN`. |
| SymbolLib.DescriptionHead | components/SymbolLib.tsx:67-76 | Each level's description opens with its own two letters. |
| SymbolLib.SameCategoryColors | components/SymbolLib.tsx:138-151 | The library's colours are the map's colours. |
| SymbolLib.Icons | components/SymbolLib.tsx:229 | Levels 1 to 4 have four distinct icons. Every other level shows a full block. |
| SymbolLib.SortedSymbolsFacts | components/SymbolLib.tsx:153-166 | The numeric sorts give a permutation in non-increasing key order that keeps the order of equal keys. |
| SymbolLib.SortedByField | components/SymbolLib.tsx:157-162 | The level sort orders by non-increasing level, and the count sort by non-increasing count. |
| SymbolLib.RowsShape | components/SymbolLib.tsx:91-134 | The picture has `n` rows of `side + 1` characters. Each holds its cells and ends in a newline. |
| SymbolLib.VisualShape | components/SymbolLib.tsx:82-135 | The picture has `side` lines of `side` cells and a newline, with `side = 6 + 2L` for level `L` of 1 or more. Each character is the cell the drawing rules give at its position. |
| SymbolLib.CellInPalette | components/SymbolLib.tsx:106-118 | A cell of level 1, 2 or 3 is from that level's palette. |
| SymbolLib.VisualCharset | components/SymbolLib.tsx:106-133 | Level 1 draws only blocks and spaces, level 2 three shades and level 3 four, besides the newlines. |
| SymbolLib.NameHashAppend | components/SymbolLib.tsx:89 | The name hash of a concatenation is the sum of the hashes. |
| SymbolLib.VisualOfSwappedName | components/SymbolLib.tsx:89-135 | The picture depends on the name only through its code-unit sum, so `ab` and `ba` draw alike. |
| Sorting.SortDesc | components/SymbolLib.tsx:153-166 | The sort is a permutation of its input. |
| Sorting.SortDescProperties | components/SymbolLib.tsx:153-166 | The result is in non-increasing key order and keeps the input order within each key: a stable sort. |
| Sorting.SortDescOfSorted | app/api/constellations/route.ts:40 | An input already in order comes back unchanged. |
| Sorting.SortDescFirst | app/api/constellations/route.ts:44-45 | The head carries the largest key and is an element of the input. |
| Common.Distinct | lib/symbol-normalizer.ts:83 | `Array.from(new Set(...))` has no duplicates and holds every input value. |
| Common.DistinctKeepsFirstOccurrenceOrder | lib/symbol-normalizer.ts:83 | The set lists values in the order of first occurrence. |
| JsObject.PropertyOrderShape | app/api/constellations/route.ts:38 | `Object.entries` lists array-index keys first, in ascending order, then the other keys in insertion order. |
| JsObject.PropertyOrderDistinct | app/api/constellations/route.ts:38 | `Object.entries` lists each own key once. |
| Text.Trim | lib/archetype-normalizer.ts:234-238 | `trim` removes exactly the leading and trailing whitespace. It is empty exactly for all-whitespace input. |
| Text.TrimIdempotent | lib/archetype-normalizer.ts:238 | Trimming twice is trimming once. |
| Text.TrimToLower | lib/symbol-normalizer.ts:12 | Lower-casing and trimming commute. |
| Text.CharUnits | lib/archetype-normalizer.ts:277-288 | A character is one UTF-16 code unit exactly when it is at most U+FFFF. Otherwise it is two. |
| Text.UnitsOfBmp | lib/archetype-normalizer.ts:277-288 | Without characters above U+FFFF, the code units are the code points, one per character. |
| Text.NatToStringInjective | components/ConstellationGraph.tsx:44 | Distinct numbers render as distinct decimal strings. |

## Left out

- The database, the HTTP layer and the language model. Each route is a function on an immutable database value. The model's analysis and the ids the database assigns are parameters. Thrown database errors, other than the name clash in the merge script, and the 500 answers are not modelled.
- `GET /api/symbols` (app/api/symbols/route.ts:5-30): a database query sorted by the database, with no logic beyond choosing fields.
- The seven-day window and the newest-first order of `GET /api/constellations`: the entries are given as `recent`.
- `Math.random`: the noise count `Math.floor(n * 0.3)`, the shuffle and the item positions of the symbol map. The model keeps the list before the shuffle, and the focus lemmas hold for any order of the items.
- `getConnectionInfo` and the rest of the map's rendering: text only, built with `Math.round`.
- SymbolLib.Cell: levels 4 and 5 (and any level outside 1 to 3) use `Math.sqrt` and floating-point thresholds. Their character is the parameter `radial`. Only the picture's shape is proved for them.
- The `name` sort (`localeCompare`) and the `lastSeen` sort (date parsing) of the symbol library. The history view and the other components are presentation.
- Text.LowerChar: case mapping covers ASCII and the Polish letters only. Every other character maps to itself, unlike full Unicode case mapping.
- Text.Less: compares characters by code point. JavaScript compares UTF-16 code units, and the two differ only between characters above U+FFFF and those in U+E000 to U+FFFF.
- Constellations.Dominant: an inherited name used as an archetype label gets a string count. The route's comparator then returns NaN and the sort order depends on the engine. The model counts only non-inherited labels.
- Constellations.Question: the model looks up the question table by own properties only. Called with an inherited name, the component would show that member. The route never produces such a name (`RouteQuestionsNeverFallBack`).
- Constellations.ConfidenceBounds: states the confidence over the reals. The stored value is the nearest double of `n / 5`.
- MergeDuplicates.MergeGroupShape: proved for one group, not for the whole run over all groups. The connections of deleted symbols are left to the database's constraints, which are not modelled.
- Console output and the `process.exit` of the scripts.
- Reconcile.LiveNames: normalizes with the own-property lookup of `SymbolNormalizer.NormalizeSymbol`. As written, `normalizeSymbol` returns a function or an object for a listed name such as `constructor` or `__proto__` (second row under Findings). That name then never enters the live set, so a stored symbol of that name is deleted with its connections. The model keeps it. `Reconcile.ActualCount` shares the same lookup.
- MergeDuplicates.KeyOf: groups by the own-property lookup as well. As written, symbols named `constructor` and `Constructor` share the `Object` function as their key, and the rename would pass that function to the database as the new name. The model groups them under the string `constructor`.
- FixArchetypes.Fixed: normalizes with the own-property lookup of `ArchetypeNormalizer.NormalizeArchetype`. As written, `normalizeArchetype` returns the inherited function for a stored label such as `hasOwnProperty` or `toString` (first row under Findings). That function is not the label, so the script passes it to `update` as the new value. The update throws, and `.catch` ends the script with code 1, keeping the updates made before that row. The model writes null for such a label and carries on (`FixArchetypes.InheritedLabelWritesNull`). The corrections table is a map: for the label `__proto__` the script's assignment `corrections["__proto__"] = …` sets no own key (a string is not a prototype), so the printed table would lack that label, while the model records it.
- FixArchetypes.RunCleans: states the model's run. As written, a run that meets an inherited label aborts there, leaving that label and every later unclean label in place.
- FixArchetypes.NothingFixedIffClean: states the model's run. As written, an inherited label is unclean, yet the script aborts on it before it can fix it or print its report.
- FixArchetypes.RunIdempotent: states the model's run. As written, a run that meets an inherited label aborts, and every rerun aborts at the same row.
- GraphExport.Nodes: `orderBy occurrences desc` promises no order among equal counts. The model keeps such ties in stored order, which is one of the orders the database may return.
- GraphExport.Export: likewise, `orderBy strength desc` promises no order among connections of equal strength. The model keeps them in stored order, and that order decides which pair becomes `edge-0`, `edge-1`, and so on. The edge lemmas hold for any input order.

## Findings

| source | as written | input that shows it | evidently intended | confidence | as-written member | corrected member |
|---|---|---|---|---|---|---|
| lib/archetype-normalizer.ts:241-242 | `ARCHETYPE_CORRECTIONS[trimmed]` is a plain object lookup, which also finds `Object.prototype` members | `normalizeArchetype("hasOwnProperty")` returns a function instead of null | look up own properties only, so the label normalizes to null | not executed | ArchetypeNormalizer.AsWrittenReturnsInheritedMember | ArchetypeNormalizer.NormalizeArchetype |
| lib/symbol-normalizer.ts:58-59 | `specificRules[normalized]` is a plain object lookup | `normalizeSymbol("constructor")` returns the `Object` constructor instead of a string | look up own properties only, giving the string `constructor` | not executed | SymbolNormalizer.AsWrittenReturnsInheritedMember | SymbolNormalizer.NormalizeSymbol |
| app/api/symbols/connections/route.ts:62 | the edge key is the string `${fromId}-${toId}` | connections `a-b`→`c` and `a`→`b-c` share the key `a-b-c`, so one edge is reported for two pairs | key edges by the pair of ids | not executed; needs ids that contain `-` | GraphExport.HyphenatedIdsCollide | GraphExport.ExportEdgesShape |

=== FILE: analyze.dfy ===
/** `POST /api/analyze`: validates the request, stores one entry built from
    the language model's analysis, and upserts one symbol per detected name.

    The analysis itself (a network call) is a parameter. Names are used
    exactly as the model returned them: this route does not normalize,
    and it writes no connections. */
module Analyze {
  import opened Common
  import opened Store

  datatype Response = BadRequest(error: string) | Analyzed(analysis: Analysis)

  /** The stored entry: the content goes to `contentText` for a text entry
      and to `imageUrl` for an image entry, and the analysis is copied
      without any normalization. */
  function NewEntry(id: string, kind: string, content: string, a: Analysis): (e: Entry)
    ensures e.id == id && e.kind == kind
    ensures e.contentText == (if kind == "text" then Some(content) else None)
    ensures e.imageUrl == (if kind == "image" then Some(content) else None)
    ensures e.detectedSymbols == a.detectedSymbols && e.dominantArchetype == a.dominantArchetype
    ensures e.aiAnalysis == a
  {
    Entry(id, kind,
          if kind == "text" then Some(content) else None,
          if kind == "image" then Some(content) else None,
          a.detectedSymbols, a.dominantArchetype, a.visualMood, a,
          a.analysisLog, a.reflectionQuestion)
  }

  /** One `prisma.symbol.upsert`: increment the symbol called `name`, or
      create it with count 1 and the entry's raw archetype. */
  function Upsert(symbols: seq<Symbol>, name: string, archetype: Option<string>, id: string): seq<Symbol>
  {
    match FindByName(symbols, name)
    case Some(i) => symbols[i := symbols[i].(occurrences := symbols[i].occurrences + 1)]
    case None => symbols + [Symbol(id, name, None, archetype, None, None, 1)]
  }

  /** The upsert loop, one name after another; `newId` is the identifier
      the database gives a symbol it creates. */
  function UpsertAll(symbols: seq<Symbol>, names: seq<string>, archetype: Option<string>,
                     newId: string -> string): seq<Symbol>
  {
    if |names| == 0 then symbols
    else
      var last := names[|names| - 1];
      Upsert(UpsertAll(symbols, names[..|names| - 1], archetype, newId), last, archetype, newId(last))
  }

  /** The route as a state transition. */
  function Post(db: Db, kind: Option<string>, content: Option<string>, analysis: Analysis,
                entryId: string, newId: string -> string): (Db, Response)
  {
    if !Truthy(kind) || !Truthy(content) then (db, BadRequest("Missing type or content"))
    else
      var entry := NewEntry(entryId, kind.value, content.value, analysis);
      var symbols := UpsertAll(db.symbols, analysis.detectedSymbols, analysis.dominantArchetype, newId);
      (db.(entries := db.entries + [entry], symbols := symbols), Analyzed(analysis))
  }

  /** With unique names, the lookup finds THE symbol of that name. */
  lemma FindUnique(symbols: seq<Symbol>, i: nat)
    requires UniqueNames(symbols) && i < |symbols|
    ensures FindByName(symbols, symbols[i].name) == Some(i)
  {
  }

  /** The symbols of `before` are still first in `r`, in place, each with its
      count raised by the number of times `names` lists it. */
  ghost predicate Raised(before: seq<Symbol>, r: seq<Symbol>, names: seq<string>)
  {
    && |before| <= |r|
    && forall i :: 0 <= i < |before| ==>
         r[i] == before[i].(occurrences := before[i].occurrences + Count(names, before[i].name))
  }

  /** The symbols after those of `before` were created for new names listed in
      `names`, with the raw archetype and one occurrence per listing. */
  ghost predicate Created(before: seq<Symbol>, r: seq<Symbol>, names: seq<string>,
                          archetype: Option<string>, newId: string -> string)
  {
    forall i :: |before| <= i < |r| ==>
      && r[i].name in names && r[i].name !in Names(before)
      && r[i] == Symbol(newId(r[i].name), r[i].name, None, archetype, None, None, Count(names, r[i].name))
  }

  lemma NamesAppend(symbols: seq<Symbol>, s: Symbol)
    ensures Names(symbols + [s]) == Names(symbols) + {s.name}
  {
    var r := symbols + [s];
    forall n | n in Names(symbols) ensures n in Names(r) {
      var j :| 0 <= j < |symbols| && symbols[j].name == n;
      assert r[j] == symbols[j];
    }
    assert r[|symbols|] == s;
  }

  lemma NamesUpdate(symbols: seq<Symbol>, k: nat, s: Symbol)
    requires k < |symbols| && s.name == symbols[k].name
    ensures Names(symbols[k := s]) == Names(symbols)
  {
    var r := symbols[k := s];
    forall n | n in Names(symbols) ensures n in Names(r) {
      var j :| 0 <= j < |symbols| && symbols[j].name == n;
      assert r[j].name == n;
    }
  }

  /** One upsert, in the same terms. */
  lemma UpsertShape(symbols: seq<Symbol>, name: string, archetype: Option<string>, id: string)
    requires UniqueNames(symbols)
    ensures var r := Upsert(symbols, name, archetype, id);
      && UniqueNames(r) && Names(r) == Names(symbols) + {name}
      && Raised(symbols, r, [name])
      && (|r| > |symbols| ==> |r| == |symbols| + 1 && name !in Names(symbols)
                              && r[|symbols|] == Symbol(id, name, None, archetype, None, None, 1))
  {
    var r := Upsert(symbols, name, archetype, id);
    assert forall n :: Count([name], n) == if n == name then 1 else 0;
    match FindByName(symbols, name)
    case Some(k) =>
      NamesUpdate(symbols, k, symbols[k].(occurrences := symbols[k].occurrences + 1));
    case None =>
      NamesAppend(symbols, Symbol(id, name, None, archetype, None, None, 1));
  }

  /** Two rounds of raising compose. */
  lemma RaisedStep(symbols: seq<Symbol>, mid: seq<Symbol>, r: seq<Symbol>, init: seq<string>, last: string)
    requires Raised(symbols, mid, init) && Raised(mid, r, [last])
    ensures Raised(symbols, r, init + [last])
  {
    forall i | 0 <= i < |symbols|
      ensures r[i] == symbols[i].(occurrences := symbols[i].occurrences + Count(init + [last], symbols[i].name))
    {
      CountAppend(init, [last], symbols[i].name);
      assert mid[i].name == symbols[i].name;
    }
  }

  /** Symbols created earlier stay created; one more may be appended. */
  lemma CreatedStep(symbols: seq<Symbol>, mid: seq<Symbol>, r: seq<Symbol>, init: seq<string>, last: string,
                    archetype: Option<string>, newId: string -> string)
    requires Created(symbols, mid, init, archetype, newId) && Raised(mid, r, [last])
    requires forall n :: n in Names(mid) <==> n in Names(symbols) || n in init
    requires |r| > |mid| ==> |r| == |mid| + 1 && last !in Names(mid)
                             && r[|mid|] == Symbol(newId(last), last, None, archetype, None, None, 1)
    requires |symbols| <= |mid|
    ensures Created(symbols, r, init + [last], archetype, newId)
  {
    var names := init + [last];
    forall i | |symbols| <= i < |r|
      ensures && r[i].name in names && r[i].name !in Names(symbols)
              && r[i] == Symbol(newId(r[i].name), r[i].name, None, archetype, None, None, Count(names, r[i].name))
    {
      CountAppend(init, [last], r[i].name);
      if i == |mid| {
        assert last !in init;
        CountPositive(init, last);
      }
    }
  }

  /** The whole loop: the old symbols are raised in place, the appended
      ones are created for new names, and names stay unique. */
  lemma {:induction false} UpsertAllShape(symbols: seq<Symbol>, names: seq<string>,
                                         archetype: Option<string>, newId: string -> string)
    requires UniqueNames(symbols)
    ensures var r := UpsertAll(symbols, names, archetype, newId);
      && UniqueNames(r)
      && (forall n :: n in Names(r) <==> n in Names(symbols) || n in names)
      && Raised(symbols, r, names)
      && Created(symbols, r, names, archetype, newId)
  {
    if |names| > 0 {
      var init, last := names[..|names| - 1], names[|names| - 1];
      assert names == init + [last];
      UpsertAllShape(symbols, init, archetype, newId);
      var mid := UpsertAll(symbols, init, archetype, newId);
      UpsertShape(mid, last, archetype, newId(last));
      var r := UpsertAll(symbols, names, archetype, newId);
      RaisedStep(symbols, mid, r, init, last);
      CreatedStep(symbols, mid, r, init, last, archetype, newId);
    }
  }

  /** Raised-in-place and created symbols add up to the listed counts. */
  lemma CountsFromShape(before: seq<Symbol>, r: seq<Symbol>, names: seq<string>,
                        archetype: Option<string>, newId: string -> string)
    requires UniqueNames(before) && UniqueNames(r)
    requires forall n :: n in Names(r) <==> n in Names(before) || n in names
    requires Raised(before, r, names) && Created(before, r, names, archetype, newId)
    ensures forall n :: OccurrencesOf(r, n) == OccurrencesOf(before, n) + Count(names, n)
  {
    forall n ensures OccurrencesOf(r, n) == OccurrencesOf(before, n) + Count(names, n) {
      if n in Names(before) {
        var j :| 0 <= j < |before| && before[j].name == n;
        FindUnique(before, j);
        FindUnique(r, j);
      } else if n in names {
        assert n in Names(r);
        var j :| 0 <= j < |r| && r[j].name == n;
        FindUnique(r, j);
      } else {
        CountPositive(names, n);
      }
    }
  }

  /** Every name's count rises by the number of times it is listed, repeats
      included, and names stay unique. */
  lemma UpsertAllCounts(symbols: seq<Symbol>, names: seq<string>,
                        archetype: Option<string>, newId: string -> string)
    requires UniqueNames(symbols)
    ensures UniqueNames(UpsertAll(symbols, names, archetype, newId))
    ensures forall n :: OccurrencesOf(UpsertAll(symbols, names, archetype, newId), n) ==
                        OccurrencesOf(symbols, n) + Count(names, n)
  {
    UpsertAllShape(symbols, names, archetype, newId);
    CountsFromShape(symbols, UpsertAll(symbols, names, archetype, newId), names, archetype, newId);
  }

  /** A request without a truthy `type` or `content` is refused and changes
      nothing. */
  lemma PostRejectsMissingFields(db: Db, kind: Option<string>, content: Option<string>,
                                 analysis: Analysis, entryId: string, newId: string -> string)
    requires kind.None? || content.None? || kind == Some("") || content == Some("")
    ensures Post(db, kind, content, analysis, entryId, newId) == (db, BadRequest("Missing type or content"))
  {
  }

  /** A valid request appends exactly one entry, leaves every other entry,
      the connections and the constellations alone, answers with the
      analysis unchanged, and adds the detected names to the symbol counts. */
  lemma PostStoresOneEntry(db: Db, kind: Option<string>, content: Option<string>,
                           analysis: Analysis, entryId: string, newId: string -> string)
    requires Truthy(kind) && Truthy(content) && UniqueNames(db.symbols)
    ensures var (db', response) := Post(db, kind, content, analysis, entryId, newId);
      && response == Analyzed(analysis)
      && db'.entries == db.entries + [NewEntry(entryId, kind.value, content.value, analysis)]
      && db'.connections == db.connections && db'.constellations == db.constellations
      && Raised(db.symbols, db'.symbols, analysis.detectedSymbols)
      && Created(db.symbols, db'.symbols, analysis.detectedSymbols, analysis.dominantArchetype, newId)
      && UniqueNames(db'.symbols)
  {
    UpsertAllShape(db.symbols, analysis.detectedSymbols, analysis.dominantArchetype, newId);
  }
}

=== FILE: archetype_fixed_points.dfy ===
/** Every standard archetype name normalizes to itself, and therefore
    `normalizeArchetype` is idempotent: a second pass over a stored label
    changes nothing.

    Eight names are keys of the correction table that map to themselves.
    The other thirteen reach themselves through the fuzzy step, which
    needs every EARLIER standard name to fall short of the 0.8 overlap
    score; `<Name>Far<k>` rules those out one by one, either by the length
    gap alone or by listing positions of the shorter name whose character
    is absent from the longer one. */
module ArchetypeFixedPoints {
  import opened Common
  import opened Text
  import opened ArchetypeNormalizer

  /** A name the correction table maps to itself is a fixed point. */
  lemma FixedByTable(name: string)
    requires |name| > 0 && !IsSpace(name[0]) && !IsSpace(name[|name| - 1])
    requires Correction(name) == Some(name)
    ensures NormalizeArchetype(Some(name)) == Some(name)
  {
    TrimmedLabel(name);
  }

  /** An upper-case standard name off the table, outside the `KIEŃ` rule and
      far from every earlier standard name, is a fixed point. */
  lemma FixedByFuzzy(name: string, i: nat)
    requires i < |StandardArchetypes| && StandardArchetypes[i] == name
    requires |name| > 0 && !IsSpace(name[0]) && !IsSpace(name[|name| - 1])
    requires Correction(name) == None && ToUpper(name) == name
    requires ('K' !in name || 'Ń' !in name) && name != "KIEN"
    requires forall j | 0 <= j < i :: !CloseEnough(name, StandardArchetypes[j])
    ensures NormalizeArchetype(Some(name)) == Some(name)
  {
    TrimmedLabel(name);
    assert !Contains(name, "KIEŃ") by {
      if Contains(name, "KIEŃ") {
        if 'K' !in name {
          ContainsKeepsChars(name, "KIEŃ", 'K');
        } else {
          ContainsKeepsChars(name, "KIEŃ", 'Ń');
        }
      }
    }
    StandardNamesInBmp();
    CloseEnoughInBmp(name, name);
    CloseToItself(name);
    forall j | 0 <= j < i
      ensures !CloseEnough(Units(name), Units(StandardArchetypes[j]))
    {
      CloseEnoughInBmp(name, StandardArchetypes[j]);
    }
    FirstCloseFinds(Units(name), StandardArchetypes, 0, i);
  }


  lemma JaznFixed()
    ensures NormalizeArchetype(Some(StandardArchetypes[0])) == Some(StandardArchetypes[0])
  {
    assert StandardArchetypes[0] == "JAŹŃ";
    FixedByTable("JAŹŃ");
  }

  lemma PersonaFixed()
    ensures NormalizeArchetype(Some(StandardArchetypes[2])) == Some(StandardArchetypes[2])
  {
    assert StandardArchetypes[2] == "PERSONA";
    FixedByTable("PERSONA");
  }

  lemma AnimaFixed()
    ensures NormalizeArchetype(Some(StandardArchetypes[3])) == Some(StandardArchetypes[3])
  {
    assert StandardArchetypes[3] == "ANIMA";
    FixedByTable("ANIMA");
  }

  lemma AnimusFixed()
    ensures NormalizeArchetype(Some(StandardArchetypes[4])) == Some(StandardArchetypes[4])
  {
    assert StandardArchetypes[4] == "ANIMUS";
    FixedByTable("ANIMUS");
  }

  lemma NemesisFixed()
    ensures NormalizeArchetype(Some(StandardArchetypes[5])) == Some(StandardArchetypes[5])
  {
    assert StandardArchetypes[5] == "NEMESIS";
    FixedByTable("NEMESIS");
  }

  lemma KrytykFixed()
    ensures NormalizeArchetype(Some(StandardArchetypes[6])) == Some(StandardArchetypes[6])
  {
    assert StandardArchetypes[6] == "KRYTYK";
    FixedByTable("KRYTYK");
  }

  lemma TricksterFixed()
    ensures NormalizeArchetype(Some(StandardArchetypes[7])) == Some(StandardArchetypes[7])
  {
    assert StandardArchetypes[7] == "TRICKSTER";
    FixedByTable("TRICKSTER");
  }

  lemma DemonFixed()
    ensures NormalizeArchetype(Some(StandardArchetypes[8])) == Some(StandardArchetypes[8])
  {
    assert StandardArchetypes[8] == "DEMON";
    FixedByTable("DEMON");
  }

  lemma CienFacts()
    ensures StandardArchetypes[1] == "CIEŃ"
    ensures Correction("CIEŃ") == None && ToUpper("CIEŃ") == "CIEŃ"
  {
  }

  lemma CienFixed()
    ensures NormalizeArchetype(Some(StandardArchetypes[1])) == Some(StandardArchetypes[1])
  {
    CienFacts();
    forall j | 0 <= j < 1
      ensures !CloseEnough("CIEŃ", StandardArchetypes[j])
    {
      CienFar0(j);
    }
    FixedByFuzzy("CIEŃ", 1);
  }

  lemma HerosFacts()
    ensures StandardArchetypes[9] == "HEROS"
    ensures Correction("HEROS") == None && ToUpper("HEROS") == "HEROS"
  {
  }

  lemma HerosFixed()
    ensures NormalizeArchetype(Some(StandardArchetypes[9])) == Some(StandardArchetypes[9])
  {
    HerosFacts();
    forall j | 0 <= j < 9
      ensures !CloseEnough("HEROS", StandardArchetypes[j])
    {
      if j < 7 {
        HerosFar0(j);
      } else {
        HerosFar1(j);
      }
    }
    FixedByFuzzy("HEROS", 9);
  }

  lemma OpiekunFacts()
    ensures StandardArchetypes[10] == "OPIEKUN"
    ensures Correction("OPIEKUN") == None && ToUpper("OPIEKUN") == "OPIEKUN"
  {
  }

  lemma OpiekunFixed()
    ensures NormalizeArchetype(Some(StandardArchetypes[10])) == Some(StandardArchetypes[10])
  {
    OpiekunFacts();
    forall j | 0 <= j < 10
      ensures !CloseEnough("OPIEKUN", StandardArchetypes[j])
    {
      if j < 7 {
        OpiekunFar0(j);
      } else {
        OpiekunFar1(j);
      }
    }
    FixedByFuzzy("OPIEKUN", 10);
  }

  lemma TworcaFacts()
    ensures StandardArchetypes[11] == "TWÓRCA"
    ensures Correction("TWÓRCA") == None && ToUpper("TWÓRCA") == "TWÓRCA"
  {
  }

  lemma TworcaFixed()
    ensures NormalizeArchetype(Some(StandardArchetypes[11])) == Some(StandardArchetypes[11])
  {
    TworcaFacts();
    forall j | 0 <= j < 11
      ensures !CloseEnough("TWÓRCA", StandardArchetypes[j])
    {
      if j < 7 {
        TworcaFar0(j);
      } else {
        TworcaFar1(j);
      }
    }
    FixedByFuzzy("TWÓRCA", 11);
  }

  lemma OdkrywcaFacts()
    ensures StandardArchetypes[12] == "ODKRYWCA"
    ensures Correction("ODKRYWCA") == None && ToUpper("ODKRYWCA") == "ODKRYWCA"
  {
  }

  lemma OdkrywcaFixed()
    ensures NormalizeArchetype(Some(StandardArchetypes[12])) == Some(StandardArchetypes[12])
  {
    OdkrywcaFacts();
    forall j | 0 <= j < 12
      ensures !CloseEnough("ODKRYWCA", StandardArchetypes[j])
    {
      if j < 7 {
        OdkrywcaFar0(j);
      } else {
        OdkrywcaFar1(j);
      }
    }
    FixedByFuzzy("ODKRYWCA", 12);
  }

  lemma NiewinnyFacts()
    ensures StandardArchetypes[13] == "NIEWINNY"
    ensures Correction("NIEWINNY") == None && ToUpper("NIEWINNY") == "NIEWINNY"
  {
  }

  lemma NiewinnyFixed()
    ensures NormalizeArchetype(Some(StandardArchetypes[13])) == Some(StandardArchetypes[13])
  {
    NiewinnyFacts();
    forall j | 0 <= j < 13
      ensures !CloseEnough("NIEWINNY", StandardArchetypes[j])
    {
      if j < 7 {
        NiewinnyFar0(j);
      } else {
        NiewinnyFar1(j);
      }
    }
    FixedByFuzzy("NIEWINNY", 13);
  }

  lemma BlazenFacts()
    ensures StandardArchetypes[14] == "BŁAZEN"
    ensures Correction("BŁAZEN") == None && ToUpper("BŁAZEN") == "BŁAZEN"
  {
  }

  lemma BlazenFixed()
    ensures NormalizeArchetype(Some(StandardArchetypes[14])) == Some(StandardArchetypes[14])
  {
    BlazenFacts();
    forall j | 0 <= j < 14
      ensures !CloseEnough("BŁAZEN", StandardArchetypes[j])
    {
      if j < 7 {
        BlazenFar0(j);
      } else {
        BlazenFar1(j);
      }
    }
    FixedByFuzzy("BŁAZEN", 14);
  }

  lemma KochanekFacts()
    ensures StandardArchetypes[15] == "KOCHANEK"
    ensures Correction("KOCHANEK") == None && ToUpper("KOCHANEK") == "KOCHANEK"
  {
  }

  lemma KochanekFixed()
    ensures NormalizeArchetype(Some(StandardArchetypes[15])) == Some(StandardArchetypes[15])
  {
    KochanekFacts();
    forall j | 0 <= j < 15
      ensures !CloseEnough("KOCHANEK", StandardArchetypes[j])
    {
      if j < 7 {
        KochanekFar0(j);
      } else if j < 14 {
        KochanekFar1(j);
      } else {
        KochanekFar2(j);
      }
    }
    FixedByFuzzy("KOCHANEK", 15);
  }

  lemma MagFacts()
    ensures StandardArchetypes[16] == "MAG"
    ensures Correction("MAG") == None && ToUpper("MAG") == "MAG"
  {
  }

  lemma MagFixed()
    ensures NormalizeArchetype(Some(StandardArchetypes[16])) == Some(StandardArchetypes[16])
  {
    MagFacts();
    forall j | 0 <= j < 16
      ensures !CloseEnough("MAG", StandardArchetypes[j])
    {
      if j < 7 {
        MagFar0(j);
      } else if j < 14 {
        MagFar1(j);
      } else {
        MagFar2(j);
      }
    }
    FixedByFuzzy("MAG", 16);
  }

  lemma BuntownikFacts()
    ensures StandardArchetypes[17] == "BUNTOWNIK"
    ensures Correction("BUNTOWNIK") == None && ToUpper("BUNTOWNIK") == "BUNTOWNIK"
  {
  }

  lemma BuntownikFixed()
    ensures NormalizeArchetype(Some(StandardArchetypes[17])) == Some(StandardArchetypes[17])
  {
    BuntownikFacts();
    forall j | 0 <= j < 17
      ensures !CloseEnough("BUNTOWNIK", StandardArchetypes[j])
    {
      if j < 7 {
        BuntownikFar0(j);
      } else if j < 14 {
        BuntownikFar1(j);
      } else {
        BuntownikFar2(j);
      }
    }
    FixedByFuzzy("BUNTOWNIK", 17);
  }

  lemma WladcaFacts()
    ensures StandardArchetypes[18] == "WŁADCA"
    ensures Correction("WŁADCA") == None && ToUpper("WŁADCA") == "WŁADCA"
  {
  }

  lemma WladcaFixed()
    ensures NormalizeArchetype(Some(StandardArchetypes[18])) == Some(StandardArchetypes[18])
  {
    WladcaFacts();
    forall j | 0 <= j < 18
      ensures !CloseEnough("WŁADCA", StandardArchetypes[j])
    {
      if j < 7 {
        WladcaFar0(j);
      } else if j < 14 {
        WladcaFar1(j);
      } else {
        WladcaFar2(j);
      }
    }
    FixedByFuzzy("WŁADCA", 18);
  }

  lemma MedrzecFacts()
    ensures StandardArchetypes[19] == "MĘDRZEC"
    ensures Correction("MĘDRZEC") == None && ToUpper("MĘDRZEC") == "MĘDRZEC"
  {
  }

  lemma MedrzecFixed()
    ensures NormalizeArchetype(Some(StandardArchetypes[19])) == Some(StandardArchetypes[19])
  {
    MedrzecFacts();
    forall j | 0 <= j < 19
      ensures !CloseEnough("MĘDRZEC", StandardArchetypes[j])
    {
      if j < 7 {
        MedrzecFar0(j);
      } else if j < 14 {
        MedrzecFar1(j);
      } else {
        MedrzecFar2(j);
      }
    }
    FixedByFuzzy("MĘDRZEC", 19);
  }

  lemma SierotaFacts()
    ensures StandardArchetypes[20] == "SIEROTA"
    ensures Correction("SIEROTA") == None && ToUpper("SIEROTA") == "SIEROTA"
  {
  }

  lemma SierotaFixed()
    ensures NormalizeArchetype(Some(StandardArchetypes[20])) == Some(StandardArchetypes[20])
  {
    SierotaFacts();
    forall j | 0 <= j < 20
      ensures !CloseEnough("SIEROTA", StandardArchetypes[j])
    {
      if j < 7 {
        SierotaFar0(j);
      } else if j < 14 {
        SierotaFar1(j);
      } else {
        SierotaFar2(j);
      }
    }
    FixedByFuzzy("SIEROTA", 20);
  }

  /** `normalizeArchetype` is idempotent: its results are standard names, and
      those are fixed points. */
  lemma NormalizeArchetypeIdempotent(archetype: Option<string>)
    ensures NormalizeArchetype(NormalizeArchetype(archetype)) == NormalizeArchetype(archetype)
  {
    var r := NormalizeArchetype(archetype);
    if r.Some? {
      StandardNamesAreFixed();
      var i :| 0 <= i < |StandardArchetypes| && StandardArchetypes[i] == r.value;
    }
  }

  /** All twenty-one standard names are fixed points. */
  lemma StandardNamesAreFixed()
    ensures forall i | 0 <= i < |StandardArchetypes| ::
      NormalizeArchetype(Some(StandardArchetypes[i])) == Some(StandardArchetypes[i])
  {
    forall i | 0 <= i < |StandardArchetypes|
      ensures NormalizeArchetype(Some(StandardArchetypes[i])) == Some(StandardArchetypes[i])
    {
      if i == 0 {
        JaznFixed();
      } else if i == 1 {
        CienFixed();
      } else if i == 2 {
        PersonaFixed();
      } else if i == 3 {
        AnimaFixed();
      } else if i == 4 {
        AnimusFixed();
      } else if i == 5 {
        NemesisFixed();
      } else if i == 6 {
        KrytykFixed();
      } else if i == 7 {
        TricksterFixed();
      } else if i == 8 {
        DemonFixed();
      } else if i == 9 {
        HerosFixed();
      } else if i == 10 {
        OpiekunFixed();
      } else if i == 11 {
        TworcaFixed();
      } else if i == 12 {
        OdkrywcaFixed();
      } else if i == 13 {
        NiewinnyFixed();
      } else if i == 14 {
        BlazenFixed();
      } else if i == 15 {
        KochanekFixed();
      } else if i == 16 {
        MagFixed();
      } else if i == 17 {
        BuntownikFixed();
      } else if i == 18 {
        WladcaFixed();
      } else if i == 19 {
        MedrzecFixed();
      } else {
        SierotaFixed();
      }
    }
  }

  lemma CienFar0(j: nat)
    requires j < 1
    ensures !CloseEnough("CIEŃ", StandardArchetypes[j])
  {
    FarByMisses("CIEŃ", "JAŹŃ", {0});
  }

  lemma HerosFar0(j: nat)
    requires j < 7
    ensures !CloseEnough("HEROS", StandardArchetypes[j])
  {
    if j == 0 {
      FarByMisses("HEROS", "JAŹŃ", {0});
    } else if j == 1 {
      FarByMisses("HEROS", "CIEŃ", {0});
    } else if j == 2 {
      FarByLength("HEROS", "PERSONA");
    } else if j == 3 {
      FarByMisses("HEROS", "ANIMA", {0, 1});
    } else if j == 4 {
      FarByMisses("HEROS", "ANIMUS", {0});
    } else if j == 5 {
      FarByLength("HEROS", "NEMESIS");
    } else {
      FarByMisses("HEROS", "KRYTYK", {0});
    }
  }

  lemma HerosFar1(j: nat)
    requires 7 <= j < 9
    ensures !CloseEnough("HEROS", StandardArchetypes[j])
  {
    if j == 7 {
      FarByLength("HEROS", "TRICKSTER");
    } else {
      FarByMisses("HEROS", "DEMON", {0, 2});
    }
  }

  lemma OpiekunFar0(j: nat)
    requires j < 7
    ensures !CloseEnough("OPIEKUN", StandardArchetypes[j])
  {
    if j == 0 {
      FarByLength("OPIEKUN", "JAŹŃ");
    } else if j == 1 {
      FarByLength("OPIEKUN", "CIEŃ");
    } else if j == 2 {
      FarByMisses("OPIEKUN", "PERSONA", {2, 4});
    } else if j == 3 {
      FarByLength("OPIEKUN", "ANIMA");
    } else if j == 4 {
      FarByMisses("OPIEKUN", "ANIMUS", {0});
    } else if j == 5 {
      FarByMisses("OPIEKUN", "NEMESIS", {0, 1});
    } else {
      FarByMisses("OPIEKUN", "KRYTYK", {1});
    }
  }

  lemma OpiekunFar1(j: nat)
    requires 7 <= j < 10
    ensures !CloseEnough("OPIEKUN", StandardArchetypes[j])
  {
    if j == 7 {
      FarByLength("OPIEKUN", "TRICKSTER");
    } else if j == 8 {
      FarByLength("OPIEKUN", "DEMON");
    } else {
      FarByLength("OPIEKUN", "HEROS");
    }
  }

  lemma TworcaFar0(j: nat)
    requires j < 7
    ensures !CloseEnough("TWÓRCA", StandardArchetypes[j])
  {
    if j == 0 {
      FarByLength("TWÓRCA", "JAŹŃ");
    } else if j == 1 {
      FarByLength("TWÓRCA", "CIEŃ");
    } else if j == 2 {
      FarByMisses("TWÓRCA", "PERSONA", {0});
    } else if j == 3 {
      FarByMisses("TWÓRCA", "ANIMA", {1});
    } else if j == 4 {
      FarByMisses("TWÓRCA", "ANIMUS", {0, 1});
    } else if j == 5 {
      FarByMisses("TWÓRCA", "NEMESIS", {0});
    } else {
      FarByMisses("TWÓRCA", "KRYTYK", {1, 2});
    }
  }

  lemma TworcaFar1(j: nat)
    requires 7 <= j < 11
    ensures !CloseEnough("TWÓRCA", StandardArchetypes[j])
  {
    if j == 7 {
      FarByLength("TWÓRCA", "TRICKSTER");
    } else if j == 8 {
      FarByMisses("TWÓRCA", "DEMON", {0});
    } else if j == 9 {
      FarByMisses("TWÓRCA", "HEROS", {0});
    } else {
      FarByMisses("TWÓRCA", "OPIEKUN", {0});
    }
  }

  lemma OdkrywcaFar0(j: nat)
    requires j < 7
    ensures !CloseEnough("ODKRYWCA", StandardArchetypes[j])
  {
    if j == 0 {
      FarByLength("ODKRYWCA", "JAŹŃ");
    } else if j == 1 {
      FarByLength("ODKRYWCA", "CIEŃ");
    } else if j == 2 {
      FarByMisses("ODKRYWCA", "PERSONA", {0});
    } else if j == 3 {
      FarByLength("ODKRYWCA", "ANIMA");
    } else if j == 4 {
      FarByLength("ODKRYWCA", "ANIMUS");
    } else if j == 5 {
      FarByMisses("ODKRYWCA", "NEMESIS", {0});
    } else {
      FarByLength("ODKRYWCA", "KRYTYK");
    }
  }

  lemma OdkrywcaFar1(j: nat)
    requires 7 <= j < 12
    ensures !CloseEnough("ODKRYWCA", StandardArchetypes[j])
  {
    if j == 7 {
      FarByMisses("ODKRYWCA", "TRICKSTER", {0});
    } else if j == 8 {
      FarByLength("ODKRYWCA", "DEMON");
    } else if j == 9 {
      FarByLength("ODKRYWCA", "HEROS");
    } else if j == 10 {
      FarByMisses("ODKRYWCA", "OPIEKUN", {1});
    } else {
      FarByLength("ODKRYWCA", "TWÓRCA");
    }
  }

  lemma NiewinnyFar0(j: nat)
    requires j < 7
    ensures !CloseEnough("NIEWINNY", StandardArchetypes[j])
  {
    if j == 0 {
      FarByLength("NIEWINNY", "JAŹŃ");
    } else if j == 1 {
      FarByLength("NIEWINNY", "CIEŃ");
    } else if j == 2 {
      FarByMisses("NIEWINNY", "PERSONA", {0});
    } else if j == 3 {
      FarByLength("NIEWINNY", "ANIMA");
    } else if j == 4 {
      FarByLength("NIEWINNY", "ANIMUS");
    } else if j == 5 {
      FarByMisses("NIEWINNY", "NEMESIS", {2});
    } else {
      FarByLength("NIEWINNY", "KRYTYK");
    }
  }

  lemma NiewinnyFar1(j: nat)
    requires 7 <= j < 13
    ensures !CloseEnough("NIEWINNY", StandardArchetypes[j])
  {
    if j == 7 {
      FarByMisses("NIEWINNY", "TRICKSTER", {0});
    } else if j == 8 {
      FarByLength("NIEWINNY", "DEMON");
    } else if j == 9 {
      FarByLength("NIEWINNY", "HEROS");
    } else if j == 10 {
      FarByMisses("NIEWINNY", "OPIEKUN", {0});
    } else if j == 11 {
      FarByLength("NIEWINNY", "TWÓRCA");
    } else {
      FarByMisses("NIEWINNY", "ODKRYWCA", {0, 1});
    }
  }

  lemma BlazenFar0(j: nat)
    requires j < 7
    ensures !CloseEnough("BŁAZEN", StandardArchetypes[j])
  {
    if j == 0 {
      FarByLength("BŁAZEN", "JAŹŃ");
    } else if j == 1 {
      FarByLength("BŁAZEN", "CIEŃ");
    } else if j == 2 {
      FarByMisses("BŁAZEN", "PERSONA", {0});
    } else if j == 3 {
      FarByMisses("BŁAZEN", "ANIMA", {2});
    } else if j == 4 {
      FarByMisses("BŁAZEN", "ANIMUS", {0, 1});
    } else if j == 5 {
      FarByMisses("BŁAZEN", "NEMESIS", {0});
    } else {
      FarByMisses("BŁAZEN", "KRYTYK", {0, 1});
    }
  }

  lemma BlazenFar1(j: nat)
    requires 7 <= j < 14
    ensures !CloseEnough("BŁAZEN", StandardArchetypes[j])
  {
    if j == 7 {
      FarByLength("BŁAZEN", "TRICKSTER");
    } else if j == 8 {
      FarByMisses("BŁAZEN", "DEMON", {0});
    } else if j == 9 {
      FarByMisses("BŁAZEN", "HEROS", {0});
    } else if j == 10 {
      FarByMisses("BŁAZEN", "OPIEKUN", {0});
    } else if j == 11 {
      FarByMisses("BŁAZEN", "TWÓRCA", {0, 1});
    } else if j == 12 {
      FarByLength("BŁAZEN", "ODKRYWCA");
    } else {
      FarByLength("BŁAZEN", "NIEWINNY");
    }
  }

  lemma KochanekFar0(j: nat)
    requires j < 7
    ensures !CloseEnough("KOCHANEK", StandardArchetypes[j])
  {
    if j == 0 {
      FarByLength("KOCHANEK", "JAŹŃ");
    } else if j == 1 {
      FarByLength("KOCHANEK", "CIEŃ");
    } else if j == 2 {
      FarByMisses("KOCHANEK", "PERSONA", {0});
    } else if j == 3 {
      FarByLength("KOCHANEK", "ANIMA");
    } else if j == 4 {
      FarByLength("KOCHANEK", "ANIMUS");
    } else if j == 5 {
      FarByMisses("KOCHANEK", "NEMESIS", {2});
    } else {
      FarByLength("KOCHANEK", "KRYTYK");
    }
  }

  lemma KochanekFar1(j: nat)
    requires 7 <= j < 14
    ensures !CloseEnough("KOCHANEK", StandardArchetypes[j])
  {
    if j == 7 {
      FarByMisses("KOCHANEK", "TRICKSTER", {1});
    } else if j == 8 {
      FarByLength("KOCHANEK", "DEMON");
    } else if j == 9 {
      FarByLength("KOCHANEK", "HEROS");
    } else if j == 10 {
      FarByMisses("KOCHANEK", "OPIEKUN", {1});
    } else if j == 11 {
      FarByLength("KOCHANEK", "TWÓRCA");
    } else if j == 12 {
      FarByMisses("KOCHANEK", "ODKRYWCA", {3, 5});
    } else {
      FarByMisses("KOCHANEK", "NIEWINNY", {0, 1});
    }
  }

  lemma KochanekFar2(j: nat)
    requires 14 <= j < 15
    ensures !CloseEnough("KOCHANEK", StandardArchetypes[j])
  {
    FarByLength("KOCHANEK", "BŁAZEN");
  }

  lemma MagFar0(j: nat)
    requires j < 7
    ensures !CloseEnough("MAG", StandardArchetypes[j])
  {
    if j == 0 {
      FarByLength("MAG", "JAŹŃ");
    } else if j == 1 {
      FarByLength("MAG", "CIEŃ");
    } else if j == 2 {
      FarByLength("MAG", "PERSONA");
    } else if j == 3 {
      FarByLength("MAG", "ANIMA");
    } else if j == 4 {
      FarByLength("MAG", "ANIMUS");
    } else if j == 5 {
      FarByLength("MAG", "NEMESIS");
    } else {
      FarByLength("MAG", "KRYTYK");
    }
  }

  lemma MagFar1(j: nat)
    requires 7 <= j < 14
    ensures !CloseEnough("MAG", StandardArchetypes[j])
  {
    if j == 7 {
      FarByLength("MAG", "TRICKSTER");
    } else if j == 8 {
      FarByLength("MAG", "DEMON");
    } else if j == 9 {
      FarByLength("MAG", "HEROS");
    } else if j == 10 {
      FarByLength("MAG", "OPIEKUN");
    } else if j == 11 {
      FarByLength("MAG", "TWÓRCA");
    } else if j == 12 {
      FarByLength("MAG", "ODKRYWCA");
    } else {
      FarByLength("MAG", "NIEWINNY");
    }
  }

  lemma MagFar2(j: nat)
    requires 14 <= j < 16
    ensures !CloseEnough("MAG", StandardArchetypes[j])
  {
    if j == 14 {
      FarByLength("MAG", "BŁAZEN");
    } else {
      FarByLength("MAG", "KOCHANEK");
    }
  }

  lemma BuntownikFar0(j: nat)
    requires j < 7
    ensures !CloseEnough("BUNTOWNIK", StandardArchetypes[j])
  {
    if j == 0 {
      FarByLength("BUNTOWNIK", "JAŹŃ");
    } else if j == 1 {
      FarByLength("BUNTOWNIK", "CIEŃ");
    } else if j == 2 {
      FarByLength("BUNTOWNIK", "PERSONA");
    } else if j == 3 {
      FarByLength("BUNTOWNIK", "ANIMA");
    } else if j == 4 {
      FarByLength("BUNTOWNIK", "ANIMUS");
    } else if j == 5 {
      FarByLength("BUNTOWNIK", "NEMESIS");
    } else {
      FarByLength("BUNTOWNIK", "KRYTYK");
    }
  }

  lemma BuntownikFar1(j: nat)
    requires 7 <= j < 14
    ensures !CloseEnough("BUNTOWNIK", StandardArchetypes[j])
  {
    if j == 7 {
      FarByMisses("BUNTOWNIK", "TRICKSTER", {0, 1});
    } else if j == 8 {
      FarByLength("BUNTOWNIK", "DEMON");
    } else if j == 9 {
      FarByLength("BUNTOWNIK", "HEROS");
    } else if j == 10 {
      FarByLength("BUNTOWNIK", "OPIEKUN");
    } else if j == 11 {
      FarByLength("BUNTOWNIK", "TWÓRCA");
    } else if j == 12 {
      FarByMisses("BUNTOWNIK", "ODKRYWCA", {1});
    } else {
      FarByMisses("BUNTOWNIK", "NIEWINNY", {2});
    }
  }

  lemma BuntownikFar2(j: nat)
    requires 14 <= j < 17
    ensures !CloseEnough("BUNTOWNIK", StandardArchetypes[j])
  {
    if j == 14 {
      FarByLength("BUNTOWNIK", "BŁAZEN");
    } else if j == 15 {
      FarByMisses("BUNTOWNIK", "KOCHANEK", {2});
    } else {
      FarByLength("BUNTOWNIK", "MAG");
    }
  }

  lemma WladcaFar0(j: nat)
    requires j < 7
    ensures !CloseEnough("WŁADCA", StandardArchetypes[j])
  {
    if j == 0 {
      FarByLength("WŁADCA", "JAŹŃ");
    } else if j == 1 {
      FarByLength("WŁADCA", "CIEŃ");
    } else if j == 2 {
      FarByMisses("WŁADCA", "PERSONA", {0});
    } else if j == 3 {
      FarByMisses("WŁADCA", "ANIMA", {1});
    } else if j == 4 {
      FarByMisses("WŁADCA", "ANIMUS", {0, 1});
    } else if j == 5 {
      FarByMisses("WŁADCA", "NEMESIS", {0});
    } else {
      FarByMisses("WŁADCA", "KRYTYK", {0, 1});
    }
  }

  lemma WladcaFar1(j: nat)
    requires 7 <= j < 14
    ensures !CloseEnough("WŁADCA", StandardArchetypes[j])
  {
    if j == 7 {
      FarByLength("WŁADCA", "TRICKSTER");
    } else if j == 8 {
      FarByMisses("WŁADCA", "DEMON", {1});
    } else if j == 9 {
      FarByMisses("WŁADCA", "HEROS", {0});
    } else if j == 10 {
      FarByMisses("WŁADCA", "OPIEKUN", {0});
    } else if j == 11 {
      FarByMisses("WŁADCA", "TWÓRCA", {1, 3});
    } else if j == 12 {
      FarByLength("WŁADCA", "ODKRYWCA");
    } else {
      FarByLength("WŁADCA", "NIEWINNY");
    }
  }

  lemma WladcaFar2(j: nat)
    requires 14 <= j < 18
    ensures !CloseEnough("WŁADCA", StandardArchetypes[j])
  {
    if j == 14 {
      FarByMisses("WŁADCA", "BŁAZEN", {0, 3});
    } else if j == 15 {
      FarByLength("WŁADCA", "KOCHANEK");
    } else if j == 16 {
      FarByLength("WŁADCA", "MAG");
    } else {
      FarByLength("WŁADCA", "BUNTOWNIK");
    }
  }

  lemma MedrzecFar0(j: nat)
    requires j < 7
    ensures !CloseEnough("MĘDRZEC", StandardArchetypes[j])
  {
    if j == 0 {
      FarByLength("MĘDRZEC", "JAŹŃ");
    } else if j == 1 {
      FarByLength("MĘDRZEC", "CIEŃ");
    } else if j == 2 {
      FarByMisses("MĘDRZEC", "PERSONA", {0, 1});
    } else if j == 3 {
      FarByLength("MĘDRZEC", "ANIMA");
    } else if j == 4 {
      FarByMisses("MĘDRZEC", "ANIMUS", {0});
    } else if j == 5 {
      FarByMisses("MĘDRZEC", "NEMESIS", {1, 2});
    } else {
      FarByMisses("MĘDRZEC", "KRYTYK", {0});
    }
  }

  lemma MedrzecFar1(j: nat)
    requires 7 <= j < 14
    ensures !CloseEnough("MĘDRZEC", StandardArchetypes[j])
  {
    if j == 7 {
      FarByLength("MĘDRZEC", "TRICKSTER");
    } else if j == 8 {
      FarByLength("MĘDRZEC", "DEMON");
    } else if j == 9 {
      FarByLength("MĘDRZEC", "HEROS");
    } else if j == 10 {
      FarByMisses("MĘDRZEC", "OPIEKUN", {0, 1});
    } else if j == 11 {
      FarByMisses("MĘDRZEC", "TWÓRCA", {0});
    } else if j == 12 {
      FarByMisses("MĘDRZEC", "ODKRYWCA", {0});
    } else {
      FarByMisses("MĘDRZEC", "NIEWINNY", {0});
    }
  }

  lemma MedrzecFar2(j: nat)
    requires 14 <= j < 19
    ensures !CloseEnough("MĘDRZEC", StandardArchetypes[j])
  {
    if j == 14 {
      FarByMisses("MĘDRZEC", "BŁAZEN", {0});
    } else if j == 15 {
      FarByMisses("MĘDRZEC", "KOCHANEK", {0});
    } else if j == 16 {
      FarByLength("MĘDRZEC", "MAG");
    } else if j == 17 {
      FarByLength("MĘDRZEC", "BUNTOWNIK");
    } else {
      FarByMisses("MĘDRZEC", "WŁADCA", {0});
    }
  }

  lemma SierotaFar0(j: nat)
    requires j < 7
    ensures !CloseEnough("SIEROTA", StandardArchetypes[j])
  {
    if j == 0 {
      FarByLength("SIEROTA", "JAŹŃ");
    } else if j == 1 {
      FarByLength("SIEROTA", "CIEŃ");
    } else if j == 2 {
      FarByMisses("SIEROTA", "PERSONA", {1, 5});
    } else if j == 3 {
      FarByLength("SIEROTA", "ANIMA");
    } else if j == 4 {
      FarByMisses("SIEROTA", "ANIMUS", {1});
    } else if j == 5 {
      FarByMisses("SIEROTA", "NEMESIS", {3, 4});
    } else {
      FarByMisses("SIEROTA", "KRYTYK", {0});
    }
  }

  lemma SierotaFar1(j: nat)
    requires 7 <= j < 14
    ensures !CloseEnough("SIEROTA", StandardArchetypes[j])
  {
    if j == 7 {
      FarByLength("SIEROTA", "TRICKSTER");
    } else if j == 8 {
      FarByLength("SIEROTA", "DEMON");
    } else if j == 9 {
      FarByLength("SIEROTA", "HEROS");
    } else if j == 10 {
      FarByMisses("SIEROTA", "OPIEKUN", {0, 3});
    } else if j == 11 {
      FarByMisses("SIEROTA", "TWÓRCA", {1});
    } else if j == 12 {
      FarByMisses("SIEROTA", "ODKRYWCA", {0});
    } else {
      FarByMisses("SIEROTA", "NIEWINNY", {0});
    }
  }

  lemma SierotaFar2(j: nat)
    requires 14 <= j < 20
    ensures !CloseEnough("SIEROTA", StandardArchetypes[j])
  {
    if j == 14 {
      FarByMisses("SIEROTA", "BŁAZEN", {0});
    } else if j == 15 {
      FarByMisses("SIEROTA", "KOCHANEK", {0});
    } else if j == 16 {
      FarByLength("SIEROTA", "MAG");
    } else if j == 17 {
      FarByLength("SIEROTA", "BUNTOWNIK");
    } else if j == 18 {
      FarByMisses("SIEROTA", "WŁADCA", {0});
    } else {
      FarByMisses("SIEROTA", "MĘDRZEC", {0, 1});
    }
  }
}

=== FILE: archetype_normalizer.dfy ===
/** The archetype normalizer: a free-form archetype label from the language
    model becomes one of twenty-one standard upper-case names, or `null`.

    The steps, in order: blank input gives `null`; the trimmed label is
    looked up in a correction table; then its upper-case form; then any
    upper-case form containing `KIEŃ` (or equal to `KIEN`) gives `CIEŃ`;
    finally the first standard name whose character-overlap score with the
    upper-case form reaches 0.8 wins, and otherwise the result is `null`.

    The score works on what JavaScript indexes, UTF-16 code units: the
    score functions are generic in the element type, and the fuzzy step
    applies them to `Units` of both labels. */
module ArchetypeNormalizer {
  import opened Common
  import opened Text
  import JsObject

  /** The nine primary archetypes, in declaration order. */
  const PrimaryArchetypes: seq<string> :=
    ["JAŹŃ", "CIEŃ", "PERSONA", "ANIMA", "ANIMUS", "NEMESIS", "KRYTYK", "TRICKSTER", "DEMON"]

  /** The twelve further archetypes, in declaration order. */
  const OtherArchetypes: seq<string> :=
    ["HEROS", "OPIEKUN", "TWÓRCA", "ODKRYWCA", "NIEWINNY", "BŁAZEN", "KOCHANEK", "MAG",
     "BUNTOWNIK", "WŁADCA", "MĘDRZEC", "SIEROTA"]

  /** The only names the normalizer ever returns; the fuzzy step tries them
      in this order. */
  const StandardArchetypes: seq<string> := PrimaryArchetypes + OtherArchetypes

  /** The correction table (143 keys), arranged by key length and, within
      one length, by the standard name the keys map to; `None` for a label
      that is not a key. */
  function Correction(key: string): (r: Option<string>)
    ensures r.Some? ==> r.value in StandardArchetypes
  {
    match |key|
    case 3 =>
      if key in {"mag", "Mag"} then Some("MAG")
      else None
    case 4 =>
      if key in {"JAŹŃ", "JAŹN", "jaźń", "Jaźń", "SELF", "self"} then Some("JAŹŃ")
      else if key in {"KIEŃ", "CIEN", "Cień", "Cien", "cień"} then Some("CIEŃ")
      else if key in {"HERO", "hero"} then Some("HEROS")
      else if key in {"SAGE", "sage"} then Some("MĘDRZEC")
      else None
    case 5 =>
      if key in {"CIENI"} then Some("CIEŃ")
      else if key in {"anima", "Anima", "ANIMA"} then Some("ANIMA")
      else if key in {"demon", "Demon", "DEMON"} then Some("DEMON")
      else if key in {"heros", "Heros"} then Some("HEROS")
      else if key in {"LOVER", "lover"} then Some("KOCHANEK")
      else if key in {"REBEL", "rebel"} then Some("BUNTOWNIK")
      else if key in {"RULER", "ruler"} then Some("WŁADCA")
      else None
    case 6 =>
      if key in {"CIENIE", "SHADOW", "shadow"} then Some("CIEŃ")
      else if key in {"animus", "Animus", "ANIMUS"} then Some("ANIMUS")
      else if key in {"krytyk", "Krytyk", "KRYTYK", "CRITIC", "critic"} then Some("KRYTYK")
      else if key in {"twórca", "Twórca", "TWORCA"} then Some("TWÓRCA")
      else if key in {"błazen", "Błazen", "BLAZEN", "JESTER", "jester"} then Some("BŁAZEN")
      else if key in {"OUTLAW", "outlaw"} then Some("BUNTOWNIK")
      else if key in {"władca", "Władca", "WLADCA"} then Some("WŁADCA")
      else if key in {"ORPHAN", "orphan"} then Some("SIEROTA")
      else None
    case 7 =>
      if key in {"persona", "Persona", "PERSONA"} then Some("PERSONA")
      else if key in {"nemesis", "Nemesis", "NEMESIS"} then Some("NEMESIS")
      else if key in {"opiekun", "Opiekun"} then Some("OPIEKUN")
      else if key in {"CREATOR", "creator"} then Some("TWÓRCA")
      else if key in {"mędrzec", "Mędrzec", "MEDRZEC"} then Some("MĘDRZEC")
      else if key in {"sierota", "Sierota"} then Some("SIEROTA")
      else None
    case 8 =>
      if key in {"The Self", "THE SELF"} then Some("JAŹŃ")
      else if key in {"The Hero", "THE HERO"} then Some("HEROS")
      else if key in {"odkrywca", "Odkrywca", "EXPLORER", "explorer"} then Some("ODKRYWCA")
      else if key in {"niewinny", "Niewinny", "INNOCENT", "innocent"} then Some("NIEWINNY")
      else if key in {"kochanek", "Kochanek"} then Some("KOCHANEK")
      else if key in {"MAGICIAN", "magician"} then Some("MAG")
      else if key in {"The Sage", "THE SAGE"} then Some("MĘDRZEC")
      else if key in {"EVERYMAN", "everyman"} then Some("SIEROTA")
      else None
    case 9 =>
      if key in {"The Anima", "THE ANIMA"} then Some("ANIMA")
      else if key in {"trickster", "Trickster", "TRICKSTER"} then Some("TRICKSTER")
      else if key in {"The Demon", "THE DEMON"} then Some("DEMON")
      else if key in {"CAREGIVER", "caregiver"} then Some("OPIEKUN")
      else if key in {"The Lover", "THE LOVER"} then Some("KOCHANEK")
      else if key in {"buntownik", "Buntownik", "The Rebel", "THE REBEL"} then Some("BUNTOWNIK")
      else if key in {"The Ruler", "THE RULER"} then Some("WŁADCA")
      else None
    case 10 =>
      if key in {"The Shadow", "THE SHADOW"} then Some("CIEŃ")
      else if key in {"The Animus", "THE ANIMUS"} then Some("ANIMUS")
      else if key in {"The Critic", "THE CRITIC"} then Some("KRYTYK")
      else if key in {"The Jester", "THE JESTER"} then Some("BŁAZEN")
      else if key in {"The Outlaw", "THE OUTLAW"} then Some("BUNTOWNIK")
      else if key in {"The Orphan", "THE ORPHAN"} then Some("SIEROTA")
      else None
    case 11 =>
      if key in {"The Persona", "THE PERSONA"} then Some("PERSONA")
      else if key in {"The Nemesis", "THE NEMESIS"} then Some("NEMESIS")
      else if key in {"The Creator", "THE CREATOR"} then Some("TWÓRCA")
      else None
    case 12 =>
      if key in {"The Explorer", "THE EXPLORER"} then Some("ODKRYWCA")
      else if key in {"The Innocent", "THE INNOCENT"} then Some("NIEWINNY")
      else if key in {"The Magician", "THE MAGICIAN"} then Some("MAG")
      else if key in {"OLD WISE MAN"} then Some("MĘDRZEC")
      else if key in {"The Everyman", "THE EVERYMAN"} then Some("SIEROTA")
      else None
    case 13 =>
      if key in {"The Trickster", "THE TRICKSTER"} then Some("TRICKSTER")
      else if key in {"The Caregiver", "THE CAREGIVER"} then Some("OPIEKUN")
      else if key in {"STARY MĘDRZEC", "stary mędrzec"} then Some("MĘDRZEC")
      else None
    case _ => None
  }

  /** The positions of `shorter` whose character occurs somewhere in
      `longer`; the loop of `calculateSimilarity` counts exactly these, a
      repeated character once per position. */
  function MatchPositions<T(==)>(shorter: seq<T>, longer: seq<T>): set<nat>
  {
    set k: nat | k < |shorter| && shorter[k] in longer
  }

  /** The positions `0 .. n - 1`. */
  function Positions(n: nat): (r: set<nat>)
    ensures forall k: nat :: k in r <==> k < n
    ensures |r| == n
  {
    if n == 0 then {} else Positions(n - 1) + {n - 1}
  }

  /** `matches`: how many positions of `shorter` find their character in
      `longer`; at most the length of `shorter`. */
  function Matches<T(==)>(shorter: seq<T>, longer: seq<T>): (n: nat)
    ensures n <= |shorter|
  {
    MatchesWithMisses(shorter, longer, {});
    |MatchPositions(shorter, longer)|
  }

  /** Each position known to miss lowers the bound on the matches by one. */
  lemma MatchesWithMisses<T>(shorter: seq<T>, longer: seq<T>, misses: set<nat>)
    requires forall p | p in misses :: p < |shorter| && shorter[p] !in longer
    ensures |MatchPositions(shorter, longer)| <= |shorter| - |misses|
  {
    var all, hits := Positions(|shorter|), MatchPositions(shorter, longer);
    assert misses <= all;
    assert hits <= all - misses;
    assert all == misses + (all - misses);
    SubsetCount(hits, all - misses);
  }

  /** A subset has no more elements than its superset. */
  lemma SubsetCount<T>(a: set<T>, b: set<T>)
    requires a <= b
    ensures |a| <= |b|
  {
    assert b == a + (b - a);
  }

  /** The longer of two labels; on a tie, the second. */
  function Longer<T>(s1: seq<T>, s2: seq<T>): seq<T>
  {
    if |s1| > |s2| then s1 else s2
  }

  /** The shorter of two labels; on a tie, the first. */
  function Shorter<T>(s1: seq<T>, s2: seq<T>): seq<T>
  {
    if |s1| > |s2| then s2 else s1
  }

  /** `calculateSimilarity`: the share of the shorter label's elements that
      occur anywhere in the longer one, relative to the longer length; 1 for
      two empty labels. */
  function Similarity<T(==)>(s1: seq<T>, s2: seq<T>): (r: real)
    ensures 0.0 <= r <= 1.0
    ensures |s1| == 0 && |s2| == 0 ==> r == 1.0
  {
    var longer, shorter := Longer(s1, s2), Shorter(s1, s2);
    if |longer| == 0 then 1.0
    else
      var m, l := Matches(shorter, longer) as real, |longer| as real;
      RatioAtMostOne(m, l);
      m / l
  }

  /** A share of `l` no larger than `l` lies in [0, 1]. */
  lemma RatioAtMostOne(m: real, l: real)
    requires 0.0 <= m <= l && l > 0.0
    ensures 0.0 <= m / l <= 1.0
  {
    assert m / l * l == m;
  }

  /** The fuzzy step's acceptance test, `similarity >= 0.8`, in whole
      numbers: five matches for every four elements of the longer label
      (`SimilarityThreshold` shows the two agree). */
  predicate CloseEnough<T(==)>(s1: seq<T>, s2: seq<T>)
  {
    5 * Matches(Shorter(s1, s2), Longer(s1, s2)) >= 4 * |Longer(s1, s2)|
  }

  /** The whole-number test is exactly `calculateSimilarity(s1, s2) >= 0.8`. */
  lemma SimilarityThreshold<T>(s1: seq<T>, s2: seq<T>)
    requires |s1| > 0 || |s2| > 0
    ensures CloseEnough(s1, s2) <==> Similarity(s1, s2) >= 0.8
  {
    var mi, li := Matches(Shorter(s1, s2), Longer(s1, s2)), |Longer(s1, s2)|;
    RatioThreshold(mi as real, li as real);
    assert (5 * mi) as real == 5.0 * (mi as real) && (4 * li) as real == 4.0 * (li as real);
  }

  /** `m / l >= 0.8` is `5 m >= 4 l` for a positive `l`. */
  lemma RatioThreshold(m: real, l: real)
    requires l > 0.0
    ensures m / l >= 0.8 <==> 5.0 * m >= 4.0 * l
  {
    var q := m / l;
    assert q * l == m;
    assert q * l - 0.8 * l == (q - 0.8) * l;
  }

  /** Every character of a label occurs in the label. */
  lemma MatchesOfSelf<T>(s: seq<T>)
    ensures Matches(s, s) == |s|
  {
    assert MatchPositions(s, s) == Positions(|s|) by {
      forall k: nat | k < |s|
        ensures k in MatchPositions(s, s)
      {
        assert s[k] in s;
      }
    }
  }

  /** A non-empty label is close enough to itself. */
  lemma CloseToItself<T>(s: seq<T>)
    requires |s| > 0
    ensures Similarity(s, s) == 1.0 && CloseEnough(s, s)
  {
    MatchesOfSelf(s);
    SimilarityThreshold(s, s);
  }

  /** The fuzzy step: the first of `names`, from position `i` on, whose
      code units are close enough to `upper`, the code units of the
      upper-case label (`names` is always `StandardArchetypes`). */
  function FirstClose(upper: seq<nat>, names: seq<string>, i: nat): (r: Option<string>)
    requires i <= |names|
    ensures r.Some? ==> r.value in names[i..] && CloseEnough(upper, Units(r.value))
    decreases |names| - i
  {
    if i == |names| then None
    else if CloseEnough(upper, Units(names[i])) then Some(names[i])
    else FirstClose(upper, names, i + 1)
  }

  /** The labels `normalizeArchetype` turns away at once: `null`, `undefined`,
      the empty string and whitespace. */
  predicate IsBlank(archetype: Option<string>)
  {
    archetype.None? || |Trim(archetype.value)| == 0
  }

  /** `normalizeArchetype`, the table looked up by own properties only (see
      `NormalizeArchetypeAsWritten` for the inherited-member lookup). */
  function NormalizeArchetype(archetype: Option<string>): (r: Option<string>)
    ensures r.Some? ==> r.value in StandardArchetypes
    ensures IsBlank(archetype) ==> r.None?
  {
    if IsBlank(archetype) then None
    else
      var trimmed := Trim(archetype.value);
      var upper := ToUpper(trimmed);
      if Correction(trimmed).Some? then Correction(trimmed)
      else if Correction(upper).Some? then Correction(upper)
      else if Contains(upper, "KIEŃ") || upper == "KIEN" then Some("CIEŃ")
      else FirstClose(Units(upper), StandardArchetypes, 0)
  }

  /** `isValidArchetype`: a present, non-empty label whose normalization is
      in the standard list. */
  predicate IsValidArchetype(archetype: Option<string>)
  {
    && archetype.Some? && archetype.value != ""
    && var n := NormalizeArchetype(archetype); n.Some? && n.value in StandardArchetypes
  }

  /** Validity is exactly "normalizes to something": the list test can never
      fail for a non-null result, and an empty label is blank anyway. */
  lemma ValidIffNormalizes(archetype: Option<string>)
    ensures IsValidArchetype(archetype) <==> NormalizeArchetype(archetype).Some?
    ensures IsValidArchetype(archetype) ==> archetype.Some? && archetype.value != ""
  {
    if archetype.Some? && archetype.value == "" {
      assert IsBlank(archetype);
    }
  }

  /** `normalizeArchetype` exactly as written: `ARCHETYPE_CORRECTIONS[key]`
      also finds the members every object inherits, and returns them. */
  function NormalizeArchetypeAsWritten(archetype: Option<string>): JsObject.JsValue
  {
    if IsBlank(archetype) then JsObject.Null
    else
      var trimmed := Trim(archetype.value);
      var upper := ToUpper(trimmed);
      if Correction(trimmed).Some? then JsObject.Str(Correction(trimmed).value)
      else if trimmed in JsObject.InheritedNames then JsObject.Member(trimmed)
      else if Correction(upper).Some? then JsObject.Str(Correction(upper).value)
      else if upper in JsObject.InheritedNames then JsObject.Member(upper)
      else if Contains(upper, "KIEŃ") || upper == "KIEN" then JsObject.Str("CIEŃ")
      else match FirstClose(Units(upper), StandardArchetypes, 0)
        case Some(n) => JsObject.Str(n)
        case None => JsObject.Null
  }

  /** The JavaScript value of a corrected result. */
  function AsJs(r: Option<string>): JsObject.JsValue
  {
    match r
    case Some(n) => JsObject.Str(n)
    case None => JsObject.Null
  }

  /** Away from the inherited names the code as written and the corrected
      lookup agree. */
  lemma AsWrittenAgreesOffInheritedNames(archetype: Option<string>)
    requires !IsBlank(archetype) ==> Trim(archetype.value) !in JsObject.InheritedNames
    requires !IsBlank(archetype) ==> ToUpper(Trim(archetype.value)) !in JsObject.InheritedNames
    ensures NormalizeArchetypeAsWritten(archetype) == AsJs(NormalizeArchetype(archetype))
  {
  }

  /** A label without outer whitespace is not blank and is its own trim. */
  lemma TrimmedLabel(s: string)
    requires |s| > 0 && !IsSpace(s[0]) && !IsSpace(s[|s| - 1])
    ensures !IsBlank(Some(s)) && Trim(s) == s
  {
    TrimOfTrimmed(s);
  }

  /** A label that occurs in another contains each of its characters. */
  lemma ContainsKeepsChars(s: string, sub: string, c: char)
    requires Contains(s, sub) && c in sub
    ensures c in s
  {
    var i :| 0 <= i <= |s| - |sub| && OccursAt(s, sub, i);
    var k :| 0 <= k < |sub| && sub[k] == c;
    assert s[i + k] == sub[k];
  }

  /** Matches never exceed the shorter length, so a large length gap alone
      rules a pair out. */
  lemma FarByLength<T>(s1: seq<T>, s2: seq<T>)
    requires 5 * |Shorter(s1, s2)| < 4 * |Longer(s1, s2)|
    ensures !CloseEnough(s1, s2)
  {
  }

  /** A pair is ruled out once enough positions of the shorter label are
      known to miss the longer one. */
  lemma FarByMisses<T>(s1: seq<T>, s2: seq<T>, misses: set<nat>)
    requires forall p | p in misses :: p < |Shorter(s1, s2)| && Shorter(s1, s2)[p] !in Longer(s1, s2)
    requires 5 * (|Shorter(s1, s2)| - |misses|) < 4 * |Longer(s1, s2)|
    ensures !CloseEnough(s1, s2)
  {
    MatchesWithMisses(Shorter(s1, s2), Longer(s1, s2), misses);
  }

  /** `FirstClose` finds the first close-enough name at or after `k`. */
  lemma {:induction false} FirstCloseFinds(upper: seq<nat>, names: seq<string>, k: nat, i: nat)
    requires k <= i < |names| && CloseEnough(upper, Units(names[i]))
    requires forall j | k <= j < i :: !CloseEnough(upper, Units(names[j]))
    ensures FirstClose(upper, names, k) == Some(names[i])
    decreases i - k
  {
    if k < i {
      FirstCloseFinds(upper, names, k + 1, i);
    }
  }

  /** With no close-enough name at or after `k` the step gives up. */
  lemma {:induction false} FirstCloseNone(upper: seq<nat>, names: seq<string>, k: nat)
    requires k <= |names|
    requires forall j | k <= j < |names| :: !CloseEnough(upper, Units(names[j]))
    ensures FirstClose(upper, names, k) == None
    decreases |names| - k
  {
    if k < |names| {
      FirstCloseNone(upper, names, k + 1);
    }
  }

  /** `FirstClose` returns nothing exactly when no name from `k` on is close
      enough, and otherwise the first close-enough one. */
  lemma {:induction false} FirstCloseResult(upper: seq<nat>, names: seq<string>, k: nat)
    requires k <= |names|
    ensures FirstClose(upper, names, k).None? <==>
      forall j | k <= j < |names| :: !CloseEnough(upper, Units(names[j]))
    ensures FirstClose(upper, names, k).Some? ==>
      exists i | k <= i < |names| :: && FirstClose(upper, names, k).value == names[i]
                                     && CloseEnough(upper, Units(names[i]))
                                     && forall j | k <= j < i :: !CloseEnough(upper, Units(names[j]))
    decreases |names| - k
  {
    var r := FirstClose(upper, names, k);
    if r.Some? {
      var i := FirstCloseIndex(upper, names, k);
    } else {
      FirstCloseMisses(upper, names, k);
    }
  }

  /** The position of the name `FirstClose` answers: every name before it
      misses. */
  lemma {:induction false} FirstCloseIndex(upper: seq<nat>, names: seq<string>, k: nat) returns (i: nat)
    requires k <= |names| && FirstClose(upper, names, k).Some?
    ensures k <= i < |names| && FirstClose(upper, names, k).value == names[i]
    ensures CloseEnough(upper, Units(names[i]))
    ensures forall j | k <= j < i :: !CloseEnough(upper, Units(names[j]))
    decreases |names| - k
  {
    if CloseEnough(upper, Units(names[k])) {
      i := k;
    } else {
      assert FirstClose(upper, names, k) == FirstClose(upper, names, k + 1);
      i := FirstCloseIndex(upper, names, k + 1);
      forall j | k <= j < i
        ensures !CloseEnough(upper, Units(names[j]))
      {
        if j > k {
          assert k + 1 <= j < i;
        }
      }
    }
  }

  /** When `FirstClose` gives up, no name from `k` on is close enough. */
  lemma {:induction false} FirstCloseMisses(upper: seq<nat>, names: seq<string>, k: nat)
    requires k <= |names| && FirstClose(upper, names, k).None?
    ensures forall j | k <= j < |names| :: !CloseEnough(upper, Units(names[j]))
    decreases |names| - k
  {
    if k < |names| {
      var hit := CloseEnough(upper, Units(names[k]));
      assert !hit;
      FirstCloseMisses(upper, names, k + 1);
      forall j | k <= j < |names|
        ensures !CloseEnough(upper, Units(names[j]))
      {
        if j > k {
          assert k + 1 <= j < |names|;
        }
      }
    }
  }

  /** The label's trimmed form is a key: its table value wins. Failing that,
      the upper-case form's table value wins. */
  lemma TableHits(archetype: Option<string>)
    requires !IsBlank(archetype)
    ensures var trimmed := Trim(archetype.value);
      Correction(trimmed).Some? ==> NormalizeArchetype(archetype) == Correction(trimmed)
    ensures var trimmed := Trim(archetype.value);
      Correction(trimmed) == None && Correction(ToUpper(trimmed)).Some? ==>
        NormalizeArchetype(archetype) == Correction(ToUpper(trimmed))
  {
  }

  /** Off the table, anything whose upper-case form contains `KIEŃ`, or is
      `KIEN`, becomes `CIEŃ`, whatever else it resembles. */
  lemma KienRule(archetype: Option<string>)
    requires !IsBlank(archetype)
    requires var trimmed := Trim(archetype.value);
      Correction(trimmed) == None && Correction(ToUpper(trimmed)) == None
    requires var upper := ToUpper(Trim(archetype.value));
      Contains(upper, "KIEŃ") || upper == "KIEN"
    ensures NormalizeArchetype(archetype) == Some("CIEŃ")
  {
  }

  /** The labels that reach the fuzzy step: no table hit, no `KIEŃ` rule. */
  predicate ReachesFuzzyStep(archetype: Option<string>)
  {
    && !IsBlank(archetype)
    && var trimmed := Trim(archetype.value);
    && var upper := ToUpper(trimmed);
    && Correction(trimmed) == None && Correction(upper) == None
    && !Contains(upper, "KIEŃ") && upper != "KIEN"
  }

  /** The fuzzy step answers the first standard name, in list order, whose
      similarity to the upper-case label reaches 0.8, and `null` when there
      is none. */
  lemma FuzzyStep(archetype: Option<string>)
    requires ReachesFuzzyStep(archetype)
    ensures var upper := Units(ToUpper(Trim(archetype.value)));
      NormalizeArchetype(archetype).None? <==>
        forall j | 0 <= j < |StandardArchetypes| :: !CloseEnough(upper, Units(StandardArchetypes[j]))
    ensures var upper := Units(ToUpper(Trim(archetype.value)));
      NormalizeArchetype(archetype).Some? ==>
        exists i | 0 <= i < |StandardArchetypes| ::
          && NormalizeArchetype(archetype).value == StandardArchetypes[i]
          && CloseEnough(upper, Units(StandardArchetypes[i]))
          && forall j | 0 <= j < i :: !CloseEnough(upper, Units(StandardArchetypes[j]))
  {
    FuzzyStepNone(archetype);
    FuzzyStepSome(archetype);
  }

  lemma FuzzyStepNone(archetype: Option<string>)
    requires ReachesFuzzyStep(archetype)
    ensures var upper := Units(ToUpper(Trim(archetype.value)));
      NormalizeArchetype(archetype).None? <==>
        forall j | 0 <= j < |StandardArchetypes| :: !CloseEnough(upper, Units(StandardArchetypes[j]))
  {
    var upper := Units(ToUpper(Trim(archetype.value)));
    FuzzyStepIsFirstClose(archetype);
    FirstCloseResult(upper, StandardArchetypes, 0);
  }

  lemma FuzzyStepSome(archetype: Option<string>)
    requires ReachesFuzzyStep(archetype)
    ensures var upper := Units(ToUpper(Trim(archetype.value)));
      NormalizeArchetype(archetype).Some? ==>
        exists i | 0 <= i < |StandardArchetypes| ::
          && NormalizeArchetype(archetype).value == StandardArchetypes[i]
          && CloseEnough(upper, Units(StandardArchetypes[i]))
          && forall j | 0 <= j < i :: !CloseEnough(upper, Units(StandardArchetypes[j]))
  {
    var upper := Units(ToUpper(Trim(archetype.value)));
    FuzzyStepIsFirstClose(archetype);
    var r := FirstClose(upper, StandardArchetypes, 0);
    if r.Some? {
      var i := FirstCloseIndex(upper, StandardArchetypes, 0);
    }
  }

  lemma FuzzyStepIsFirstClose(archetype: Option<string>)
    requires ReachesFuzzyStep(archetype)
    ensures NormalizeArchetype(archetype) == FirstClose(Units(ToUpper(Trim(archetype.value))), StandardArchetypes, 0)
  {
  }

  /** Conversely, the first close-enough standard name is the answer. */
  lemma FuzzyStepPicksFirst(archetype: Option<string>, i: nat)
    requires ReachesFuzzyStep(archetype) && i < |StandardArchetypes|
    requires CloseEnough(Units(ToUpper(Trim(archetype.value))), Units(StandardArchetypes[i]))
    requires forall j | 0 <= j < i ::
      !CloseEnough(Units(ToUpper(Trim(archetype.value))), Units(StandardArchetypes[j]))
    ensures NormalizeArchetype(archetype) == Some(StandardArchetypes[i])
  {
    FirstCloseFinds(Units(ToUpper(Trim(archetype.value))), StandardArchetypes, 0, i);
  }

  /** No standard name is longer than nine characters. */
  lemma StandardNamesAreShort()
    ensures forall j | 0 <= j < |StandardArchetypes| :: |StandardArchetypes[j]| <= 9
  {
  }

  /** No standard name holds a character above U+FFFF, so each one's code
      units are its code points. */
  lemma StandardNamesInBmp()
    ensures forall j | 0 <= j < |StandardArchetypes| :: InBmp(StandardArchetypes[j])
  {
  }

  /** The score over code points agrees with the score over characters:
      the two sequences differ only by an injective renaming. */
  lemma CloseEnoughOfCodePoints(a: string, b: string)
    ensures CloseEnough(CodePoints(a), CodePoints(b)) == CloseEnough(a, b)
  {
    var ca, cb := CodePoints(a), CodePoints(b);
    var s, l := Shorter(a, b), Longer(a, b);
    var cs, cl := Shorter(ca, cb), Longer(ca, cb);
    assert cs == CodePoints(s) && cl == CodePoints(l);
    assert MatchPositions(cs, cl) == MatchPositions(s, l) by {
      forall k: nat | k < |s|
        ensures cs[k] in cl <==> s[k] in l
      {
        if cs[k] in cl {
          var m :| 0 <= m < |cl| && cl[m] == cs[k];
          assert l[m] == s[k];
        }
        if s[k] in l {
          var m :| 0 <= m < |l| && l[m] == s[k];
          assert cl[m] == cs[k];
        }
      }
    }
  }

  /** For labels within the Basic Multilingual Plane, the code-unit score
      is the character score. */
  lemma CloseEnoughInBmp(a: string, b: string)
    requires InBmp(a) && InBmp(b)
    ensures CloseEnough(Units(a), Units(b)) == CloseEnough(a, b)
  {
    UnitsOfBmp(a);
    UnitsOfBmp(b);
    CloseEnoughOfCodePoints(a, b);
  }

  /** A label of twelve or more characters that reaches the fuzzy step is
      rejected: nine matches at most cannot reach 0.8 of its length, which
      is at least its number of characters. */
  lemma LongLabelsRejected(archetype: Option<string>)
    requires ReachesFuzzyStep(archetype) && |Trim(archetype.value)| >= 12
    ensures NormalizeArchetype(archetype) == None
  {
    var upper := Units(ToUpper(Trim(archetype.value)));
    StandardNamesAreShort();
    StandardNamesInBmp();
    forall j | 0 <= j < |StandardArchetypes|
      ensures !CloseEnough(upper, Units(StandardArchetypes[j]))
    {
      UnitsOfBmp(StandardArchetypes[j]);
      FarByLength(upper, Units(StandardArchetypes[j]));
    }
    FirstCloseNone(upper, StandardArchetypes, 0);
  }

  /** A character above U+FFFF counts twice: `PERSONA😀` has nine code
      units, so its seven matches against `PERSONA` score 7/9, below 0.8,
      where a count by characters would give 7/8. */
  lemma AstralCharactersCountTwice()
    ensures |Units("PERSONA\U{1F600}")| == 9
    ensures !CloseEnough(Units("PERSONA\U{1F600}"), Units("PERSONA"))
    ensures CloseEnough("PERSONA\U{1F600}", "PERSONA")
  {
    var s, t := "PERSONA\U{1F600}", "PERSONA";
    assert s[..7] == t;
    assert Units(s) == Units(t) + CharUnits('\U{1F600}');
    assert InBmp(t);
    UnitsOfBmp(t);
    assert |Units(s)| == 9;
    assert MatchPositions(t, s) == Positions(7) by {
      forall k: nat | k < 7 ensures t[k] in s { assert s[k] == t[k]; }
    }
  }

  /** The two examples of the module comment. */
  lemma DocExamples()
    ensures NormalizeArchetype(Some("KIEŃ")) == Some("CIEŃ")
    ensures NormalizeArchetype(Some("Cień")) == Some("CIEŃ")
  {
    TrimmedLabel("KIEŃ");
    TrimmedLabel("Cień");
  }

  /** The key `hasOwnProperty` yields the inherited method, not `null`. */
  lemma AsWrittenReturnsInheritedMember()
    ensures NormalizeArchetypeAsWritten(Some("hasOwnProperty")) == JsObject.Member("hasOwnProperty")
    ensures NormalizeArchetype(Some("hasOwnProperty")) == None
  {
    var key := "hasOwnProperty";
    TrimmedLabel(key);
    assert Correction(key) == None;
    var upper := ToUpper(key);
    assert Correction(upper) == None;
    assert !Contains(upper, "KIEŃ") by {
      if Contains(upper, "KIEŃ") {
        ContainsKeepsChars(upper, "KIEŃ", 'Ń');
      }
    }
    LongLabelsRejected(Some(key));
  }
}

=== FILE: common.dfy ===
/** Small shared datatypes: the optional values that stand for JavaScript's
    `null`/`undefined`, and a success/failure result for operations whose
    source can throw. */
module Common {

  /** `None` models `null` (or a missing field); `Some(v)` a present value. */
  datatype Option<+T> = None | Some(value: T) {

    /** Returns the wrapped value, or `default` when there is none. */
    function GetOr(default: T): T {
      match this
      case Some(v) => v
      case None => default
    }
  }

  /** A string-or-null value is truthy in JavaScript: present and not
      empty. */
  predicate Truthy(field: Option<string>)
  {
    field.Some? && field.value != ""
  }

  /** Outcome of a step that may stop with an error message. */
  datatype Result<+R> = Ok(value: R) | Err(message: string)

  /** Number of positions of `xs` holding `x` (repeats count). */
  function Count<T(==)>(xs: seq<T>, x: T): nat
  {
    if |xs| == 0 then 0
    else Count(xs[..|xs| - 1], x) + (if xs[|xs| - 1] == x then 1 else 0)
  }

  /** True when no value occurs twice in `xs`. */
  ghost predicate NoDuplicates<T>(xs: seq<T>)
  {
    forall i, j :: 0 <= i < j < |xs| ==> xs[i] != xs[j]
  }

  /** Without duplicates, every value occurs at most once. */
  lemma {:induction false} NoDuplicatesMultiset<T>(xs: seq<T>, x: T)
    requires NoDuplicates(xs)
    ensures multiset(xs)[x] <= 1
  {
    if |xs| > 0 {
      var init, last := xs[..|xs| - 1], xs[|xs| - 1];
      assert xs == init + [last];
      NoDuplicatesMultiset(init, x);
      if last == x {
        forall k | 0 <= k < |init|
          ensures init[k] != x
        {
          assert init[k] == xs[k];
        }
      }
    }
  }

  /** A value at two positions occurs at least twice. */
  lemma TwoPositions<T>(xs: seq<T>, i: nat, j: nat)
    requires i < j < |xs| && xs[i] == xs[j]
    ensures multiset(xs)[xs[i]] >= 2
  {
    assert xs == xs[..j] + [xs[j]] + xs[j + 1..];
    assert xs[i] in xs[..j];
  }

  /** Having no duplicates depends only on the multiset of values. */
  lemma SameMultisetNoDuplicates<T>(xs: seq<T>, ys: seq<T>)
    requires multiset(xs) == multiset(ys) && NoDuplicates(xs)
    ensures NoDuplicates(ys)
  {
    forall i, j | 0 <= i < j < |ys|
      ensures ys[i] != ys[j]
    {
      if ys[i] == ys[j] {
        TwoPositions(ys, i, j);
        NoDuplicatesMultiset(xs, ys[i]);
      }
    }
  }

  lemma {:induction false} CountAppend<T>(xs: seq<T>, ys: seq<T>, x: T)
    ensures Count(xs + ys, x) == Count(xs, x) + Count(ys, x)
    decreases |ys|
  {
    if |ys| == 0 {
      assert xs + ys == xs;
    } else {
      var zs := xs + ys;
      assert zs[..|zs| - 1] == xs + ys[..|ys| - 1];
      CountAppend(xs, ys[..|ys| - 1], x);
    }
  }

  /** A value occurs in `xs` exactly when its count is positive. */
  lemma {:induction false} CountPositive<T>(xs: seq<T>, x: T)
    ensures Count(xs, x) > 0 <==> x in xs
  {
    if |xs| > 0 {
      var init := xs[..|xs| - 1];
      CountPositive(init, x);
      assert xs == init + [xs[|xs| - 1]];
    }
  }

  /** Position of the first occurrence of `x` in `xs`. */
  function IndexOf<T(==)>(xs: seq<T>, x: T): (k: nat)
    requires x in xs
    ensures k < |xs| && xs[k] == x
    ensures forall j :: 0 <= j < k ==> xs[j] != x
  {
    if xs[0] == x then 0 else 1 + IndexOf(xs[1..], x)
  }

  /** Appending never moves the first occurrence of a value already present. */
  lemma {:induction false} IndexOfAppend<T>(xs: seq<T>, ys: seq<T>, x: T)
    requires x in xs
    ensures IndexOf(xs + ys, x) == IndexOf(xs, x)
  {
    var k := IndexOf(xs, x);
    var k' := IndexOf(xs + ys, x);
    assert (xs + ys)[k] == x;
  }

  /** `Array.from(new Set(ys))`: the values of `ys` in order of first
      occurrence, each kept once. */
  function Distinct<T(==)>(ys: seq<T>): (r: seq<T>)
    ensures NoDuplicates(r)
    ensures forall i :: 0 <= i < |r| ==> r[i] in ys
    ensures forall i :: 0 <= i < |ys| ==> ys[i] in r
    ensures |r| <= |ys|
  {
    if |ys| == 0 then []
    else
      var d := Distinct(ys[..|ys| - 1]);
      var last := ys[|ys| - 1];
      assert ys == ys[..|ys| - 1] + [last];
      if last in d then d else d + [last]
  }

  /** `Distinct` lists values in the order of their first occurrence. */
  lemma {:induction false} DistinctKeepsFirstOccurrenceOrder<T>(ys: seq<T>)
    ensures forall i, j :: 0 <= i < j < |Distinct(ys)| ==>
              IndexOf(ys, Distinct(ys)[i]) < IndexOf(ys, Distinct(ys)[j])
  {
    if |ys| > 0 {
      var init := ys[..|ys| - 1];
      var last := ys[|ys| - 1];
      assert ys == init + [last];
      DistinctKeepsFirstOccurrenceOrder(init);
      var d := Distinct(init);
      var r := Distinct(ys);
      forall y | y in init
        ensures IndexOf(ys, y) == IndexOf(init, y)
      {
        IndexOfAppend(init, [last], y);
      }
      forall i, j | 0 <= i < j < |r|
        ensures IndexOf(ys, r[i]) < IndexOf(ys, r[j])
      {
        assert r[i] == d[i];
        if j < |d| {
          assert r[j] == d[j];
        } else {
          assert r[j] == last && last !in init;
          assert IndexOf(ys, last) == |init|;
        }
      }
    }
  }
}

=== FILE: constellation_graph.dfy ===
/** `components/ConstellationGraph.tsx`: the pure helpers of the symbol map.

    The view turns the graph of `GET /api/symbols/connections` into a list
    of items: one per node, carrying the ids at the other end of every edge
    that touches it and a size, followed by decorative noise items. It then
    shuffles the list and places the items at random; the model keeps the
    list before the shuffle and states the focus rules for ANY order of
    items. The number of noise items (`Math.floor(n * 0.3)`) is a
    parameter. */
module ConstellationGraph {
  import opened Common
  import opened Text
  import GraphExport

  datatype Kind = SymbolItem | NoiseItem

  /** A grid item; `caption` is the source's `label`, and `node` the node
      a symbol item was built from. */
  datatype Item = Item(
    id: string,
    caption: string,
    kind: Kind,
    size: nat,
    relations: seq<string>,
    node: Option<GraphExport.Node>)

  const NoisePatterns: seq<string> :=
    ["0x4F", "::", "//", "0x2A", "[]", "{}", "0x7E", "~~", "++", "--", "0x5C", "||"]

  /** The `i`-th item of `generateNoise`. */
  function Noise(i: nat): Item
  {
    Item("noise-" + NatToString(i), NoisePatterns[i % |NoisePatterns|], NoiseItem, 1, [], None)
  }

  /** `generateNoise(count)`: the loop runs for `0 <= i < count`, so a
      count of zero or less yields nothing. */
  function GenerateNoise(count: int): (r: seq<Item>)
    ensures |r| == if count > 0 then count else 0
  {
    if count <= 0 then []
    else seq(count, i requires 0 <= i < count => Noise(i))
  }

  // ---------------------------------------------------------------------
  // Relations and size

  /** The ids at the other end of the edges touching `id`, in edge order:
      the target of an edge leaving `id`, else the source of an edge
      entering it. */
  function Relations(edges: seq<GraphExport.Edge>, id: string): seq<string>
  {
    if |edges| == 0 then []
    else
      var e := edges[|edges| - 1];
      Relations(edges[..|edges| - 1], id)
        + (if e.source == id then [e.target] else if e.target == id then [e.source] else [])
  }

  /** The edge `e` makes `x` a relation of `id`. */
  predicate Links(e: GraphExport.Edge, id: string, x: string)
  {
    (e.source == id && e.target == x) || (e.source != id && e.target == id && e.source == x)
  }

  /** `node.level >= 4`, where a missing level is `null` and `null >= 4`
      is false. */
  predicate HighLevel(level: Option<int>)
  {
    match level
    case Some(v) => v >= 4
    case None => false
  }

  function Size(n: GraphExport.Node): nat
  {
    if n.occurrences >= 5 || HighLevel(n.level) then 2 else 1
  }

  function ItemOf(n: GraphExport.Node, edges: seq<GraphExport.Edge>): Item
  {
    Item(n.id, n.name, SymbolItem, Size(n), Relations(edges, n.id), Some(n))
  }

  /** The items `buildGrid` makes before the shuffle. */
  function Build(nodes: seq<GraphExport.Node>, edges: seq<GraphExport.Edge>, noise: int): (r: seq<Item>)
    ensures |r| == |nodes| + |GenerateNoise(noise)|
  {
    seq(|nodes|, i requires 0 <= i < |nodes| => ItemOf(nodes[i], edges)) + GenerateNoise(noise)
  }

  // ---------------------------------------------------------------------
  // Colour, focus and filter

  function CategoryColor(category: Option<string>): string
  {
    match category
    case Some(c) =>
      if c == "NATURE" then "#33FF00"
      else if c == "PERSONA" then "#FFB000"
      else if c == "SHADOW" then "#FF3333"
      else if c == "SACRED" then "#00FFFF"
      else "#888888"
    case None => "#888888"
  }

  /** `gridItems.find(i => i.id === selectedId)`: the position of the first
      item with the selected id (a `null` selection matches nothing). */
  function FindSelected(grid: seq<Item>, selected: Option<string>): (r: Option<nat>)
    ensures r.Some? ==> r.value < |grid| && Some(grid[r.value].id) == selected
  {
    if |grid| == 0 then None
    else if Some(grid[0].id) == selected then Some(0)
    else match FindSelected(grid[1..], selected)
      case Some(p) => Some(p + 1)
      case None => None
  }

  /** `selectedItem && selectedItem.relations.includes(id)`. */
  predicate RelatedToSelected(grid: seq<Item>, selected: Option<string>, id: string)
  {
    match FindSelected(grid, selected)
    case Some(p) => id in grid[p].relations
    case None => false
  }

  /** `getOpacity`. */
  function Opacity(grid: seq<Item>, selected: Option<string>, item: Item): real
  {
    if !Truthy(selected) then 1.0
    else if item.kind == NoiseItem then 0.1
    else if item.id == selected.value then 1.0
    else if RelatedToSelected(grid, selected, item.id) then 0.8
    else 0.1
  }

  /** `getBorderColor`. */
  function BorderColor(grid: seq<Item>, selected: Option<string>, item: Item): string
  {
    if Some(item.id) == selected then "#FFFFFF"
    else if RelatedToSelected(grid, selected, item.id) then "#33FF00"
    else "#112211"
  }

  /** The set of visible categories; `None` stands for `null`. */
  type Filter = set<Option<string>>

  const AllCategories: Filter :=
    {Some("NATURE"), Some("PERSONA"), Some("SHADOW"), Some("SACRED"), None}

  /** A category button: removes a visible category, adds a hidden one. */
  function Toggle(filter: Filter, category: Option<string>): Filter
  {
    if category in filter then filter - {category} else filter + {category}
  }

  /** The filter callback: noise always, a symbol when its node's category
      is visible, an item without a node never. */
  predicate Visible(filter: Filter, item: Item)
  {
    item.kind == NoiseItem || (item.node.Some? && item.node.value.category in filter)
  }

  function Shown(grid: seq<Item>, filter: Filter): seq<Item>
  {
    if |grid| == 0 then []
    else Shown(grid[..|grid| - 1], filter) + (if Visible(filter, grid[|grid| - 1]) then [grid[|grid| - 1]] else [])
  }

  /** The click handler: a symbol toggles its own selection, noise does
      nothing. */
  function Click(selected: Option<string>, item: Item): Option<string>
  {
    if item.kind == SymbolItem then (if Some(item.id) == selected then None else Some(item.id))
    else selected
  }

  // ---------------------------------------------------------------------
  // Lemmas

  /** Noise items: numbered ids, size 1, no relations, and labels that
      cycle through the twelve patterns. */
  lemma NoiseShape(count: int)
    ensures var r := GenerateNoise(count);
      && (forall i :: 0 <= i < |r| ==>
            r[i].kind == NoiseItem && r[i].size == 1 && r[i].relations == [] && r[i].node == None
            && r[i].id == "noise-" + NatToString(i) && r[i].caption == NoisePatterns[i % 12])
      && (forall i :: 0 <= i < |r| && i + 12 < |r| ==> r[i + 12].caption == r[i].caption)
  {
    var r := GenerateNoise(count);
    assert |NoisePatterns| == 12;
    forall i | 0 <= i < |r|
      ensures r[i] == Noise(i)
    {
    }
    forall i | 0 <= i < |r| && i + 12 < |r|
      ensures r[i + 12].caption == r[i].caption
    {
      assert (i + 12) % 12 == i % 12;
    }
  }

  /** The twelve patterns are distinct, so twelve consecutive noise items
      carry twelve different labels. */
  lemma PatternsDistinct()
    ensures |NoisePatterns| == 12 && NoDuplicates(NoisePatterns)
  {
  }

  /** Noise ids are pairwise distinct. */
  lemma NoiseIdsDistinct(count: int)
    ensures var r := GenerateNoise(count);
      forall i, j :: 0 <= i < j < |r| ==> r[i].id != r[j].id
  {
    var r := GenerateNoise(count);
    forall i, j | 0 <= i < j < |r|
      ensures r[i].id != r[j].id
    {
      var a, b := NatToString(i), NatToString(j);
      if r[i].id == r[j].id {
        assert a == r[i].id[6..] && b == r[j].id[6..];
        NatToStringInjective(i, j);
      }
    }
  }

  /** `x` is a relation of `id` exactly when some edge links them. */
  lemma {:induction false} RelationsMembers(edges: seq<GraphExport.Edge>, id: string, x: string)
    ensures x in Relations(edges, id) <==> exists e :: e in edges && Links(e, id, x)
  {
    if |edges| > 0 {
      var init, e := edges[..|edges| - 1], edges[|edges| - 1];
      assert edges == init + [e];
      RelationsMembers(init, id, x);
      var tail := if e.source == id then [e.target] else if e.target == id then [e.source] else [];
      assert Relations(edges, id) == Relations(init, id) + tail;
      assert x in tail <==> Links(e, id, x);
      if x in Relations(init, id) {
        var f :| f in init && Links(f, id, x);
        assert f in edges;
      }
      if exists f :: f in edges && Links(f, id, x) {
        var f :| f in edges && Links(f, id, x);
        if f != e {
          assert f in init;
        }
      }
    }
  }

  /** Relations are symmetric between distinct nodes. */
  lemma RelationsSymmetric(edges: seq<GraphExport.Edge>, a: string, b: string)
    requires a != b
    ensures a in Relations(edges, b) <==> b in Relations(edges, a)
  {
    RelationsMembers(edges, b, a);
    RelationsMembers(edges, a, b);
    forall e | e in edges
      ensures Links(e, b, a) <==> Links(e, a, b)
    {
    }
  }

  /** A node is drawn large exactly when it occurs five times or more or has
      a level of at least four; a missing level never counts. */
  lemma SizeIff(n: GraphExport.Node)
    ensures Size(n) == 1 || Size(n) == 2
    ensures Size(n) == 2 <==> n.occurrences >= 5 || (n.level.Some? && n.level.value >= 4)
    ensures n.level.None? ==> (Size(n) == 2 <==> n.occurrences >= 5)
  {
  }

  /** The built list: the nodes' items in node order, then the noise. */
  lemma BuildShape(nodes: seq<GraphExport.Node>, edges: seq<GraphExport.Edge>, noise: int)
    ensures var r := Build(nodes, edges, noise);
      && (forall i :: 0 <= i < |nodes| ==>
            r[i].kind == SymbolItem && r[i].id == nodes[i].id && r[i].caption == nodes[i].name
            && r[i].node == Some(nodes[i]) && r[i].relations == Relations(edges, nodes[i].id))
      && (forall i :: |nodes| <= i < |r| ==> r[i] == Noise(i - |nodes|))
  {
    var r := Build(nodes, edges, noise);
    var items := seq(|nodes|, i requires 0 <= i < |nodes| => ItemOf(nodes[i], edges));
    var tail := GenerateNoise(noise);
    assert r == items + tail;
    forall i | 0 <= i < |nodes|
      ensures r[i] == ItemOf(nodes[i], edges)
    {
      assert r[i] == items[i];
    }
    forall i | |nodes| <= i < |r|
      ensures r[i] == Noise(i - |nodes|)
    {
      assert r[i] == tail[i - |nodes|];
    }
  }

  /** Between the items of two distinct nodes the relation is symmetric. */
  lemma BuiltRelationsSymmetric(nodes: seq<GraphExport.Node>, edges: seq<GraphExport.Edge>, noise: int, i: nat, j: nat)
    requires i < |nodes| && j < |nodes| && nodes[i].id != nodes[j].id
    ensures var r := Build(nodes, edges, noise);
      r[i].id in r[j].relations <==> r[j].id in r[i].relations
  {
    RelationsSymmetric(edges, nodes[i].id, nodes[j].id);
  }

  /** The four categories have four colours; everything else is grey. */
  lemma CategoryColors(category: Option<string>)
    ensures CategoryColor(category) != "#888888" <==>
              category in {Some("NATURE"), Some("PERSONA"), Some("SHADOW"), Some("SACRED")}
    ensures CategoryColor(Some("NATURE")) != CategoryColor(Some("PERSONA"))
    ensures CategoryColor(Some("NATURE")) != CategoryColor(Some("SHADOW"))
    ensures CategoryColor(Some("NATURE")) != CategoryColor(Some("SACRED"))
    ensures CategoryColor(Some("PERSONA")) != CategoryColor(Some("SHADOW"))
    ensures CategoryColor(Some("PERSONA")) != CategoryColor(Some("SACRED"))
    ensures CategoryColor(Some("SHADOW")) != CategoryColor(Some("SACRED"))
  {
  }

  /** The item the lookup settles on: the first with the selected id,
      whose relations include `id`. */
  ghost predicate Focused(grid: seq<Item>, selected: Option<string>, id: string)
  {
    exists p :: 0 <= p < |grid| && Some(grid[p].id) == selected
      && (forall q :: 0 <= q < p ==> Some(grid[q].id) != selected)
      && id in grid[p].relations
  }

  /** The lookup finds the first item with the selected id. */
  lemma {:induction false} FindSelectedFirst(grid: seq<Item>, selected: Option<string>)
    ensures match FindSelected(grid, selected)
      case Some(p) => forall q :: 0 <= q < p ==> Some(grid[q].id) != selected
      case None => forall q :: 0 <= q < |grid| ==> Some(grid[q].id) != selected
  {
    if |grid| > 0 && Some(grid[0].id) != selected {
      FindSelectedFirst(grid[1..], selected);
    }
  }

  lemma RelatedIffFocused(grid: seq<Item>, selected: Option<string>, id: string)
    ensures RelatedToSelected(grid, selected, id) <==> Focused(grid, selected, id)
  {
    FindSelectedFirst(grid, selected);
    if Focused(grid, selected, id) {
      var p :| 0 <= p < |grid| && Some(grid[p].id) == selected
        && (forall q :: 0 <= q < p ==> Some(grid[q].id) != selected)
        && id in grid[p].relations;
      var r := FindSelected(grid, selected);
      assert r.Some?;
      assert r.value == p;
    }
  }

  /** The focus rules: with nothing selected everything is opaque; with a
      selection, noise dims, the selected symbol stays opaque, a symbol
      related to the selection is bright and the rest dims. */
  lemma OpacityRules(grid: seq<Item>, selected: Option<string>, item: Item)
    ensures var o := Opacity(grid, selected, item);
      && (o == 1.0 || o == 0.8 || o == 0.1)
      && (!Truthy(selected) ==> o == 1.0)
      && (Truthy(selected) && item.kind == NoiseItem ==> o == 0.1)
      && (o == 1.0 <==> !Truthy(selected) || (item.kind == SymbolItem && Some(item.id) == selected))
      && (o == 0.8 <==> Truthy(selected) && item.kind == SymbolItem && Some(item.id) != selected
                        && Focused(grid, selected, item.id))
  {
    RelatedIffFocused(grid, selected, item.id);
  }

  /** On a grid with distinct ids (as built from a graph), the selection is
      the one item with its id, and a symbol is bright exactly when that
      item lists it. */
  lemma OpacityOnDistinctIds(grid: seq<Item>, s: nat, item: Item)
    requires forall i, j :: 0 <= i < j < |grid| ==> grid[i].id != grid[j].id
    requires s < |grid| && grid[s].id != ""
    requires item.kind == SymbolItem && item.id != grid[s].id
    ensures Opacity(grid, Some(grid[s].id), item) == if item.id in grid[s].relations then 0.8 else 0.1
  {
    var selected := Some(grid[s].id);
    FindSelectedFirst(grid, selected);
    var r := FindSelected(grid, selected);
    forall q | 0 <= q < |grid| && q != s
      ensures Some(grid[q].id) != selected
    {
      if q < s {
        assert grid[q].id != grid[s].id;
      } else {
        assert grid[s].id != grid[q].id;
      }
    }
    assert r == Some(s);
  }

  /** The border follows the same focus: white for the selection, green for
      a focused relation, dark otherwise. */
  lemma BorderRules(grid: seq<Item>, selected: Option<string>, item: Item)
    ensures var b := BorderColor(grid, selected, item);
      && (b == "#FFFFFF" <==> Some(item.id) == selected)
      && (b == "#33FF00" <==> Some(item.id) != selected && Focused(grid, selected, item.id))
      && (selected.None? ==> b == "#112211")
  {
    RelatedIffFocused(grid, selected, item.id);
    if selected.None? {
      FindSelectedFirst(grid, selected);
    }
  }

  /** For a symbol under a selection, a bright item is exactly one with the
      green border. */
  lemma BrightIffGreen(grid: seq<Item>, selected: Option<string>, item: Item)
    requires Truthy(selected) && item.kind == SymbolItem
    ensures Opacity(grid, selected, item) == 0.8 <==> BorderColor(grid, selected, item) == "#33FF00"
  {
  }

  /** A button flips the visibility of its own category and no other. */
  lemma ToggleFlipsOne(filter: Filter, category: Option<string>)
    ensures forall c :: c in Toggle(filter, category) <==> (if c == category then c !in filter else c in filter)
    ensures Toggle(Toggle(filter, category), category) == filter
  {
  }

  /** The shown items are the grid's items the filter lets through, noise
      always, in grid order. */
  lemma {:induction false} ShownExactly(grid: seq<Item>, filter: Filter)
    ensures forall it :: it in Shown(grid, filter) <==> it in grid && Visible(filter, it)
    ensures |Shown(grid, filter)| <= |grid|
  {
    if |grid| > 0 {
      var init := grid[..|grid| - 1];
      ShownExactly(init, filter);
      assert grid == init + [grid[|grid| - 1]];
    }
  }

  /** Filtering keeps the grid's order: filtering two pieces and joining
      them is filtering the joined grid. */
  lemma {:induction false} ShownAppend(a: seq<Item>, b: seq<Item>, filter: Filter)
    ensures Shown(a + b, filter) == Shown(a, filter) + Shown(b, filter)
  {
    if |b| == 0 {
      assert a + b == a;
    } else {
      var init, last := b[..|b| - 1], b[|b| - 1];
      ShownAppend(a, init, filter);
      assert (a + b)[..|a + b| - 1] == a + init;
      assert (a + b)[|a + b| - 1] == last;
    }
  }

  /** Every noise item is shown, under any filter; a symbol is shown
      exactly when its category is visible. */
  lemma ShownItems(grid: seq<Item>, filter: Filter, it: Item)
    requires it in grid
    ensures it.kind == NoiseItem ==> it in Shown(grid, filter)
    ensures it.kind == SymbolItem && it.node.Some? ==>
              (it in Shown(grid, filter) <==> it.node.value.category in filter)
  {
    ShownExactly(grid, filter);
  }

  /** Clicking a symbol selects it, clicking it again deselects it, and
      clicking noise changes nothing. */
  lemma ClickRules(selected: Option<string>, item: Item)
    ensures item.kind == NoiseItem ==> Click(selected, item) == selected
    ensures item.kind == SymbolItem ==>
              (Click(selected, item) == None <==> selected == Some(item.id))
    ensures item.kind == SymbolItem && selected != Some(item.id) ==> Click(selected, item) == Some(item.id)
    ensures item.kind == SymbolItem ==> Click(Click(None, item), item) == None
  {
  }
}

=== FILE: constellations.dfy ===
/** `GET /api/constellations`: recurring-pattern detection over the recent
    entries, and the question the alert shows for a pattern.

    The route counts every listed symbol name and every truthy dominant
    archetype of the entries it is given (the seven-day window and the
    newest-first order are the caller's: `recent` is the already filtered
    list), keeps the names counted at least twice, sorts them by
    non-increasing count and takes five. When any name recurs it names the
    pattern, describes it and stores a constellation.

    The frequency tables are JavaScript objects: `Object.entries` lists
    their keys in property order (array indices first), and a name that
    is an inherited member of every object (`toString`, `constructor`,
    `__proto__`, ...) never gets a numeric count, so it never recurs. */
module Constellations {
  import opened Common
  import opened Text
  import opened Store
  import opened Sorting
  import JsObject
  import ArchetypeNormalizer

  /** One `[key, count]` pair of `Object.entries` on a frequency object. */
  datatype Tally = Tally(key: string, count: int)

  /** No key has two pairs. */
  ghost predicate DistinctKeys(ts: seq<Tally>)
  {
    forall i, j :: 0 <= i < j < |ts| ==> ts[i].key != ts[j].key
  }

  function CountOf(t: Tally): int
  {
    t.count
  }

  /** The labels that get a numeric count: `table[x] || 0` on an inherited
      name yields the member, and `member + 1` is a string, never `>= 2`. */
  function Own(labels: seq<string>): (r: seq<string>)
    ensures forall i :: 0 <= i < |r| ==> r[i] !in JsObject.InheritedNames
  {
    if |labels| == 0 then []
    else
      var last := labels[|labels| - 1];
      Own(labels[..|labels| - 1]) + (if last in JsObject.InheritedNames then [] else [last])
  }

  /** The counted keys, in the order `Object.entries` lists them. */
  function Keys(labels: seq<string>): seq<string>
  {
    JsObject.PropertyOrder(Distinct(Own(labels)))
  }

  /** `Object.entries` of the frequency object built from `labels`. */
  function Tallies(labels: seq<string>): (r: seq<Tally>)
    ensures |r| == |Keys(labels)|
    ensures forall i :: 0 <= i < |r| ==> r[i].key == Keys(labels)[i] && r[i].count == Count(labels, r[i].key)
  {
    var keys := Keys(labels);
    seq(|keys|, i requires 0 <= i < |keys| => Tally(keys[i], Count(labels, keys[i])))
  }

  /** The truthy `dominantArchetype` labels, entry by entry. */
  function ArchetypeLabels(entries: seq<Entry>): seq<string>
  {
    if |entries| == 0 then []
    else
      var a := entries[|entries| - 1].dominantArchetype;
      ArchetypeLabels(entries[..|entries| - 1]) + (if Truthy(a) then [a.value] else [])
  }

  /** `.filter(([_, count]) => count >= 2)`. */
  function Frequent(ts: seq<Tally>): seq<Tally>
  {
    if |ts| == 0 then []
    else Frequent(ts[..|ts| - 1]) + (if ts[|ts| - 1].count >= 2 then [ts[|ts| - 1]] else [])
  }

  /** The recurring symbols: the frequent names by non-increasing count
      (a stable sort), the first five. */
  function Recurring(entries: seq<Entry>): seq<string>
  {
    TopKeys(SortDesc(Frequent(Tallies(ListedNames(entries))), CountOf))
  }

  /** `.slice(0, 5).map(([symbol]) => symbol)`. */
  function TopKeys(sorted: seq<Tally>): (r: seq<string>)
    ensures |r| == if |sorted| <= 5 then |sorted| else 5
    ensures forall i :: 0 <= i < |r| ==> r[i] == sorted[i].key
  {
    var top := if |sorted| <= 5 then sorted else sorted[..5];
    seq(|top|, i requires 0 <= i < |top| => top[i].key)
  }

  /** The dominant archetype: the first key of the sorted tallies. */
  function Dominant(entries: seq<Entry>): Option<string>
  {
    var sorted := SortDesc(Tallies(ArchetypeLabels(entries)), CountOf);
    if |sorted| == 0 then None else Some(sorted[0].key)
  }

  const WaterSymbols: seq<string> := ["woda", "deszcz", "ocean", "rzeka", "jezioro"]
  const FireSymbols: seq<string> := ["ogień", "płomień", "słońce", "żar"]
  const EarthSymbols: seq<string> := ["ziemia", "kamień", "góra", "piwnica"]
  const AirSymbols: seq<string> := ["wiatr", "niebo", "chmury", "ptak"]

  /** Some symbol, lower-cased, contains one of `words`. */
  predicate Mentions(symbols: seq<string>, words: seq<string>)
  {
    exists i, j :: 0 <= i < |symbols| && 0 <= j < |words| && Contains(ToLower(symbols[i]), words[j])
  }

  /** The names `getPatternName` can give. */
  const PatternNames: seq<string> :=
    ["ZANURZENIE", "POŻAR", "GRUNT", "WZNIESIENIE", "CIENIE", "ANIMA", "ANIMUS", "WZORZEC"]

  /** `getPatternName`: the elements in the order water, fire, earth, air,
      each only for three symbols or more; then three archetype labels,
      compared exactly; then the default. */
  function PatternName(symbols: seq<string>, archetype: Option<string>): string
  {
    if Mentions(symbols, WaterSymbols) && |symbols| >= 3 then "ZANURZENIE"
    else if Mentions(symbols, FireSymbols) && |symbols| >= 3 then "POŻAR"
    else if Mentions(symbols, EarthSymbols) && |symbols| >= 3 then "GRUNT"
    else if Mentions(symbols, AirSymbols) && |symbols| >= 3 then "WZNIESIENIE"
    else if archetype == Some("Cień") then "CIENIE"
    else if archetype == Some("Anima") then "ANIMA"
    else if archetype == Some("Animus") then "ANIMUS"
    else "WZORZEC"
  }

  const DescriptionPrefix: string := "Wykryto powtarzające się symbole: "
  const ArchetypePrefix: string := "Dominujący archetyp: "

  /** `generatePatternDescription`. */
  function Description(symbols: seq<string>, archetype: Option<string>): string
  {
    DescriptionPrefix + Join(symbols, ", ") + ". "
      + (if Truthy(archetype) then ArchetypePrefix + archetype.value + "." else "")
  }

  /** `Math.min(n / 5, 1.0)`. */
  function Confidence(n: nat): real
  {
    var ratio := n as real / 5.0;
    if ratio < 1.0 then ratio else 1.0
  }

  datatype Response =
    | Found(pattern: string, description: string, symbols: seq<string>, archetype: Option<string>)
    | NoPattern(message: string)

  /** The route as a state transition over the recent entries. */
  function Get(db: Db, recent: seq<Entry>): (Db, Response)
  {
    var recurring := Recurring(recent);
    var dominant := Dominant(recent);
    if |recurring| > 0 then
      var pattern := PatternName(recurring, dominant);
      var description := Description(recurring, dominant);
      (db.(constellations := db.constellations
             + [Constellation(pattern, description, recurring, Confidence(|recurring|))]),
       Found(pattern, description, recurring, dominant))
    else (db, NoPattern("No patterns detected in the last 7 days"))
  }

  const Fallback: string := "Co to dla Ciebie oznacza?"

  /** `getConstellationQuestion`, with the table looked up by own
      properties. */
  function Question(pattern: string): string
  {
    if pattern == "ZANURZENIE" then "Czy jesteś gotów wypłynąć?"
    else if pattern == "POŻAR" then "Co próbujesz spalić?"
    else if pattern == "GRUNT" then "Czy stąpasz po twardym gruncie?"
    else if pattern == "WZNIESIENIE" then "Dokąd chcesz wzlecieć?"
    else if pattern == "CIENIE" then "Gdzie pada światło?"
    else if pattern == "ANIMA" || pattern == "ANIMUS" then "Kogo udajesz?"
    else if pattern == "WZORZEC" then "Czy widzisz wzór?"
    else Fallback
  }

  // ---------------------------------------------------------------------
  // Counting

  lemma {:induction false} OwnMembers(labels: seq<string>)
    ensures forall x :: x in Own(labels) <==> x in labels && x !in JsObject.InheritedNames
  {
    if |labels| > 0 {
      OwnMembers(labels[..|labels| - 1]);
      assert labels == labels[..|labels| - 1] + [labels[|labels| - 1]];
    }
  }

  /** The keys are exactly the labels with a numeric count. */
  lemma KeysMembers(labels: seq<string>)
    ensures forall x :: x in Keys(labels) <==> x in labels && x !in JsObject.InheritedNames
  {
    OwnMembers(labels);
    var d := Distinct(Own(labels));
    JsObject.PropertyOrderMembers(d);
    forall x | x in Own(labels)
      ensures x in d
    {
      var i :| 0 <= i < |Own(labels)| && Own(labels)[i] == x;
    }
  }

  /** Each pair counts every occurrence of its key, repeats included, and
      every label with a numeric count has its pair. */
  lemma TalliesExactly(labels: seq<string>)
    ensures forall t :: t in Tallies(labels) ==>
              t.count == Count(labels, t.key) && t.key in labels && t.key !in JsObject.InheritedNames
    ensures forall x :: x in labels && x !in JsObject.InheritedNames ==>
              Tally(x, Count(labels, x)) in Tallies(labels)
  {
    KeysMembers(labels);
    var keys := Keys(labels);
    var ts := Tallies(labels);
    forall t | t in ts
      ensures t.count == Count(labels, t.key) && t.key in labels && t.key !in JsObject.InheritedNames
    {
      var i :| 0 <= i < |ts| && ts[i] == t;
      assert keys[i] in keys;
    }
    forall x | x in labels && x !in JsObject.InheritedNames
      ensures Tally(x, Count(labels, x)) in ts
    {
      var i :| 0 <= i < |keys| && keys[i] == x;
      assert ts[i] == Tally(x, Count(labels, x));
    }
  }

  /** `Object.entries` gives each counted name one pair. */
  lemma TalliesDistinct(labels: seq<string>)
    ensures DistinctKeys(Tallies(labels))
  {
    JsObject.PropertyOrderDistinct(Distinct(Own(labels)));
  }

  /** The filter keeps distinct keys distinct. */
  lemma {:induction false} FrequentDistinct(ts: seq<Tally>)
    requires DistinctKeys(ts)
    ensures DistinctKeys(Frequent(ts))
  {
    if |ts| > 0 {
      var init, last := ts[..|ts| - 1], ts[|ts| - 1];
      FrequentDistinct(init);
      FrequentExactly(init);
      var f := Frequent(init);
      forall k | 0 <= k < |f|
        ensures f[k].key != last.key
      {
        assert f[k] in init;
        var m :| 0 <= m < |init| && init[m] == f[k];
        assert ts[m] == f[k];
      }
    }
  }

  lemma {:induction false} FrequentExactly(ts: seq<Tally>)
    ensures forall t :: t in Frequent(ts) <==> t in ts && t.count >= 2
  {
    if |ts| > 0 {
      FrequentExactly(ts[..|ts| - 1]);
      assert ts == ts[..|ts| - 1] + [ts[|ts| - 1]];
    }
  }

  /** The archetype labels counted are the truthy ones. */
  lemma {:induction false} ArchetypeLabelsExactly(entries: seq<Entry>)
    ensures forall x :: x in ArchetypeLabels(entries) <==>
              x != "" && exists e :: e in entries && e.dominantArchetype == Some(x)
  {
    if |entries| > 0 {
      var init := entries[..|entries| - 1];
      ArchetypeLabelsExactly(init);
      assert entries == init + [entries[|entries| - 1]];
      forall x | x != "" && exists e :: e in entries && e.dominantArchetype == Some(x)
        ensures x in ArchetypeLabels(entries)
      {
        var e :| e in entries && e.dominantArchetype == Some(x);
        if e != entries[|entries| - 1] {
          assert e in init;
        }
      }
    }
  }

  // ---------------------------------------------------------------------
  // Recurring symbols

  /** The sorted frequent pairs: ordered, each counting its key, and one
      for every name listed twice or more. */
  lemma SortedFrequent(names: seq<string>)
    ensures var sorted := SortDesc(Frequent(Tallies(names)), CountOf);
      && SortedDesc(sorted, CountOf)
      && (forall i :: 0 <= i < |sorted| ==>
            && sorted[i].count == Count(names, sorted[i].key) && sorted[i].count >= 2
            && sorted[i].key in names && sorted[i].key !in JsObject.InheritedNames)
      && (forall x :: x in names && x !in JsObject.InheritedNames && Count(names, x) >= 2 ==>
            Tally(x, Count(names, x)) in sorted)
  {
    var f := Frequent(Tallies(names));
    var sorted := SortDesc(f, CountOf);
    SortDescProperties(f, CountOf);
    SortDescMembers(f, CountOf);
    FrequentExactly(Tallies(names));
    TalliesExactly(names);
    forall i | 0 <= i < |sorted|
      ensures sorted[i] in Tallies(names) && sorted[i].count >= 2
    {
      assert sorted[i] in sorted;
    }
  }

  /** The sorted frequent pairs have distinct keys: distinct pairs before
      the sort, the same pairs after it, and a pair's count is fixed by its
      key. */
  lemma SortedFrequentKeysDistinct(names: seq<string>)
    ensures DistinctKeys(SortDesc(Frequent(Tallies(names)), CountOf))
  {
    var f := Frequent(Tallies(names));
    var sorted := SortDesc(f, CountOf);
    TalliesDistinct(names);
    FrequentDistinct(Tallies(names));
    SameMultisetNoDuplicates(f, sorted);
    SortedFrequent(names);
    forall i, j | 0 <= i < j < |sorted|
      ensures sorted[i].key != sorted[j].key
    {
      assert sorted[i] != sorted[j];
    }
  }

  /** A pair of the sorted list left out of the first five follows five
      pairs with at least its count. */
  lemma TopKeysMissing(sorted: seq<Tally>, p: nat)
    requires SortedDesc(sorted, CountOf) && p < |sorted| && sorted[p].key !in TopKeys(sorted)
    ensures |TopKeys(sorted)| == 5
    ensures forall i :: 0 <= i < 5 ==> sorted[i].count >= sorted[p].count
  {
    var r := TopKeys(sorted);
    forall i | 0 <= i < |r|
      ensures r[i] != sorted[p].key
    {
      assert r[i] in r;
    }
  }

  /** At most five recurring symbols, distinct, each counted at least
      twice, by non-increasing count. */
  lemma RecurringFacts(entries: seq<Entry>)
    ensures var r := Recurring(entries); var names := ListedNames(entries);
      && |r| <= 5 && NoDuplicates(r)
      && (forall i :: 0 <= i < |r| ==>
            Count(names, r[i]) >= 2 && r[i] in names && r[i] !in JsObject.InheritedNames)
      && (forall i, j :: 0 <= i < j < |r| ==> Count(names, r[i]) >= Count(names, r[j]))
  {
    var names := ListedNames(entries);
    var sorted := SortDesc(Frequent(Tallies(names)), CountOf);
    SortedFrequent(names);
    SortedFrequentKeysDistinct(names);
    TopKeysFacts(names, sorted);
  }

  lemma TopKeysFacts(names: seq<string>, sorted: seq<Tally>)
    requires SortedDesc(sorted, CountOf) && DistinctKeys(sorted)
    requires forall i :: 0 <= i < |sorted| ==>
      && sorted[i].count == Count(names, sorted[i].key) && sorted[i].count >= 2
      && sorted[i].key in names && sorted[i].key !in JsObject.InheritedNames
    ensures var r := TopKeys(sorted);
      && |r| <= 5 && NoDuplicates(r)
      && (forall i :: 0 <= i < |r| ==>
            Count(names, r[i]) >= 2 && r[i] in names && r[i] !in JsObject.InheritedNames)
      && (forall i, j :: 0 <= i < j < |r| ==> Count(names, r[i]) >= Count(names, r[j]))
  {
    var r := TopKeys(sorted);
    forall i, j | 0 <= i < j < |r|
      ensures Count(names, r[i]) >= Count(names, r[j])
    {
      assert sorted[i].count >= sorted[j].count;
    }
  }

  /** Nothing recurring is left out unless five names with at least its
      count were taken. */
  lemma RecurringTop(entries: seq<Entry>, x: string)
    requires var names := ListedNames(entries);
      x in names && x !in JsObject.InheritedNames && Count(names, x) >= 2
    requires x !in Recurring(entries)
    ensures |Recurring(entries)| == 5
    ensures forall i :: 0 <= i < 5 ==> Count(ListedNames(entries), Recurring(entries)[i]) >= Count(ListedNames(entries), x)
  {
    var names := ListedNames(entries);
    var sorted := SortDesc(Frequent(Tallies(names)), CountOf);
    SortedFrequent(names);
    var p :| 0 <= p < |sorted| && sorted[p] == Tally(x, Count(names, x));
    TopKeysMissing(sorted, p);
  }

  /** Some symbol recurs exactly when a name with a numeric count is listed
      twice. */
  lemma RecurringIff(entries: seq<Entry>)
    ensures |Recurring(entries)| > 0 <==>
      exists x :: x in ListedNames(entries) && x !in JsObject.InheritedNames && Count(ListedNames(entries), x) >= 2
  {
    var names, r := ListedNames(entries), Recurring(entries);
    RecurringFacts(entries);
    if |r| > 0 {
      var x := r[0];
      assert x in names && x !in JsObject.InheritedNames && Count(names, x) >= 2;
    }
    if exists x :: x in names && x !in JsObject.InheritedNames && Count(names, x) >= 2 {
      var x :| x in names && x !in JsObject.InheritedNames && Count(names, x) >= 2;
      if x !in r {
        RecurringTop(entries, x);
      }
    }
  }

  // ---------------------------------------------------------------------
  // Dominant archetype

  /** There is no dominant archetype only when no label has a numeric
      count. */
  lemma DominantNone(entries: seq<Entry>)
    ensures Dominant(entries).None? <==>
              forall x :: x in ArchetypeLabels(entries) ==> x in JsObject.InheritedNames
  {
    var labels := ArchetypeLabels(entries);
    var ts := Tallies(labels);
    TalliesExactly(labels);
    if |ts| > 0 {
      assert ts[0] in ts;
    }
    forall x | x in labels
      ensures x in JsObject.InheritedNames || Tally(x, Count(labels, x)) in ts
    {
    }
  }

  /** The head of a stable sort of the tallies of `labels` listed under
      `keys`: a key of maximal count, the first such one. */
  lemma TallyHead(labels: seq<string>, keys: seq<string>, ts: seq<Tally>)
    requires |ts| == |keys| > 0
    requires forall i :: 0 <= i < |ts| ==> ts[i].key == keys[i] && ts[i].count == Count(labels, keys[i])
    requires forall t :: t in ts ==> t.key in labels && t.key !in JsObject.InheritedNames
    requires forall x :: x in labels && x !in JsObject.InheritedNames ==> Tally(x, Count(labels, x)) in ts
    ensures var a := SortDesc(ts, CountOf)[0].key;
      && a in labels && a !in JsObject.InheritedNames
      && (forall x :: x in labels && x !in JsObject.InheritedNames ==> Count(labels, x) <= Count(labels, a))
      && exists p :: 0 <= p < |keys| && keys[p] == a
           && forall q :: 0 <= q < p ==> Count(labels, keys[q]) < Count(labels, a)
  {
    SortDescFirst(ts, CountOf);
    var top := SortDesc(ts, CountOf)[0];
    var p :| 0 <= p < |ts| && ts[p] == top && forall q :: 0 <= q < p ==> ts[q].count < top.count;
    assert ts[p] in ts;
    forall x | x in labels && x !in JsObject.InheritedNames
      ensures Count(labels, x) <= Count(labels, top.key)
    {
      assert Tally(x, Count(labels, x)) in ts;
    }
  }

  /** The dominant archetype is a truthy label of maximal count, the first
      such key in property order. */
  lemma DominantFacts(entries: seq<Entry>)
    requires Dominant(entries).Some?
    ensures var labels := ArchetypeLabels(entries); var a := Dominant(entries).value;
      && a in labels && a !in JsObject.InheritedNames
      && (forall x :: x in labels && x !in JsObject.InheritedNames ==> Count(labels, x) <= Count(labels, a))
      && exists p :: 0 <= p < |Keys(labels)| && Keys(labels)[p] == a
           && forall q :: 0 <= q < p ==> Count(labels, Keys(labels)[q]) < Count(labels, a)
  {
    var labels := ArchetypeLabels(entries);
    TalliesExactly(labels);
    TallyHead(labels, Keys(labels), Tallies(labels));
  }

  // ---------------------------------------------------------------------
  // Pattern, description, confidence, question

  /** The pattern name is always one of the eight. */
  lemma PatternNameIsKnown(symbols: seq<string>, archetype: Option<string>)
    ensures PatternName(symbols, archetype) in PatternNames
  {
  }

  /** An element pattern needs three symbols; below that only the archetype
      or the default can name it. */
  lemma FewSymbolsNoElement(symbols: seq<string>, archetype: Option<string>)
    requires |symbols| < 3
    ensures PatternName(symbols, archetype) in ["CIENIE", "ANIMA", "ANIMUS", "WZORZEC"]
  {
  }

  /** Water outranks every other element: one water word among three
      symbols decides, whatever else they mention. */
  lemma WaterFirst(symbols: seq<string>, archetype: Option<string>, i: nat, j: nat)
    requires |symbols| >= 3 && i < |symbols| && j < |WaterSymbols|
    requires Contains(ToLower(symbols[i]), WaterSymbols[j])
    ensures PatternName(symbols, archetype) == "ZANURZENIE"
  {
  }

  /** With no element pattern, an archetype decides only when it is spelled
      exactly `Cień`, `Anima` or `Animus`. */
  lemma ArchetypePatterns(symbols: seq<string>, archetype: Option<string>)
    requires |symbols| < 3
    ensures PatternName(symbols, archetype) == "CIENIE" <==> archetype == Some("Cień")
    ensures PatternName(symbols, archetype) == "ANIMA" <==> archetype == Some("Anima")
    ensures PatternName(symbols, archetype) == "ANIMUS" <==> archetype == Some("Animus")
  {
  }

  /** The archetype normalizer's names are upper case, so a normalized (or
      missing) archetype never reaches the three archetype patterns. */
  lemma NormalizedArchetypesNeverNamePattern(symbols: seq<string>, archetype: Option<string>)
    requires archetype.None? || archetype.value in ArchetypeNormalizer.StandardArchetypes
    ensures PatternName(symbols, archetype) !in ["CIENIE", "ANIMA", "ANIMUS"]
  {
  }

  lemma PrefixCancel(a: string, b: string, c: string)
    requires a + b == a + c
    ensures b == c
  {
    assert b == (a + b)[|a|..];
  }

  /** The archetype sentence is there exactly when the archetype is truthy,
      and the description determines that archetype. */
  lemma DescriptionArchetype(symbols: seq<string>, a: Option<string>, b: Option<string>)
    ensures var head := DescriptionPrefix + Join(symbols, ", ") + ". ";
      && |Description(symbols, a)| >= |head|
      && Description(symbols, a)[..|head|] == head
      && (Description(symbols, a) == head <==> !Truthy(a))
    ensures Truthy(a) && Truthy(b) && Description(symbols, a) == Description(symbols, b) ==> a == b
  {
    var head := DescriptionPrefix + Join(symbols, ", ") + ". ";
    if Truthy(a) && Truthy(b) && Description(symbols, a) == Description(symbols, b) {
      PrefixCancel(head, ArchetypePrefix + a.value + ".", ArchetypePrefix + b.value + ".");
      var sa, sb := ArchetypePrefix + a.value + ".", ArchetypePrefix + b.value + ".";
      assert a.value == sa[|ArchetypePrefix|..|sa| - 1];
      assert b.value == sb[|ArchetypePrefix|..|sb| - 1];
    }
  }

  /** The confidence grows with the number of recurring symbols, never
      exceeds 1, and reaches 1 exactly at five symbols or more. */
  lemma ConfidenceBounds(n: nat)
    ensures 0.0 <= Confidence(n) <= 1.0
    ensures n > 0 ==> Confidence(n) > 0.0
    ensures Confidence(n) == 1.0 <==> n >= 5
    ensures n <= 5 ==> Confidence(n) == n as real / 5.0
  {
  }

  /** A constellation is stored and returned exactly when some symbol
      recurs; the entries, symbols and connections stay. */
  lemma GetSavesIffRecurring(db: Db, recent: seq<Entry>)
    ensures var (db', response) := Get(db, recent);
      && db'.entries == db.entries && db'.symbols == db.symbols && db'.connections == db.connections
      && (response.Found? <==> |Recurring(recent)| > 0)
      && (response.Found? ==>
            && db'.constellations == db.constellations + [Constellation(response.pattern, response.description,
                                                                        response.symbols, Confidence(|response.symbols|))]
            && response.symbols == Recurring(recent) && response.archetype == Dominant(recent)
            && response.pattern in PatternNames
            && 0.0 < Confidence(|response.symbols|) <= 1.0)
      && (response.NoPattern? ==> db' == db)
  {
    var r := Recurring(recent);
    PatternNameIsKnown(r, Dominant(recent));
    ConfidenceBounds(|r|);
  }

  /** Each pattern name has its own question; `ANIMA` and `ANIMUS` share
      one, and anything else falls back. */
  lemma QuestionsCoverPatterns(pattern: string)
    ensures pattern in PatternNames <==> Question(pattern) != Fallback
    ensures Question("ANIMA") == Question("ANIMUS")
  {
  }

  /** `ANIMA` and `ANIMUS` are the only two patterns sharing a question. */
  lemma OnlyAnimaAnimusShare(i: nat, j: nat)
    requires i < j < |PatternNames|
    requires Question(PatternNames[i]) == Question(PatternNames[j])
    ensures PatternNames[i] == "ANIMA" && PatternNames[j] == "ANIMUS"
  {
  }

  /** So the alert never falls back for a pattern the route stored. */
  lemma RouteQuestionsNeverFallBack(db: Db, recent: seq<Entry>)
    requires Get(db, recent).1.Found?
    ensures Question(Get(db, recent).1.pattern) != Fallback
  {
    var r := Recurring(recent);
    PatternNameIsKnown(r, Dominant(recent));
    QuestionsCoverPatterns(PatternName(r, Dominant(recent)));
  }
}

=== FILE: fix_archetypes.dfy ===
/** `scripts/fix-archetype-typos.ts`: every stored archetype label, first on
    the entries and then on the symbols, is replaced by its normalization
    when that differs from it; the script counts the updates and collects
    a table from each changed label to its replacement (`'null'` when the
    label normalizes to nothing).

    The table lookups are modelled by own properties only
    (`NormalizeArchetype`). For an inherited name such as `hasOwnProperty`
    the code as written gets a function back, passes it to the update, and
    the script ends on the error that update throws;
    `InheritedLabelWritesNull` contrasts the two. */
module FixArchetypes {
  import opened Common
  import opened Store
  import opened ArchetypeNormalizer
  import opened ArchetypeFixedPoints
  import JsObject

  /** The update condition: the query's `not: null` and the loop's
      `if (!value) continue` pass only a truthy label, which is updated when
      `normalized !== value`. */
  predicate Changes(v: Option<string>)
  {
    Truthy(v) && NormalizeArchetype(v) != v
  }

  /** The stored value after the script. */
  function Fixed(v: Option<string>): Option<string>
  {
    if Changes(v) then NormalizeArchetype(v) else v
  }

  /** `normalized || 'null'`: the replacement as the table records it. */
  function Label(r: Option<string>): string
  {
    match r
    case Some(n) => if n == "" then "null" else n
    case None => "null"
  }

  /** Updates the script makes for a column of labels. */
  function Writes(vs: seq<Option<string>>): nat
  {
    if |vs| == 0 then 0
    else Writes(vs[..|vs| - 1]) + (if Changes(vs[|vs| - 1]) then 1 else 0)
  }

  /** The `corrections` object after a column: changed labels map to their
      replacements (a later write of the same key writes the same value). */
  function Corrections(vs: seq<Option<string>>): map<string, string>
  {
    if |vs| == 0 then map[]
    else
      var m := Corrections(vs[..|vs| - 1]);
      var v := vs[|vs| - 1];
      if Changes(v) then m[v.value := Label(NormalizeArchetype(v))] else m
  }

  function EntryLabels(entries: seq<Entry>): seq<Option<string>>
  {
    seq(|entries|, i requires 0 <= i < |entries| => entries[i].dominantArchetype)
  }

  function SymbolLabels(symbols: seq<Symbol>): seq<Option<string>>
  {
    seq(|symbols|, i requires 0 <= i < |symbols| => symbols[i].archetype)
  }

  function FixEntries(entries: seq<Entry>): seq<Entry>
  {
    seq(|entries|, i requires 0 <= i < |entries| =>
      entries[i].(dominantArchetype := Fixed(entries[i].dominantArchetype)))
  }

  function FixSymbols(symbols: seq<Symbol>): seq<Symbol>
  {
    seq(|symbols|, i requires 0 <= i < |symbols| =>
      symbols[i].(archetype := Fixed(symbols[i].archetype)))
  }

  datatype Report = Report(db: Db, fixed: nat, corrections: map<string, string>)

  /** The script as a state transition. */
  function Run(db: Db): Report
  {
    var labels := EntryLabels(db.entries) + SymbolLabels(db.symbols);
    Report(db.(entries := FixEntries(db.entries), symbols := FixSymbols(db.symbols)),
           Writes(labels), Corrections(labels))
  }

  /** For the stored label `hasOwnProperty` the model writes null, while the
      normalizer as written hands back the inherited method, the value the
      script would pass to its update. */
  lemma InheritedLabelWritesNull()
    ensures Changes(Some("hasOwnProperty")) && Fixed(Some("hasOwnProperty")) == None
    ensures NormalizeArchetypeAsWritten(Some("hasOwnProperty")) == JsObject.Member("hasOwnProperty")
  {
    AsWrittenReturnsInheritedMember();
  }

  /** A label the script leaves alone is missing, empty, or already one of
      the standard names. */
  lemma CleanIffStandard(v: Option<string>)
    ensures !Changes(v) <==> v.None? || v == Some("") || v.value in StandardArchetypes
  {
    if v.Some? && v.value in StandardArchetypes {
      StandardNamesAreFixed();
      var i :| 0 <= i < |StandardArchetypes| && StandardArchetypes[i] == v.value;
    }
  }

  /** The script changes a value exactly when it updates it. */
  lemma ChangesIffFixedDiffers(v: Option<string>)
    ensures Changes(v) <==> Fixed(v) != v
  {
  }

  /** What the script writes is never written again. */
  lemma FixedIsClean(v: Option<string>)
    ensures !Changes(Fixed(v))
  {
    if Changes(v) {
      var r := NormalizeArchetype(v);
      assert Fixed(v) == r;
      if r.Some? {
        var i :| 0 <= i < |StandardArchetypes| && StandardArchetypes[i] == r.value;
        StandardNamesAreFixed();
        assert NormalizeArchetype(r) == r;
      }
    }
  }

  /** The example of the script's header comment. */
  lemma KienExample()
    ensures Changes(Some("KIEŃ")) && Fixed(Some("KIEŃ")) == Some("CIEŃ")
  {
    DocExamples();
  }

  lemma {:induction false} WritesZero(vs: seq<Option<string>>)
    ensures Writes(vs) == 0 <==> forall i :: 0 <= i < |vs| ==> !Changes(vs[i])
  {
    if |vs| > 0 {
      var init := vs[..|vs| - 1];
      WritesZero(init);
      assert forall i :: 0 <= i < |init| ==> init[i] == vs[i];
    }
  }

  /** The table holds exactly the changed labels, each with its
      replacement. */
  lemma CorrectionsExactly(vs: seq<Option<string>>)
    ensures forall w :: w in Corrections(vs) <==>
              exists i :: 0 <= i < |vs| && Changes(vs[i]) && vs[i].value == w
    ensures forall w :: w in Corrections(vs) ==>
              Changes(Some(w)) && Corrections(vs)[w] == Label(NormalizeArchetype(Some(w)))
  {
    CorrectionsKeys(vs);
    CorrectionsValues(vs);
  }

  lemma CorrectionsKeys(vs: seq<Option<string>>)
    ensures forall w :: w in Corrections(vs) <==>
              exists i :: 0 <= i < |vs| && Changes(vs[i]) && vs[i].value == w
  {
    forall w
      ensures w in Corrections(vs) <==> exists i :: 0 <= i < |vs| && Changes(vs[i]) && vs[i].value == w
    {
      if w in Corrections(vs) {
        var i := CorrectedAt(vs, w);
      }
      if exists i :: 0 <= i < |vs| && Changes(vs[i]) && vs[i].value == w {
        var i :| 0 <= i < |vs| && Changes(vs[i]) && vs[i].value == w;
        ChangedIsCorrected(vs, i);
      }
    }
  }

  /** A label in the table was changed at some position. */
  lemma {:induction false} CorrectedAt(vs: seq<Option<string>>, w: string) returns (i: nat)
    requires w in Corrections(vs)
    ensures i < |vs| && Changes(vs[i]) && vs[i].value == w
  {
    var init, last := vs[..|vs| - 1], vs[|vs| - 1];
    if Changes(last) && last.value == w {
      i := |vs| - 1;
    } else {
      i := CorrectedAt(init, w);
      assert vs[i] == init[i];
    }
  }

  /** A label changed at some position is in the table. */
  lemma {:induction false} ChangedIsCorrected(vs: seq<Option<string>>, i: nat)
    requires i < |vs| && Changes(vs[i])
    ensures vs[i].value in Corrections(vs)
  {
    if i < |vs| - 1 {
      var init := vs[..|vs| - 1];
      assert init[i] == vs[i];
      ChangedIsCorrected(init, i);
    }
  }

  lemma {:induction false} CorrectionsValues(vs: seq<Option<string>>)
    ensures forall w :: w in Corrections(vs) ==>
              Changes(Some(w)) && Corrections(vs)[w] == Label(NormalizeArchetype(Some(w)))
  {
    if |vs| > 0 {
      CorrectionsValues(vs[..|vs| - 1]);
    }
  }

  /** The run's table is empty exactly when it made no update: the "No
      typos found!" branch. */
  lemma NoTyposIff(db: Db)
    ensures |Run(db).corrections| == 0 <==> Run(db).fixed == 0
  {
    var labels := EntryLabels(db.entries) + SymbolLabels(db.symbols);
    CorrectionsExactly(labels);
    WritesZero(labels);
    if Run(db).fixed != 0 {
      var i :| 0 <= i < |labels| && Changes(labels[i]);
      assert labels[i].value in Run(db).corrections;
    }
  }

  /** A label is changed somewhere in the database. */
  ghost predicate ChangedIn(db: Db, w: string)
  {
    || (exists e :: e in db.entries && Changes(e.dominantArchetype) && e.dominantArchetype.value == w)
    || (exists s :: s in db.symbols && Changes(s.archetype) && s.archetype.value == w)
  }

  lemma CorrectedAreChanged(db: Db, w: string)
    requires w in Run(db).corrections
    ensures ChangedIn(db, w)
  {
    var el, sl := EntryLabels(db.entries), SymbolLabels(db.symbols);
    var labels := el + sl;
    CorrectionsExactly(labels);
    var i :| 0 <= i < |labels| && Changes(labels[i]) && labels[i].value == w;
    if i < |el| {
      assert db.entries[i] in db.entries;
    } else {
      assert db.symbols[i - |el|] in db.symbols;
    }
  }

  lemma ChangedAreCorrected(db: Db, w: string)
    requires ChangedIn(db, w)
    ensures w in Run(db).corrections
  {
    if exists e :: e in db.entries && Changes(e.dominantArchetype) && e.dominantArchetype.value == w {
      var e :| e in db.entries && Changes(e.dominantArchetype) && e.dominantArchetype.value == w;
      var i :| 0 <= i < |db.entries| && db.entries[i] == e;
      EntryIsCorrected(db, i);
    } else {
      var s :| s in db.symbols && Changes(s.archetype) && s.archetype.value == w;
      var i :| 0 <= i < |db.symbols| && db.symbols[i] == s;
      SymbolIsCorrected(db, i);
    }
  }

  lemma EntryIsCorrected(db: Db, i: nat)
    requires i < |db.entries| && Changes(db.entries[i].dominantArchetype)
    ensures db.entries[i].dominantArchetype.value in Run(db).corrections
  {
    var labels := EntryLabels(db.entries) + SymbolLabels(db.symbols);
    assert labels[i] == db.entries[i].dominantArchetype;
    ChangedIsCorrected(labels, i);
  }

  lemma SymbolIsCorrected(db: Db, i: nat)
    requires i < |db.symbols| && Changes(db.symbols[i].archetype)
    ensures db.symbols[i].archetype.value in Run(db).corrections
  {
    var el := EntryLabels(db.entries);
    var labels := el + SymbolLabels(db.symbols);
    assert labels[|el| + i] == db.symbols[i].archetype;
    ChangedIsCorrected(labels, |el| + i);
  }

  /** The table of a run, in terms of the database it ran on: the changed
      labels of both tables, each mapped to its replacement. */
  lemma RunCorrections(db: Db)
    ensures forall w :: w in Run(db).corrections <==> ChangedIn(db, w)
    ensures forall w :: w in Run(db).corrections ==>
              Run(db).corrections[w] == Label(NormalizeArchetype(Some(w)))
  {
    CorrectionsExactly(EntryLabels(db.entries) + SymbolLabels(db.symbols));
    forall w
      ensures w in Run(db).corrections <==> ChangedIn(db, w)
    {
      if w in Run(db).corrections {
        CorrectedAreChanged(db, w);
      }
      if ChangedIn(db, w) {
        ChangedAreCorrected(db, w);
      }
    }
  }

  /** The run touches only the archetype columns: every row keeps its place
      and all its other fields, and the other tables stay. */
  lemma RunOnlyArchetypes(db: Db)
    ensures var after := Run(db).db;
      && |after.entries| == |db.entries| && |after.symbols| == |db.symbols|
      && (forall i :: 0 <= i < |db.entries| ==>
            after.entries[i].(dominantArchetype := db.entries[i].dominantArchetype) == db.entries[i])
      && (forall i :: 0 <= i < |db.symbols| ==>
            after.symbols[i].(archetype := db.symbols[i].archetype) == db.symbols[i])
      && after.connections == db.connections && after.constellations == db.constellations
  {
  }

  /** After a run, every label is missing, empty or standard. */
  lemma RunCleans(db: Db)
    ensures forall e :: e in Run(db).db.entries ==> !Changes(e.dominantArchetype)
    ensures forall s :: s in Run(db).db.symbols ==> !Changes(s.archetype)
  {
    var after := Run(db).db;
    forall e | e in after.entries
      ensures !Changes(e.dominantArchetype)
    {
      var i :| 0 <= i < |after.entries| && after.entries[i] == e;
      FixedIsClean(db.entries[i].dominantArchetype);
    }
    forall s | s in after.symbols
      ensures !Changes(s.archetype)
    {
      var i :| 0 <= i < |after.symbols| && after.symbols[i] == s;
      FixedIsClean(db.symbols[i].archetype);
    }
  }

  /** A run updates nothing exactly when it finds the database clean, and
      then leaves it as it is. */
  lemma NothingFixedIffClean(db: Db)
    ensures Run(db).fixed == 0 <==>
      && (forall e :: e in db.entries ==> !Changes(e.dominantArchetype))
      && (forall s :: s in db.symbols ==> !Changes(s.archetype))
    ensures Run(db).fixed == 0 ==> Run(db).db == db
  {
    var el, sl := EntryLabels(db.entries), SymbolLabels(db.symbols);
    var labels := el + sl;
    WritesZero(labels);
    if Run(db).fixed == 0 {
      forall e | e in db.entries
        ensures !Changes(e.dominantArchetype)
      {
        var i :| 0 <= i < |db.entries| && db.entries[i] == e;
        assert labels[i] == e.dominantArchetype;
      }
      forall s | s in db.symbols
        ensures !Changes(s.archetype)
      {
        var i :| 0 <= i < |db.symbols| && db.symbols[i] == s;
        assert labels[|el| + i] == s.archetype;
      }
      assert FixEntries(db.entries) == db.entries;
      assert FixSymbols(db.symbols) == db.symbols;
    } else {
      var i :| 0 <= i < |labels| && Changes(labels[i]);
      if i < |el| {
        assert db.entries[i] in db.entries;
      } else {
        assert db.symbols[i - |el|] in db.symbols;
      }
    }
  }

  /** Running the script a second time updates nothing, records nothing and
      leaves the database as the first run left it. */
  lemma RunIdempotent(db: Db)
    ensures var once := Run(db).db;
      && Run(once).fixed == 0 && |Run(once).corrections| == 0 && Run(once).db == once
  {
    var once := Run(db).db;
    RunCleans(db);
    NothingFixedIffClean(once);
    NoTyposIff(once);
  }
}

=== FILE: graph_export.dfy ===
/** `GET /api/symbols/connections`: the symbol graph for the visualization.

    Nodes are the symbols, by non-increasing occurrence count. Edges are
    the stored connections read by non-increasing strength, each put in
    canonical order (smaller id first under JavaScript's string `<`) and
    merged per unordered pair, the merged strength being the maximum. The
    route looks pairs up in a `Map` keyed by the STRING `${from}-${to}`;
    `ExportAsWritten` keeps that key, `Export` keys by the pair itself, and
    `AsWrittenAgreesOnPlainIds` shows the two coincide while no id contains
    a `-`. Random layout coordinates are left out. */
module GraphExport {
  import opened Common
  import opened Text
  import opened Store
  import Sorting

  datatype Node = Node(id: string, name: string, category: Option<string>, level: Option<int>, occurrences: int)

  /** An edge under construction: the canonical pair and its strength. */
  datatype Link = Link(source: string, target: string, strength: int)

  datatype Edge = Edge(id: string, source: string, target: string, strength: int)

  datatype Graph = Graph(nodes: seq<Node>, edges: seq<Edge>)

  /** The node of a symbol when the connections table is available. */
  function NodeOf(s: Symbol): (n: Node)
    ensures n.id == s.id && n.name == s.name && n.category == s.category
    ensures n.level == s.level && n.occurrences == s.occurrences
  {
    Node(s.id, s.name, s.category, s.level, s.occurrences)
  }

  /** The node of a symbol in the fallback branch: `category || null` and
      `level || 1`. */
  function FallbackNodeOf(s: Symbol): (n: Node)
    ensures n.id == s.id && n.name == s.name && n.occurrences == s.occurrences
    ensures n.category.Some? <==> s.category.Some? && s.category.value != ""
    ensures n.category.Some? ==> n.category == s.category
    ensures n.level.Some? && n.level.value != 0
    ensures s.level.Some? && s.level.value != 0 ==> n.level == s.level
  {
    Node(s.id, s.name,
         if s.category == Some("") then None else s.category,
         if s.level.None? || s.level == Some(0) then Some(1) else s.level,
         s.occurrences)
  }

  /** The pair of a connection in canonical order. */
  function Canonical(c: Connection): (p: (string, string))
    ensures p == (c.fromId, c.toId) || p == (c.toId, c.fromId)
    ensures LessOrEqual(p.0, p.1)
  {
    LessTotal(c.fromId, c.toId);
    if Less(c.fromId, c.toId) then (c.fromId, c.toId) else (c.toId, c.fromId)
  }

  /** The canonical pairs of a connection list, in order. */
  function CanonicalPairs(cs: seq<Connection>): (ps: seq<(string, string)>)
    ensures |ps| == |cs|
    ensures forall i :: 0 <= i < |cs| ==> ps[i] == Canonical(cs[i])
  {
    seq(|cs|, i requires 0 <= i < |cs| => Canonical(cs[i]))
  }

  function PairOf(l: Link): (string, string)
  {
    (l.source, l.target)
  }

  function Pairs(links: seq<Link>): (ps: seq<(string, string)>)
    ensures |ps| == |links|
    ensures forall i :: 0 <= i < |links| ==> ps[i] == PairOf(links[i])
  {
    seq(|links|, i requires 0 <= i < |links| => PairOf(links[i]))
  }

  /** The map key the route uses: the template literal `${from}-${to}`. */
  function TextKey(a: string, b: string): string
  {
    a + "-" + b
  }

  /** A key that is the pair itself. */
  function PairKey(a: string, b: string): (string, string)
  {
    (a, b)
  }

  /** The first link whose key is `k`. */
  function FindKey<K(==)>(links: seq<Link>, k: K, key: (string, string) -> K): (r: Option<nat>)
    ensures r.Some? ==> r.value < |links| && key(links[r.value].source, links[r.value].target) == k
    ensures r.Some? ==> forall i :: 0 <= i < r.value ==> key(links[i].source, links[i].target) != k
    ensures r.None? <==> forall i :: 0 <= i < |links| ==> key(links[i].source, links[i].target) != k
  {
    if |links| == 0 then None
    else if key(links[0].source, links[0].target) == k then Some(0)
    else match FindKey(links[1..], k, key)
      case Some(i) => Some(i + 1)
      case None => None
  }

  function Max(a: int, b: int): int
  {
    if a >= b then a else b
  }

  /** One `forEach` step: a new key is inserted at the end, a known key has
      its strength raised to the larger one. */
  function Merge<K(==)>(links: seq<Link>, c: Connection, key: (string, string) -> K): seq<Link>
  {
    var p := Canonical(c);
    match FindKey(links, key(p.0, p.1), key)
    case Some(i) => links[i := links[i].(strength := Max(links[i].strength, c.strength))]
    case None => links + [Link(p.0, p.1, c.strength)]
  }

  /** The map's values after the whole `forEach`, in insertion order. */
  function Links<K(==)>(cs: seq<Connection>, key: (string, string) -> K): seq<Link>
  {
    if |cs| == 0 then []
    else Merge(Links(cs[..|cs| - 1], key), cs[|cs| - 1], key)
  }

  /** `Array.from(map.values()).map((edge, index) => ...)`. */
  function Number(links: seq<Link>): (edges: seq<Edge>)
    ensures |edges| == |links|
    ensures forall i :: 0 <= i < |links| ==>
              edges[i] == Edge("edge-" + NatToString(i), links[i].source, links[i].target, links[i].strength)
  {
    seq(|links|, i requires 0 <= i < |links| =>
      Edge("edge-" + NatToString(i), links[i].source, links[i].target, links[i].strength))
  }

  function Occurrences(s: Symbol): int
  {
    s.occurrences
  }

  function Strength(c: Connection): int
  {
    c.strength
  }

  /** The node of a symbol in either branch. */
  function NodeFor(s: Symbol, fallback: bool): Node
  {
    if fallback then FallbackNodeOf(s) else NodeOf(s)
  }

  /** The nodes, in the order `orderBy: { occurrences: 'desc' }` returns the
      symbols (ties in stored order). */
  function Nodes(symbols: seq<Symbol>, fallback: bool): (nodes: seq<Node>)
    ensures |nodes| == |symbols|
    ensures forall i :: 0 <= i < |nodes| ==>
              nodes[i] == NodeFor(Sorting.SortDesc(symbols, Occurrences)[i], fallback)
  {
    var sorted := Sorting.SortDesc(symbols, Occurrences);
    seq(|sorted|, i requires 0 <= i < |sorted| => NodeFor(sorted[i], fallback))
  }

  /** The route; `hasTable` is false when the client has no
      `symbolConnection` model, and the route then answers without edges. */
  function Export(db: Db, hasTable: bool): Graph
  {
    if !hasTable then Graph(Nodes(db.symbols, true), [])
    else Graph(Nodes(db.symbols, false),
               Number(Links(Sorting.SortDesc(db.connections, Strength), PairKey)))
  }

  /** The route exactly as written, with the string map key. */
  function ExportAsWritten(db: Db, hasTable: bool): Graph
  {
    if !hasTable then Graph(Nodes(db.symbols, true), [])
    else Graph(Nodes(db.symbols, false),
               Number(Links(Sorting.SortDesc(db.connections, Strength), TextKey)))
  }

  /** A connection and its reverse have the same canonical pair. */
  lemma CanonicalUndirected(c: Connection)
    ensures Canonical(c) == Canonical(c.(fromId := c.toId, toId := c.fromId))
  {
    LessAsymmetric(c.fromId, c.toId);
  }

  /** Canonical pairs of the same unordered pair are equal. */
  lemma CanonicalPairsMeet(p: (string, string), q: (string, string))
    requires LessOrEqual(p.0, p.1) && LessOrEqual(q.0, q.1)
    requires p.0 == q.1 && p.1 == q.0
    ensures p == q
  {
    LessAsymmetric(p.0, p.1);
  }

  /** One step keyed by the pair adds the connection's canonical pair
      unless it is already there. */
  lemma MergePairKey(ls: seq<Link>, c: Connection)
    ensures var p := Canonical(c);
      Pairs(Merge(ls, c, PairKey)) == if p in Pairs(ls) then Pairs(ls) else Pairs(ls) + [p]
  {
    var p := Canonical(c);
    var r := Merge(ls, c, PairKey);
    match FindKey(ls, PairKey(p.0, p.1), PairKey)
    case Some(i) =>
      assert Pairs(ls)[i] == p;
      assert Pairs(r) == Pairs(ls);
    case None =>
      assert p !in Pairs(ls);
      assert Pairs(r) == Pairs(ls) + [p];
  }

  /** The links list the canonical pairs in order of first appearance,
      each once. */
  lemma {:induction false} LinksPairs(cs: seq<Connection>)
    ensures Pairs(Links(cs, PairKey)) == Distinct(CanonicalPairs(cs))
  {
    if |cs| > 0 {
      var init, last := cs[..|cs| - 1], cs[|cs| - 1];
      var ps := CanonicalPairs(cs);
      assert ps[..|cs| - 1] == CanonicalPairs(init);
      LinksPairs(init);
      MergePairKey(Links(init, PairKey), last);
    }
  }

  /** The strength of `l` is the largest strength among the connections
      of `cs` with its pair, and one of them has it. */
  ghost predicate IsMaxOf(l: Link, cs: seq<Connection>)
  {
    && (exists j :: 0 <= j < |cs| && Canonical(cs[j]) == PairOf(l) && cs[j].strength == l.strength)
    && (forall j :: 0 <= j < |cs| && Canonical(cs[j]) == PairOf(l) ==> cs[j].strength <= l.strength)
  }

  lemma IsMaxOther(l: Link, cs: seq<Connection>, c: Connection)
    requires IsMaxOf(l, cs) && Canonical(c) != PairOf(l)
    ensures IsMaxOf(l, cs + [c])
  {
    var j :| 0 <= j < |cs| && Canonical(cs[j]) == PairOf(l) && cs[j].strength == l.strength;
    assert (cs + [c])[j] == cs[j];
    forall k | 0 <= k < |cs| + 1 && Canonical((cs + [c])[k]) == PairOf(l)
      ensures (cs + [c])[k].strength <= l.strength
    {
      assert k < |cs|;
    }
  }

  lemma IsMaxRaise(l: Link, cs: seq<Connection>, c: Connection)
    requires IsMaxOf(l, cs) && Canonical(c) == PairOf(l)
    ensures IsMaxOf(l.(strength := Max(l.strength, c.strength)), cs + [c])
  {
    var j :| 0 <= j < |cs| && Canonical(cs[j]) == PairOf(l) && cs[j].strength == l.strength;
    assert (cs + [c])[j] == cs[j] && (cs + [c])[|cs|] == c;
    forall k | 0 <= k < |cs| && Canonical((cs + [c])[k]) == PairOf(l)
      ensures (cs + [c])[k].strength <= l.strength
    {
      assert (cs + [c])[k] == cs[k];
    }
  }

  lemma IsMaxNew(cs: seq<Connection>, c: Connection)
    requires Canonical(c) !in CanonicalPairs(cs)
    ensures IsMaxOf(Link(Canonical(c).0, Canonical(c).1, c.strength), cs + [c])
  {
    var p := Canonical(c);
    assert (cs + [c])[|cs|] == c;
    forall k | 0 <= k < |cs|
      ensures Canonical((cs + [c])[k]) != p
    {
      assert (cs + [c])[k] == cs[k] && CanonicalPairs(cs)[k] in CanonicalPairs(cs);
    }
  }

  /** The strength of every link is the largest strength among the
      connections with its pair. */
  lemma {:induction false} LinksStrength(cs: seq<Connection>)
    ensures forall i :: 0 <= i < |Links(cs, PairKey)| ==> IsMaxOf(Links(cs, PairKey)[i], cs)
  {
    if |cs| > 0 {
      var init, last := cs[..|cs| - 1], cs[|cs| - 1];
      assert cs == init + [last];
      LinksStrength(init);
      LinksPairs(init);
      var ls := Links(init, PairKey);
      var p := Canonical(last);
      assert NoDuplicates(Pairs(ls));
      match FindKey(ls, PairKey(p.0, p.1), PairKey)
      case Some(k) =>
        forall i | 0 <= i < |ls|
          ensures IsMaxOf(Links(cs, PairKey)[i], cs)
        {
          if i == k {
            IsMaxRaise(ls[i], init, last);
          } else {
            assert Pairs(ls)[i] != Pairs(ls)[k];
            IsMaxOther(ls[i], init, last);
          }
        }
      case None =>
        forall i | 0 <= i < |ls| + 1
          ensures IsMaxOf(Links(cs, PairKey)[i], cs)
        {
          if i < |ls| {
            assert PairOf(ls[i]) != p;
            IsMaxOther(ls[i], init, last);
          } else {
            IsMaxNew(init, last);
          }
        }
    }
  }

  /** The links keyed by the pair are in canonical order, one per
      unordered pair, and no more than there are connections. */
  lemma LinksShape(cs: seq<Connection>)
    ensures var ls := Links(cs, PairKey);
      && |ls| <= |cs|
      && (forall i :: 0 <= i < |ls| ==> LessOrEqual(ls[i].source, ls[i].target))
      && (forall i, j :: 0 <= i < j < |ls| ==>
            PairOf(ls[i]) != PairOf(ls[j]) && PairOf(ls[i]) != (ls[j].target, ls[j].source))
  {
    var ls := Links(cs, PairKey);
    LinksPairs(cs);
    var ps := CanonicalPairs(cs);
    forall i | 0 <= i < |ls|
      ensures LessOrEqual(ls[i].source, ls[i].target)
    {
      assert Pairs(ls)[i] in ps;
      var k :| 0 <= k < |ps| && ps[k] == Pairs(ls)[i];
      assert ps[k] == Canonical(cs[k]);
    }
    forall i, j | 0 <= i < j < |ls|
      ensures PairOf(ls[i]) != PairOf(ls[j]) && PairOf(ls[i]) != (ls[j].target, ls[j].source)
    {
      assert Pairs(ls)[i] != Pairs(ls)[j];
      if PairOf(ls[i]) == (ls[j].target, ls[j].source) {
        CanonicalPairsMeet(PairOf(ls[i]), PairOf(ls[j]));
      }
    }
  }

  /** The edges of `Export` are in canonical order, numbered `edge-0`,
      `edge-1`, ..., one per unordered pair, and no more than there are
      connections. */
  lemma ExportEdgesShape(db: Db)
    ensures var edges := Export(db, true).edges;
      && |edges| <= |db.connections|
      && (forall i :: 0 <= i < |edges| ==> edges[i].id == "edge-" + NatToString(i))
      && (forall i :: 0 <= i < |edges| ==> LessOrEqual(edges[i].source, edges[i].target))
      && (forall i, j :: 0 <= i < j < |edges| ==>
            (edges[i].source, edges[i].target) != (edges[j].source, edges[j].target)
            && (edges[i].source, edges[i].target) != (edges[j].target, edges[j].source))
  {
    var cs := Sorting.SortDesc(db.connections, Strength);
    LinksShape(cs);
    var ls := Links(cs, PairKey);
    assert Export(db, true).edges == Number(ls);
    forall i, j | 0 <= i < j < |ls|
      ensures PairOf(ls[i]) != PairOf(ls[j]) && PairOf(ls[i]) != (ls[j].target, ls[j].source)
    {
    }
  }

  lemma LinksCover(cs: seq<Connection>)
    ensures forall c :: c in cs ==> exists i :: 0 <= i < |Links(cs, PairKey)| && PairOf(Links(cs, PairKey)[i]) == Canonical(c)
  {
    var ls := Links(cs, PairKey);
    LinksPairs(cs);
    forall c | c in cs
      ensures exists i :: 0 <= i < |ls| && PairOf(ls[i]) == Canonical(c)
    {
      var k :| 0 <= k < |cs| && cs[k] == c;
      assert CanonicalPairs(cs)[k] in Pairs(ls);
    }
  }

  /** Every connection is represented by the edge of its canonical pair. */
  lemma ExportEdgesCover(db: Db)
    ensures var edges := Export(db, true).edges;
      forall c :: c in db.connections ==>
        exists i :: 0 <= i < |edges| && (edges[i].source, edges[i].target) == Canonical(c)
  {
    var cs := Sorting.SortDesc(db.connections, Strength);
    var ls := Links(cs, PairKey);
    var edges := Export(db, true).edges;
    LinksCover(cs);
    Sorting.SortDescMembers(db.connections, Strength);
    forall c | c in db.connections
      ensures exists i :: 0 <= i < |edges| && (edges[i].source, edges[i].target) == Canonical(c)
    {
      var i :| 0 <= i < |ls| && PairOf(ls[i]) == Canonical(c);
      assert (edges[i].source, edges[i].target) == PairOf(ls[i]);
    }
  }

  /** `IsMaxOf` carries over to a list with the same members. */
  lemma IsMaxOfMembers(l: Link, cs: seq<Connection>, ds: seq<Connection>)
    requires IsMaxOf(l, cs)
    requires forall c :: c in cs <==> c in ds
    ensures exists c :: c in ds && Canonical(c) == PairOf(l) && c.strength == l.strength
    ensures forall c :: c in ds && Canonical(c) == PairOf(l) ==> c.strength <= l.strength
  {
    var j :| 0 <= j < |cs| && Canonical(cs[j]) == PairOf(l) && cs[j].strength == l.strength;
    assert cs[j] in cs;
    forall c | c in ds && Canonical(c) == PairOf(l)
      ensures c.strength <= l.strength
    {
      var k :| 0 <= k < |cs| && cs[k] == c;
    }
  }

  /** Each edge carries the largest strength among the connections of its
      pair. */
  lemma ExportEdgesStrength(db: Db)
    ensures var edges := Export(db, true).edges;
      forall i :: 0 <= i < |edges| ==>
        && (exists c :: c in db.connections && Canonical(c) == (edges[i].source, edges[i].target)
                        && c.strength == edges[i].strength)
        && (forall c :: c in db.connections && Canonical(c) == (edges[i].source, edges[i].target) ==>
                          c.strength <= edges[i].strength)
  {
    var cs := Sorting.SortDesc(db.connections, Strength);
    var ls := Links(cs, PairKey);
    var edges := Number(ls);
    assert Export(db, true).edges == edges;
    LinksStrength(cs);
    Sorting.SortDescMembers(db.connections, Strength);
    forall i | 0 <= i < |edges|
      ensures exists c :: c in db.connections && Canonical(c) == (edges[i].source, edges[i].target)
                          && c.strength == edges[i].strength
      ensures forall c :: c in db.connections && Canonical(c) == (edges[i].source, edges[i].target) ==>
                          c.strength <= edges[i].strength
    {
      IsMaxOfMembers(ls[i], cs, db.connections);
    }
  }

  /** Edge ids are distinct. */
  lemma EdgeIdsDistinct(links: seq<Link>)
    ensures forall i, j :: 0 <= i < j < |links| ==> Number(links)[i].id != Number(links)[j].id
  {
    forall i, j | 0 <= i < j < |links|
      ensures Number(links)[i].id != Number(links)[j].id
    {
      var a, b := NatToString(i), NatToString(j);
      if "edge-" + a == "edge-" + b {
        assert a == ("edge-" + a)[5..] && b == ("edge-" + b)[5..];
        NatToStringInjective(i, j);
      }
    }
  }

  /** One node per symbol, each the node of a symbol. */
  lemma NodesMembers(symbols: seq<Symbol>, fallback: bool)
    ensures forall s :: s in symbols ==> NodeFor(s, fallback) in Nodes(symbols, fallback)
    ensures forall n :: n in Nodes(symbols, fallback) ==> exists s :: s in symbols && n == NodeFor(s, fallback)
  {
    var sorted := Sorting.SortDesc(symbols, Occurrences);
    var nodes := Nodes(symbols, fallback);
    forall s | s in symbols
      ensures NodeFor(s, fallback) in nodes
    {
      assert s in multiset(symbols);
      var k :| 0 <= k < |sorted| && sorted[k] == s;
      assert nodes[k] == NodeFor(s, fallback);
    }
    forall n | n in nodes
      ensures exists s :: s in symbols && n == NodeFor(s, fallback)
    {
      var k :| 0 <= k < |nodes| && nodes[k] == n;
      assert sorted[k] in multiset(symbols);
    }
  }

  /** The nodes come by non-increasing count. */
  lemma NodesOrdered(symbols: seq<Symbol>, fallback: bool)
    ensures var nodes := Nodes(symbols, fallback);
      forall i, j :: 0 <= i < j < |nodes| ==> nodes[i].occurrences >= nodes[j].occurrences
  {
    var sorted := Sorting.SortDesc(symbols, Occurrences);
    Sorting.SortDescProperties(symbols, Occurrences);
    var nodes := Nodes(symbols, fallback);
    forall i, j | 0 <= i < j < |nodes|
      ensures nodes[i].occurrences >= nodes[j].occurrences
    {
      assert Occurrences(sorted[i]) >= Occurrences(sorted[j]);
    }
  }

  /** Nodes: one per symbol, copied field by field, by non-increasing count;
      in the fallback branch there are no edges. */
  lemma ExportNodes(db: Db, hasTable: bool)
    ensures var g := Export(db, hasTable);
      && |g.nodes| == |db.symbols|
      && (forall i, j :: 0 <= i < j < |g.nodes| ==> g.nodes[i].occurrences >= g.nodes[j].occurrences)
      && (forall s :: s in db.symbols ==>
            (if hasTable then NodeOf(s) else FallbackNodeOf(s)) in g.nodes)
      && (forall n :: n in g.nodes ==>
            exists s :: s in db.symbols && n == if hasTable then NodeOf(s) else FallbackNodeOf(s))
      && (!hasTable ==> g.edges == [])
  {
    assert Export(db, hasTable).nodes == Nodes(db.symbols, !hasTable);
    NodesMembers(db.symbols, !hasTable);
    NodesOrdered(db.symbols, !hasTable);
  }

  /** Two keys that are not pairwise equal never meet in the string key
      while neither contains a `-`. */
  lemma TextKeyInjective(a: string, b: string, c: string, d: string)
    requires '-' !in a && '-' !in b && '-' !in c && '-' !in d
    requires TextKey(a, b) == TextKey(c, d)
    ensures a == c && b == d
  {
    var k := TextKey(a, b);
    ShorterFirstDiffers(a, b, c, d);
    ShorterFirstDiffers(c, d, a, b);
    assert a == k[..|a|] && c == k[..|c|];
    assert b == k[|a| + 1..] && d == k[|c| + 1..];
  }

  /** The `-` after a shorter first id meets a character of the longer one. */
  lemma ShorterFirstDiffers(a: string, b: string, c: string, d: string)
    requires '-' !in c
    ensures |a| < |c| ==> TextKey(a, b) != TextKey(c, d)
  {
    if |a| < |c| {
      assert TextKey(a, b)[|a|] == '-';
      assert TextKey(c, d)[|a|] == c[|a|] && c[|a|] in c;
    }
  }

  /** `key` tells apart every pair of `ps`. */
  ghost predicate KeyInjectiveOn<K>(key: (string, string) -> K, ps: seq<(string, string)>)
  {
    forall p, q :: p in ps && q in ps && key(p.0, p.1) == key(q.0, q.1) ==> p == q
  }

  lemma {:induction false} FindKeyAgree<K>(links: seq<Link>, p: (string, string), key: (string, string) -> K)
    requires forall i :: 0 <= i < |links| ==> (key(links[i].source, links[i].target) == key(p.0, p.1) <==> PairOf(links[i]) == p)
    ensures FindKey(links, key(p.0, p.1), key) == FindKey(links, PairKey(p.0, p.1), PairKey)
  {
    if |links| > 0 {
      FindKeyAgree(links[1..], p, key);
    }
  }

  /** A step under a key that agrees with the pair on `ls` is the step
      keyed by the pair. */
  lemma MergeAgree<K>(ls: seq<Link>, c: Connection, key: (string, string) -> K)
    requires var p := Canonical(c);
      forall i :: 0 <= i < |ls| ==> (key(ls[i].source, ls[i].target) == key(p.0, p.1) <==> PairOf(ls[i]) == p)
    ensures Merge(ls, c, key) == Merge(ls, c, PairKey)
  {
    FindKeyAgree(ls, Canonical(c), key);
  }

  /** A key that tells apart the canonical pairs gives the same links as
      keying by the pair. */
  lemma {:induction false} LinksAgree<K>(cs: seq<Connection>, key: (string, string) -> K)
    requires KeyInjectiveOn(key, CanonicalPairs(cs))
    ensures Links(cs, key) == Links(cs, PairKey)
  {
    if |cs| > 0 {
      var init, last := cs[..|cs| - 1], cs[|cs| - 1];
      var ps := CanonicalPairs(cs);
      assert ps[..|cs| - 1] == CanonicalPairs(init);
      assert forall q :: q in CanonicalPairs(init) ==> q in ps;
      LinksAgree(init, key);
      LinksPairs(init);
      var ls := Links(init, PairKey);
      var p := Canonical(last);
      assert p == ps[|cs| - 1];
      forall i | 0 <= i < |ls|
        ensures key(ls[i].source, ls[i].target) == key(p.0, p.1) <==> PairOf(ls[i]) == p
      {
        assert Pairs(ls)[i] in CanonicalPairs(init);
      }
      MergeAgree(ls, last, key);
    }
  }

  /** The string key tells apart the canonical pairs of connections whose
      ids have no `-`. */
  lemma PlainIdsInjective(cs: seq<Connection>)
    requires forall c :: c in cs ==> '-' !in c.fromId && '-' !in c.toId
    ensures KeyInjectiveOn(TextKey, CanonicalPairs(cs))
  {
    var ps := CanonicalPairs(cs);
    forall p, q | p in ps && q in ps && TextKey(p.0, p.1) == TextKey(q.0, q.1)
      ensures p == q
    {
      var i :| 0 <= i < |cs| && ps[i] == p;
      var j :| 0 <= j < |cs| && ps[j] == q;
      assert cs[i] in cs && cs[j] in cs;
      TextKeyInjective(p.0, p.1, q.0, q.1);
    }
  }

  /** While no id contains a `-`, the route as written and the pair-keyed
      export agree. */
  lemma AsWrittenAgreesOnPlainIds(db: Db, hasTable: bool)
    requires forall c :: c in db.connections ==> '-' !in c.fromId && '-' !in c.toId
    ensures ExportAsWritten(db, hasTable) == Export(db, hasTable)
  {
    if hasTable {
      var cs := Sorting.SortDesc(db.connections, Strength);
      Sorting.SortDescMembers(db.connections, Strength);
      PlainIdsInjective(cs);
      LinksAgree(cs, TextKey);
    }
  }

  /** Ids with a `-` can collide in the string key: `a-b`/`c` and `a`/`b-c`
      share the key `a-b-c`, so the route reports one edge where there are
      two pairs. */
  lemma HyphenatedIdsCollide()
    ensures var cs := [Connection("1", "a-b", "c", 5), Connection("2", "a", "b-c", 1)];
      && |Links(cs, TextKey)| == 1
      && |Links(cs, PairKey)| == 2
  {
    var cs := [Connection("1", "a-b", "c", 5), Connection("2", "a", "b-c", 1)];
    assert Less("a-b", "c") && Less("a", "b-c");
    assert cs[..1] == [cs[0]] && cs[..0] == [];
    assert TextKey("a-b", "c") == TextKey("a", "b-c");
  }
}

=== FILE: js_object.dfy ===
/** Property lookup on a JavaScript object literal used as a dictionary.

    `table[key]` on an object literal finds the table's own properties and
    ALSO the members every object inherits from `Object.prototype`
    (section 20.1.3 of ECMA-262, plus `__proto__` and the
    `__defineGetter__` family of its Annex B). Those inherited members are
    functions or objects, hence truthy, hence returned by a lookup guarded
    only by `if (table[key])`. */
module JsObject {
  import Sorting
  import Common

  /** The property names an ordinary object inherits from `Object.prototype`. */
  const InheritedNames: set<string> := {
    "constructor", "hasOwnProperty", "isPrototypeOf", "propertyIsEnumerable",
    "toLocaleString", "toString", "valueOf", "__proto__",
    "__defineGetter__", "__defineSetter__", "__lookupGetter__", "__lookupSetter__"
  }

  /** The JavaScript values a table-driven normalizer can hand back:
      `null`, a string, or an inherited member (a function, or
      `Object.prototype` itself for `__proto__`), named by its key. */
  datatype JsValue = Null | Str(s: string) | Member(name: string)

  predicate IsDigit(c: char)
  {
    '0' <= c <= '9'
  }

  /** The number a string of decimal digits spells. */
  function DigitsValue(s: string): nat
  {
    if |s| == 0 then 0
    else DigitsValue(s[..|s| - 1]) * 10 + (if IsDigit(s[|s| - 1]) then s[|s| - 1] as int - '0' as int else 0)
  }

  /** An array index (section 6.1.7 of ECMA-262): the canonical decimal
      form of an integer below 2^32 - 1. */
  predicate IsArrayIndex(s: string)
  {
    && |s| > 0
    && (forall i :: 0 <= i < |s| ==> IsDigit(s[i]))
    && (|s| == 1 || s[0] != '0')
    && DigitsValue(s) < 0xFFFF_FFFF
  }

  /** The sort key that puts smaller indices first. */
  function IndexRank(k: string): int
  {
    0 - DigitsValue(k) as int
  }

  function IndexKeys(keys: seq<string>): (r: seq<string>)
    ensures forall i :: 0 <= i < |r| ==> IsArrayIndex(r[i])
  {
    if |keys| == 0 then []
    else IndexKeys(keys[..|keys| - 1]) + (if IsArrayIndex(keys[|keys| - 1]) then [keys[|keys| - 1]] else [])
  }

  function OtherKeys(keys: seq<string>): (r: seq<string>)
    ensures forall i :: 0 <= i < |r| ==> !IsArrayIndex(r[i])
  {
    if |keys| == 0 then []
    else OtherKeys(keys[..|keys| - 1]) + (if IsArrayIndex(keys[|keys| - 1]) then [] else [keys[|keys| - 1]])
  }

  /** The order in which `Object.entries` lists the own keys of an ordinary
      object whose keys were created in the order `keys`
      (OrdinaryOwnPropertyKeys, section 10.1.11.1 of ECMA-262): array
      indices first, in ascending numeric order, then the other strings in
      creation order. */
  function PropertyOrder(keys: seq<string>): seq<string>
  {
    Sorting.SortDesc(IndexKeys(keys), IndexRank) + OtherKeys(keys)
  }

  lemma {:induction false} SplitMembers(keys: seq<string>)
    ensures forall k :: k in IndexKeys(keys) <==> k in keys && IsArrayIndex(k)
    ensures forall k :: k in OtherKeys(keys) <==> k in keys && !IsArrayIndex(k)
  {
    if |keys| > 0 {
      SplitMembers(keys[..|keys| - 1]);
      assert keys == keys[..|keys| - 1] + [keys[|keys| - 1]];
    }
  }

  /** Reordering neither adds nor loses a key. */
  lemma PropertyOrderMembers(keys: seq<string>)
    ensures forall k :: k in PropertyOrder(keys) <==> k in keys
  {
    SplitMembers(keys);
    Sorting.SortDescMembers(IndexKeys(keys), IndexRank);
  }

  lemma {:induction false} SplitMultiset(keys: seq<string>)
    ensures multiset(IndexKeys(keys)) + multiset(OtherKeys(keys)) == multiset(keys)
  {
    if |keys| > 0 {
      SplitMultiset(keys[..|keys| - 1]);
      assert keys == keys[..|keys| - 1] + [keys[|keys| - 1]];
    }
  }

  /** `Object.entries` lists each own key once: reordering keeps distinct
      keys distinct. */
  lemma PropertyOrderDistinct(keys: seq<string>)
    requires Common.NoDuplicates(keys)
    ensures Common.NoDuplicates(PropertyOrder(keys))
  {
    SplitMultiset(keys);
    Common.SameMultisetNoDuplicates(keys, PropertyOrder(keys));
  }

  /** Array indices come first, in ascending numeric order, and the other
      keys keep their creation order. */
  lemma PropertyOrderShape(keys: seq<string>)
    ensures var r := PropertyOrder(keys);
      && (forall i, j :: 0 <= i < j < |r| && IsArrayIndex(r[j]) ==>
            IsArrayIndex(r[i]) && DigitsValue(r[i]) <= DigitsValue(r[j]))
      && r[|r| - |OtherKeys(keys)|..] == OtherKeys(keys)
  {
    var ix := Sorting.SortDesc(IndexKeys(keys), IndexRank);
    Sorting.SortDescProperties(IndexKeys(keys), IndexRank);
    assert forall x :: x in multiset(ix) ==> x in multiset(IndexKeys(keys));
    forall i | 0 <= i < |ix|
      ensures IsArrayIndex(ix[i])
    {
      assert ix[i] in multiset(ix);
    }
  }
}

=== FILE: merge_duplicates.dfy ===
/** The maintenance script that merges duplicate symbols.

    Symbols are grouped by the normalized form of their name, groups in
    order of first appearance. For every group with more than one member
    the script keeps one member, renames it to the group key with the
    group's total count, rewrites every entry's list so that names
    normalizing to the key become the key, and deletes the other members.
    A rename that collides with another symbol's name makes the database
    throw, which ends the script with the earlier groups' writes in
    place; `Aborted` models that. */
module MergeDuplicates {
  import opened Common
  import opened Store
  import opened SymbolNormalizer

  /** The group key of a symbol. */
  function KeyOf(s: Symbol): string
  {
    NormalizeSymbol(s.name)
  }

  /** The members of the group `k` under the grouping `key`, in stored
      order. The script groups by `KeyOf`; the lemmas about grouping hold
      for any key. */
  function Members(symbols: seq<Symbol>, key: Symbol -> string, k: string): (r: seq<Symbol>)
    ensures |r| <= |symbols|
  {
    if |symbols| == 0 then []
    else
      var last := symbols[|symbols| - 1];
      Members(symbols[..|symbols| - 1], key, k) + (if key(last) == k then [last] else [])
  }

  /** The group keys in the order the `Map` first sees them. */
  function GroupKeys(symbols: seq<Symbol>, key: Symbol -> string): seq<string>
  {
    Distinct(seq(|symbols|, i requires 0 <= i < |symbols| => key(symbols[i])))
  }

  /** The keys of the groups with more than one member. */
  function DuplicateKeys(symbols: seq<Symbol>, key: Symbol -> string): seq<string>
  {
    Keep(GroupKeys(symbols, key), symbols, key)
  }

  function Keep(keys: seq<string>, symbols: seq<Symbol>, key: Symbol -> string): (r: seq<string>)
    ensures forall k :: k in r <==> k in keys && |Members(symbols, key, k)| > 1
  {
    if |keys| == 0 then []
    else
      var last := keys[|keys| - 1];
      Keep(keys[..|keys| - 1], symbols, key) + (if |Members(symbols, key, last)| > 1 then [last] else [])
  }

  /** The position of the first symbol with the largest count. */
  function FirstMax(ms: seq<Symbol>): (r: nat)
    requires |ms| > 0
    ensures r < |ms|
    ensures forall i :: 0 <= i < |ms| ==> ms[i].occurrences <= ms[r].occurrences
    ensures forall i :: 0 <= i < r ==> ms[i].occurrences < ms[r].occurrences
  {
    if |ms| == 1 then 0
    else
      var j := FirstMax(ms[..|ms| - 1]);
      if ms[|ms| - 1].occurrences > ms[j].occurrences then |ms| - 1 else j
  }

  /** The members whose name already is the key. */
  function Exact(ms: seq<Symbol>, k: string): (r: seq<Symbol>)
    ensures forall s :: s in r <==> s in ms && s.name == k
  {
    if |ms| == 0 then []
    else
      var last := ms[|ms| - 1];
      Exact(ms[..|ms| - 1], k) + (if last.name == k then [last] else [])
  }

  /** `sorted[0]`: the first element of the stable sort that puts members
      named `k` first and then orders by non-increasing count. That is the
      first member of largest count among those named `k`, or among all
      members when none is. */
  function Keeper(k: string, ms: seq<Symbol>): Symbol
    requires |ms| > 0
  {
    var candidates := if |Exact(ms, k)| > 0 then Exact(ms, k) else ms;
    candidates[FirstMax(candidates)]
  }

  /** `symbols.reduce((sum, s) => sum + s.occurrences, 0)`. */
  function Total(ms: seq<Symbol>): int
  {
    if |ms| == 0 then 0 else Total(ms[..|ms| - 1]) + ms[|ms| - 1].occurrences
  }

  /** The ids of some symbols. */
  function IdsOf(ms: seq<Symbol>): set<string>
  {
    set i | 0 <= i < |ms| :: ms[i].id
  }

  /** The keeper's row after its update; other rows as they are. */
  function RenameOne(s: Symbol, id: string, k: string, total: int): Symbol
  {
    if s.id == id then s.(name := k, occurrences := total) else s
  }

  /** The update of the keeper: name and count of the row with id `id`. */
  function Rename(symbols: seq<Symbol>, id: string, k: string, total: int): (r: seq<Symbol>)
    ensures |r| == |symbols|
  {
    if |symbols| == 0 then []
    else Rename(symbols[..|symbols| - 1], id, k, total) + [RenameOne(symbols[|symbols| - 1], id, k, total)]
  }

  /** The deletions of the other members. */
  function DeleteIds(symbols: seq<Symbol>, gone: set<string>): (r: seq<Symbol>)
  {
    if |symbols| == 0 then []
    else
      var last := symbols[|symbols| - 1];
      DeleteIds(symbols[..|symbols| - 1], gone) + (if last.id in gone then [] else [last])
  }

  /** The rewritten list of one entry: every name that normalizes to `k`
      but differs from it becomes `k`. */
  function RewriteNames(names: seq<string>, k: string): (r: seq<string>)
    ensures |r| == |names|
  {
    seq(|names|, i requires 0 <= i < |names| =>
      if NormalizeSymbol(names[i]) == k && names[i] != k then k else names[i])
  }

  /** The `updated` flag of one entry. */
  predicate Touched(names: seq<string>, k: string)
  {
    exists i :: 0 <= i < |names| && NormalizeSymbol(names[i]) == k && names[i] != k
  }

  /** Every entry after the loop over entries; untouched entries are not
      written and stay as they are. */
  function RewriteEntries(entries: seq<Entry>, k: string): (r: seq<Entry>)
    ensures |r| == |entries|
  {
    seq(|entries|, i requires 0 <= i < |entries| =>
      if Touched(entries[i].detectedSymbols, k)
      then entries[i].(detectedSymbols := RewriteNames(entries[i].detectedSymbols, k))
      else entries[i])
  }

  /** One group: rename the keeper (Prisma's `update`, which fails on a
      missing id or when another symbol holds the key as its name), rewrite
      the entries, delete the rest. */
  function MergeGroup(db: Db, k: string, ms: seq<Symbol>): Result<Db>
    requires |ms| > 0
  {
    var keeper := Keeper(k, ms);
    if keeper.id !in IdsOf(db.symbols) then Err("Record to update not found.")
    else if exists i :: 0 <= i < |db.symbols| && db.symbols[i].id != keeper.id && db.symbols[i].name == k
    then Err("Unique constraint failed on the fields: (`name`)")
    else
      var renamed := Rename(db.symbols, keeper.id, k, Total(ms));
      Ok(db.(symbols := DeleteIds(renamed, IdsOf(ms) - {keeper.id}),
             entries := RewriteEntries(db.entries, k)))
  }

  datatype Status = NothingToMerge | Merged(groups: nat) | Aborted(error: string)

  datatype Outcome = Outcome(db: Db, status: Status)

  /** The loop over the duplicate groups, each taken from the snapshot. */
  function MergeAll(db: Db, keys: seq<string>, snapshot: seq<Symbol>, done: nat): Outcome
    requires forall k :: k in keys ==> |Members(snapshot, KeyOf, k)| > 1
    decreases |keys|
  {
    if |keys| == 0 then Outcome(db, Merged(done))
    else match MergeGroup(db, keys[0], Members(snapshot, KeyOf, keys[0]))
      case Err(e) => Outcome(db, Aborted(e))
      case Ok(next) => MergeAll(next, keys[1..], snapshot, done + 1)
  }

  /** The script. */
  function Run(db: Db): Outcome
  {
    var keys := DuplicateKeys(db.symbols, KeyOf);
    if |keys| == 0 then Outcome(db, NothingToMerge)
    else MergeAll(db, keys, db.symbols, 0)
  }

  /** A group holds exactly the symbols of its key. */
  lemma {:induction false} MembersExactly(symbols: seq<Symbol>, key: Symbol -> string, k: string)
    ensures forall s :: s in Members(symbols, key, k) <==> s in symbols && key(s) == k
  {
    if |symbols| > 0 {
      MembersExactly(symbols[..|symbols| - 1], key, k);
      assert symbols == symbols[..|symbols| - 1] + [symbols[|symbols| - 1]];
    }
  }

  /** Deleting by id removes exactly the rows whose id is listed. */
  lemma {:induction false} DeleteIdsExactly(symbols: seq<Symbol>, gone: set<string>)
    ensures forall s :: s in DeleteIds(symbols, gone) <==> s in symbols && s.id !in gone
  {
    if |symbols| > 0 {
      DeleteIdsExactly(symbols[..|symbols| - 1], gone);
      assert symbols == symbols[..|symbols| - 1] + [symbols[|symbols| - 1]];
    }
  }

  /** Every symbol lies in exactly one group, the group of its key; the
      groups listed are those with more than one member, each once. */
  lemma GroupsPartition(symbols: seq<Symbol>, key: Symbol -> string)
    ensures forall s :: s in symbols ==> s in Members(symbols, key, key(s))
    ensures forall s, k :: s in Members(symbols, key, k) ==> k == key(s)
    ensures NoDuplicates(DuplicateKeys(symbols, key))
    ensures forall k :: k in DuplicateKeys(symbols, key) <==> |Members(symbols, key, k)| > 1
  {
    var keys := seq(|symbols|, i requires 0 <= i < |symbols| => key(symbols[i]));
    forall s | s in symbols
      ensures s in Members(symbols, key, key(s))
    {
      MembersExactly(symbols, key, key(s));
    }
    forall s, k | s in Members(symbols, key, k)
      ensures k == key(s)
    {
      MembersExactly(symbols, key, k);
    }
    forall k | |Members(symbols, key, k)| > 1
      ensures k in GroupKeys(symbols, key)
    {
      MembersExactly(symbols, key, k);
      var s := Members(symbols, key, k)[0];
      assert s in Members(symbols, key, k);
      var i :| 0 <= i < |symbols| && symbols[i] == s;
      assert keys[i] == k;
    }
    KeepNoDuplicates(GroupKeys(symbols, key), symbols, key);
  }

  lemma {:induction false} KeepNoDuplicates(keys: seq<string>, symbols: seq<Symbol>, key: Symbol -> string)
    requires NoDuplicates(keys)
    ensures NoDuplicates(Keep(keys, symbols, key))
  {
    if |keys| > 0 {
      var init := keys[..|keys| - 1];
      KeepNoDuplicates(init, symbols, key);
      assert keys[|keys| - 1] !in init;
    }
  }

  /** With no group of two or more the script changes nothing. */
  lemma NoDuplicatesNoChange(db: Db)
    requires forall k :: |Members(db.symbols, KeyOf, k)| <= 1
    ensures Run(db) == Outcome(db, NothingToMerge)
  {
    if |DuplicateKeys(db.symbols, KeyOf)| > 0 {
      var k := DuplicateKeys(db.symbols, KeyOf)[0];
      assert k in DuplicateKeys(db.symbols, KeyOf);
    }
  }

  lemma {:induction false} ExactInMembers(ms: seq<Symbol>, k: string)
    ensures forall s :: s in Exact(ms, k) ==> s in ms
  {
  }

  /** The keeper is a member; it is named `k` when some member is; and it
      has the largest count among the members so named (all members when
      none is), coming first among those of that count. */
  lemma KeeperChoice(k: string, ms: seq<Symbol>)
    requires |ms| > 0
    ensures Keeper(k, ms) in ms
    ensures (exists s :: s in ms && s.name == k) ==> Keeper(k, ms).name == k
    ensures forall s :: s in ms && (s.name == k || Keeper(k, ms).name != k) ==>
              s.occurrences <= Keeper(k, ms).occurrences
  {
    var ex := Exact(ms, k);
    var candidates := if |ex| > 0 then ex else ms;
    var r := FirstMax(candidates);
    if exists s :: s in ms && s.name == k {
      var s :| s in ms && s.name == k;
      assert s in ex;
    }
    forall s | s in ms && (s.name == k || Keeper(k, ms).name != k)
      ensures s.occurrences <= Keeper(k, ms).occurrences
    {
      if |ex| > 0 {
        assert candidates[r] in ex;
        assert s in ex;
      }
      var i :| 0 <= i < |candidates| && candidates[i] == s;
    }
  }

  /** The rewrite keeps length and order, replaces exactly the names that
      normalize to `k` without being `k`, and leaves every other name. */
  lemma RewriteNamesExactly(names: seq<string>, k: string)
    ensures forall i :: 0 <= i < |names| ==>
              (NormalizeSymbol(names[i]) == k ==> RewriteNames(names, k)[i] == k)
              && (NormalizeSymbol(names[i]) != k ==> RewriteNames(names, k)[i] == names[i])
    ensures forall i :: 0 <= i < |names| ==> RewriteNames(names, k)[i] != names[i] ==> NormalizeSymbol(names[i]) == k
  {
  }

  /** An entry is written exactly when its list changes. */
  lemma WrittenIffChanged(names: seq<string>, k: string)
    ensures Touched(names, k) <==> RewriteNames(names, k) != names
  {
    if !Touched(names, k) {
      assert forall i :: 0 <= i < |names| ==> RewriteNames(names, k)[i] == names[i];
    } else {
      var i :| 0 <= i < |names| && NormalizeSymbol(names[i]) == k && names[i] != k;
      assert RewriteNames(names, k)[i] != names[i];
    }
  }

  /** Rewriting for the same key twice writes nothing the second time. */
  lemma RewriteNoLongerTouched(names: seq<string>, k: string)
    ensures !Touched(RewriteNames(names, k), k)
  {
  }

  /** Rows with id `id`. */
  function CountId(symbols: seq<Symbol>, id: string): nat
  {
    if |symbols| == 0 then 0
    else CountId(symbols[..|symbols| - 1], id) + (if symbols[|symbols| - 1].id == id then 1 else 0)
  }

  /** `n` copies of `t`, added up. */
  function Times(t: int, n: nat): int
  {
    if n == 0 then 0 else Times(t, n - 1) + t
  }

  lemma {:induction false} TotalAppend(a: seq<Symbol>, b: seq<Symbol>)
    ensures Total(a + b) == Total(a) + Total(b)
    decreases |b|
  {
    if |b| == 0 {
      assert a + b == a;
    } else {
      assert (a + b)[..|a + b| - 1] == a + b[..|b| - 1];
      TotalAppend(a, b[..|b| - 1]);
    }
  }

  lemma DeleteIdsAppend(a: seq<Symbol>, x: Symbol, gone: set<string>)
    ensures DeleteIds(a + [x], gone) == DeleteIds(a, gone) + (if x.id in gone then [] else [x])
  {
    assert (a + [x])[..|a|] == a;
  }

  /** The quantity `SumAfterMerge` keeps balanced. */
  ghost predicate Balanced(symbols: seq<Symbol>, key: Symbol -> string, k: string, id: string,
                           total: int, gone: set<string>)
  {
    Total(DeleteIds(Rename(symbols, id, k, total), gone)) + Total(Members(symbols, key, k))
      == Total(symbols) + Times(total, CountId(symbols, id))
  }

  lemma RenamedTotalStep(init: seq<Symbol>, last: Symbol, k: string, id: string, total: int,
                         gone: set<string>)
    requires last.id == id ==> last.id !in gone
    ensures Total(DeleteIds(Rename(init + [last], id, k, total), gone))
            == Total(DeleteIds(Rename(init, id, k, total), gone))
               + (if last.id == id then total else if last.id in gone then 0 else last.occurrences)
  {
    var symbols := init + [last];
    assert symbols[..|symbols| - 1] == init && symbols[|symbols| - 1] == last;
    var rl := RenameOne(last, id, k, total);
    assert Rename(symbols, id, k, total) == Rename(init, id, k, total) + [rl];
    DeleteIdsAppend(Rename(init, id, k, total), rl, gone);
    var tail := if rl.id in gone then [] else [rl];
    TotalAppend(DeleteIds(Rename(init, id, k, total), gone), tail);
    TotalOne(rl);
  }

  lemma MembersTotalStep(init: seq<Symbol>, last: Symbol, key: Symbol -> string, k: string)
    ensures Total(Members(init + [last], key, k))
            == Total(Members(init, key, k)) + (if key(last) == k then last.occurrences else 0)
  {
    var symbols := init + [last];
    assert symbols[..|symbols| - 1] == init && symbols[|symbols| - 1] == last;
    var tail := if key(last) == k then [last] else [];
    TotalAppend(Members(init, key, k), tail);
    TotalOne(last);
  }

  lemma CountTimesStep(init: seq<Symbol>, last: Symbol, id: string, total: int)
    ensures Times(total, CountId(init + [last], id))
            == Times(total, CountId(init, id)) + (if last.id == id then total else 0)
  {
    var symbols := init + [last];
    assert symbols[..|symbols| - 1] == init && symbols[|symbols| - 1] == last;
  }

  lemma TotalOne(x: Symbol)
    ensures Total([x]) == x.occurrences
  {
  }

  lemma SumStep(init: seq<Symbol>, last: Symbol, key: Symbol -> string, k: string, id: string,
                total: int, gone: set<string>)
    requires last.id in gone <==> key(last) == k && last.id != id
    requires last.id == id ==> key(last) == k
    requires Balanced(init, key, k, id, total, gone)
    ensures Balanced(init + [last], key, k, id, total, gone)
  {
    RenamedTotalStep(init, last, k, id, total, gone);
    MembersTotalStep(init, last, key, k);
    CountTimesStep(init, last, id, total);
    TotalAppend(init, [last]);
    TotalOne(last);
  }

  /** Renaming the rows of `id` to `total` and deleting the rows in `gone`
      moves the group's total onto those rows, when `gone` is exactly the
      other members. */
  lemma {:induction false} SumAfterMerge(symbols: seq<Symbol>, key: Symbol -> string, k: string, id: string,
                                         total: int, gone: set<string>)
    requires forall i :: 0 <= i < |symbols| ==>
               (symbols[i].id in gone <==> key(symbols[i]) == k && symbols[i].id != id)
    requires forall i :: 0 <= i < |symbols| && symbols[i].id == id ==> key(symbols[i]) == k
    ensures Balanced(symbols, key, k, id, total, gone)
  {
    if |symbols| > 0 {
      var init, last := symbols[..|symbols| - 1], symbols[|symbols| - 1];
      assert forall i :: 0 <= i < |init| ==> init[i] == symbols[i];
      SumAfterMerge(init, key, k, id, total, gone);
      SumStep(init, last, key, k, id, total, gone);
      assert symbols == init + [last];
    }
  }

  lemma {:induction false} CountIdOne(symbols: seq<Symbol>, i: nat)
    requires i < |symbols|
    requires forall j :: 0 <= j < |symbols| && symbols[j].id == symbols[i].id ==> j == i
    ensures CountId(symbols, symbols[i].id) == 1
  {
    var init := symbols[..|symbols| - 1];
    if i < |symbols| - 1 {
      CountIdOne(init, i);
    } else {
      CountIdZero(init, symbols[i].id);
    }
  }

  lemma {:induction false} CountIdZero(symbols: seq<Symbol>, id: string)
    requires forall j :: 0 <= j < |symbols| ==> symbols[j].id != id
    ensures CountId(symbols, id) == 0
  {
    if |symbols| > 0 {
      CountIdZero(symbols[..|symbols| - 1], id);
    }
  }

  /** The rows the deletions remove are exactly the members other than the
      keeper (ids are unique). */
  lemma DeletedAreOtherMembers(symbols: seq<Symbol>, key: Symbol -> string, k: string, id: string)
    requires UniqueIds(symbols)
    ensures forall i :: 0 <= i < |symbols| ==>
              (symbols[i].id in IdsOf(Members(symbols, key, k)) - {id} <==> key(symbols[i]) == k && symbols[i].id != id)
  {
    var ms := Members(symbols, key, k);
    MembersExactly(symbols, key, k);
    forall a | 0 <= a < |symbols| && symbols[a].id in IdsOf(ms) - {id}
      ensures key(symbols[a]) == k
    {
      var j :| 0 <= j < |ms| && ms[j].id == symbols[a].id;
      assert ms[j] in ms;
      var b :| 0 <= b < |symbols| && symbols[b] == ms[j];
      assert a == b;
    }
    forall a | 0 <= a < |symbols| && key(symbols[a]) == k && symbols[a].id != id
      ensures symbols[a].id in IdsOf(ms)
    {
      assert symbols[a] in ms;
      var j :| 0 <= j < |ms| && ms[j] == symbols[a];
    }
  }

  /** The renamed keeper is in the result, and every symbol outside the
      group is kept as it was. */
  lemma {:induction false} MergedRows(symbols: seq<Symbol>, key: Symbol -> string, k: string, id: string,
                                      total: int, gone: set<string>)
    requires id !in gone
    requires forall i :: 0 <= i < |symbols| ==>
               (symbols[i].id in gone <==> key(symbols[i]) == k && symbols[i].id != id)
    ensures forall i :: 0 <= i < |symbols| && symbols[i].id == id ==>
              symbols[i].(name := k, occurrences := total) in DeleteIds(Rename(symbols, id, k, total), gone)
    ensures forall i :: 0 <= i < |symbols| && key(symbols[i]) != k && symbols[i].id != id ==>
              symbols[i] in DeleteIds(Rename(symbols, id, k, total), gone)
  {
    RenamedRowsKept(symbols, id, k, total, gone);
    forall i | 0 <= i < |symbols| && symbols[i].id == id
      ensures symbols[i].(name := k, occurrences := total) in DeleteIds(Rename(symbols, id, k, total), gone)
    {
      assert RenameOne(symbols[i], id, k, total) == symbols[i].(name := k, occurrences := total);
    }
    forall i | 0 <= i < |symbols| && key(symbols[i]) != k && symbols[i].id != id
      ensures symbols[i] in DeleteIds(Rename(symbols, id, k, total), gone)
    {
      assert RenameOne(symbols[i], id, k, total) == symbols[i];
    }
  }

  /** Every row whose id is not deleted survives, renamed if it is the
      keeper. */
  lemma {:induction false} RenamedRowsKept(symbols: seq<Symbol>, id: string, k: string, total: int,
                                           gone: set<string>)
    ensures forall i :: 0 <= i < |symbols| && symbols[i].id !in gone ==>
              RenameOne(symbols[i], id, k, total) in DeleteIds(Rename(symbols, id, k, total), gone)
  {
    if |symbols| > 0 {
      var init, last := symbols[..|symbols| - 1], symbols[|symbols| - 1];
      RenamedRowsKept(init, id, k, total, gone);
      var rl := RenameOne(last, id, k, total);
      DeleteIdsAppend(Rename(init, id, k, total), rl, gone);
      var prefix := DeleteIds(Rename(init, id, k, total), gone);
      var whole := DeleteIds(Rename(symbols, id, k, total), gone);
      forall i | 0 <= i < |symbols| && symbols[i].id !in gone
        ensures RenameOne(symbols[i], id, k, total) in whole
      {
        if i < |init| {
          assert init[i] == symbols[i];
          assert RenameOne(symbols[i], id, k, total) in prefix;
        }
      }
    }
  }

  /** The facts about one group that the shape of the merge rests on. */
  lemma MergeGroupFacts(db: Db, key: Symbol -> string, k: string) returns (p: nat)
    requires UniqueIds(db.symbols) && |Members(db.symbols, key, k)| > 0
    ensures var ms := Members(db.symbols, key, k); var keeper := Keeper(k, ms);
      && p < |db.symbols| && db.symbols[p] == keeper && keeper in ms && key(keeper) == k
      && keeper.id in IdsOf(db.symbols)
      && (forall i :: 0 <= i < |db.symbols| && db.symbols[i].id == keeper.id ==> i == p)
      && (forall i :: 0 <= i < |db.symbols| ==>
            (db.symbols[i].id in IdsOf(ms) - {keeper.id} <==> key(db.symbols[i]) == k && db.symbols[i].id != keeper.id))
  {
    var ms := Members(db.symbols, key, k);
    var keeper := Keeper(k, ms);
    KeeperChoice(k, ms);
    MembersExactly(db.symbols, key, k);
    p :| 0 <= p < |db.symbols| && db.symbols[p] == keeper;
    assert keeper.id in IdsOf(db.symbols);
    DeletedAreOtherMembers(db.symbols, key, k, keeper.id);
  }

  /** Renaming the row at `p` and deleting `gone`, for any grouping key:
      the renamed row is there, rows outside the group stay, and no row
      in `gone` remains. */
  lemma MergedShape(symbols: seq<Symbol>, key: Symbol -> string, k: string, p: nat, total: int,
                    gone: set<string>)
    requires p < |symbols| && key(symbols[p]) == k && symbols[p].id !in gone
    requires forall i :: 0 <= i < |symbols| && symbols[i].id == symbols[p].id ==> i == p
    requires forall i :: 0 <= i < |symbols| ==>
               (symbols[i].id in gone <==> key(symbols[i]) == k && symbols[i].id != symbols[p].id)
    ensures var after := DeleteIds(Rename(symbols, symbols[p].id, k, total), gone);
      && symbols[p].(name := k, occurrences := total) in after
      && (forall s :: s in symbols && key(s) != k ==> s in after)
      && (forall t :: t in after ==> t.id !in gone)
  {
    var id := symbols[p].id;
    MergedRows(symbols, key, k, id, total, gone);
    var after := DeleteIds(Rename(symbols, id, k, total), gone);
    forall s | s in symbols && key(s) != k
      ensures s in after
    {
      var i :| 0 <= i < |symbols| && symbols[i] == s;
      assert i != p;
    }
    DeleteIdsExactly(Rename(symbols, id, k, total), gone);
  }

  /** The same step moves the group's total onto the renamed row. */
  lemma MergedTotal(symbols: seq<Symbol>, key: Symbol -> string, k: string, p: nat, total: int,
                    gone: set<string>)
    requires p < |symbols| && key(symbols[p]) == k
    requires forall i :: 0 <= i < |symbols| && symbols[i].id == symbols[p].id ==> i == p
    requires forall i :: 0 <= i < |symbols| ==>
               (symbols[i].id in gone <==> key(symbols[i]) == k && symbols[i].id != symbols[p].id)
    ensures Total(DeleteIds(Rename(symbols, symbols[p].id, k, total), gone)) + Total(Members(symbols, key, k))
            == Total(symbols) + total
  {
    var id := symbols[p].id;
    SumAfterMerge(symbols, key, k, id, total, gone);
    CountIdOne(symbols, p);
    assert Times(total, 1) == total;
  }

  lemma IdOfMember(ms: seq<Symbol>, s: Symbol)
    requires s in ms
    ensures s.id in IdsOf(ms)
  {
    var j :| 0 <= j < |ms| && ms[j] == s;
  }

  /** When the keeper's row exists and no other row holds the key, the
      merge of the group succeeds with the renamed and thinned rows. */
  lemma MergeGroupOk(db: Db, k: string, ms: seq<Symbol>)
    requires |ms| > 0 && Keeper(k, ms).id in IdsOf(db.symbols)
    requires forall s :: s in db.symbols && s.name == k ==> s.id == Keeper(k, ms).id
    ensures var keeper := Keeper(k, ms);
      MergeGroup(db, k, ms) == Ok(db.(symbols := DeleteIds(Rename(db.symbols, keeper.id, k, Total(ms)), IdsOf(ms) - {keeper.id}),
                                      entries := RewriteEntries(db.entries, k)))
  {
    var keeper := Keeper(k, ms);
    if exists i :: 0 <= i < |db.symbols| && db.symbols[i].id != keeper.id && db.symbols[i].name == k {
      var i :| 0 <= i < |db.symbols| && db.symbols[i].id != keeper.id && db.symbols[i].name == k;
      assert db.symbols[i] in db.symbols;
    }
  }

  /** One group with no name clash: the merge succeeds, the keeper is
      renamed to the key and carries the group's total, every other member
      is deleted, and the symbols outside the group stay. */
  lemma MergeGroupShape(db: Db, key: Symbol -> string, k: string)
    requires UniqueIds(db.symbols) && |Members(db.symbols, key, k)| > 0
    requires forall s :: s in db.symbols && s.name == k ==> s.id == Keeper(k, Members(db.symbols, key, k)).id
    ensures var ms := Members(db.symbols, key, k); var keeper := Keeper(k, ms);
      && MergeGroup(db, k, ms).Ok?
      && var after := MergeGroup(db, k, ms).value;
      && keeper.(name := k, occurrences := Total(ms)) in after.symbols
      && (forall s :: s in db.symbols && key(s) != k ==> s in after.symbols)
      && (forall s, t :: s in ms && s.id != keeper.id && t in after.symbols ==> t.id != s.id)
  {
    var ms := Members(db.symbols, key, k);
    var keeper := Keeper(k, ms);
    var p := MergeGroupFacts(db, key, k);
    var gone := IdsOf(ms) - {keeper.id};
    MergedShape(db.symbols, key, k, p, Total(ms), gone);
    MergeGroupOk(db, k, ms);
    var after := DeleteIds(Rename(db.symbols, keeper.id, k, Total(ms)), gone);
    forall s, t | s in ms && s.id != keeper.id && t in after
      ensures t.id != s.id
    {
      IdOfMember(ms, s);
    }
  }

  /** One group with no name clash keeps the overall count, rewrites the
      entries for the key, and leaves connections and constellations. */
  lemma MergeGroupKeepsTotal(db: Db, key: Symbol -> string, k: string)
    requires UniqueIds(db.symbols) && |Members(db.symbols, key, k)| > 0
    requires forall s :: s in db.symbols && s.name == k ==> s.id == Keeper(k, Members(db.symbols, key, k)).id
    ensures var ms := Members(db.symbols, key, k);
      && MergeGroup(db, k, ms).Ok?
      && var after := MergeGroup(db, k, ms).value;
      && Total(after.symbols) == Total(db.symbols)
      && after.entries == RewriteEntries(db.entries, k)
      && after.connections == db.connections && after.constellations == db.constellations
  {
    var ms := Members(db.symbols, key, k);
    var keeper := Keeper(k, ms);
    var p := MergeGroupFacts(db, key, k);
    MergedTotal(db.symbols, key, k, p, Total(ms), IdsOf(ms) - {keeper.id});
    MergeGroupOk(db, k, ms);
  }

  /** A rename onto a name another symbol already holds fails, and the
      script stops with the database as the earlier groups left it. */
  lemma NameClashAborts(db: Db, k: string, rest: seq<string>, snapshot: seq<Symbol>, done: nat)
    requires |Members(snapshot, KeyOf, k)| > 1 && forall k' :: k' in rest ==> |Members(snapshot, KeyOf, k')| > 1
    requires exists s :: s in db.symbols && s.name == k && s.id != Keeper(k, Members(snapshot, KeyOf, k)).id
    ensures MergeAll(db, [k] + rest, snapshot, done).db == db
    ensures MergeAll(db, [k] + rest, snapshot, done).status.Aborted?
  {
    var s :| s in db.symbols && s.name == k && s.id != Keeper(k, Members(snapshot, KeyOf, k)).id;
    var i :| 0 <= i < |db.symbols| && db.symbols[i] == s;
    assert ([k] + rest)[0] == k;
  }
}

=== FILE: reconcile.dfy ===
/** `DELETE /api/symbols`: the reconcile pass.

    It re-derives, from every entry's stored list of names, the set of
    live (normalized) names and how often each occurs; deletes every
    symbol whose stored name is not live, together with the connections
    that touch it; and overwrites the count of every surviving symbol
    whose stored count differs from the derived one. Entries are only
    read. */
module Reconcile {
  import opened Common
  import opened Text
  import opened Store
  import opened SymbolNormalizer

  /** The normalized form of every listed name (one per entry position). */
  function NormalizedNames(entries: seq<Entry>): (r: seq<string>)
    ensures |r| == |ListedNames(entries)|
  {
    Images(ListedNames(entries))
  }

  /** `symbolsInEntries`: the live names. */
  function LiveNames(entries: seq<Entry>): set<string>
  {
    set n | n in NormalizedNames(entries)
  }

  /** `actualOccurrences`: the (entry, position) pairs whose normalized name
      is `name`. */
  function ActualCount(entries: seq<Entry>, name: string): nat
  {
    Count(NormalizedNames(entries), name)
  }

  /** The ids of the symbols the pass deletes. */
  function OrphanIds(symbols: seq<Symbol>, live: set<string>): set<string>
  {
    set i | 0 <= i < |symbols| && symbols[i].name !in live :: symbols[i].id
  }

  /** The symbols whose name is in `live`, in order, each with its count
      replaced by `actual` of its name. */
  function Survivors(symbols: seq<Symbol>, live: set<string>, actual: string -> nat): (r: seq<Symbol>)
    ensures |r| <= |symbols|
  {
    if |symbols| == 0 then []
    else
      var rest := Survivors(symbols[..|symbols| - 1], live, actual);
      var s := symbols[|symbols| - 1];
      if s.name in live then rest + [s.(occurrences := actual(s.name))]
      else rest
  }

  /** Symbols the pass deletes, counted as `deletedCount` counts them. */
  function OrphanCount(symbols: seq<Symbol>, live: set<string>): nat
  {
    if |symbols| == 0 then 0
    else OrphanCount(symbols[..|symbols| - 1], live) + (if symbols[|symbols| - 1].name in live then 0 else 1)
  }

  /** Surviving symbols whose stored count differs from the derived one:
      the `update` calls the pass makes. */
  function CountWrites(symbols: seq<Symbol>, live: set<string>, actual: string -> nat): nat
  {
    if |symbols| == 0 then 0
    else
      var s := symbols[|symbols| - 1];
      CountWrites(symbols[..|symbols| - 1], live, actual)
        + (if s.name in live && actual(s.name) != s.occurrences then 1 else 0)
  }

  /** The connections that touch none of the given symbol ids. */
  function KeepConnections(connections: seq<Connection>, gone: set<string>): seq<Connection>
  {
    if |connections| == 0 then []
    else
      var c := connections[|connections| - 1];
      KeepConnections(connections[..|connections| - 1], gone)
        + (if c.fromId in gone || c.toId in gone then [] else [c])
  }

  datatype Outcome = Outcome(db: Db, deletedCount: nat, writes: nat, message: string)

  /** The derived counts of `entries`, as a function of the name. */
  function Actual(entries: seq<Entry>): string -> nat
  {
    n => ActualCount(entries, n)
  }

  /** The pass as a state transition. */
  function Delete(db: Db): Outcome
  {
    var live := LiveNames(db.entries);
    var deleted := OrphanCount(db.symbols, live);
    Outcome(
      db.(symbols := Survivors(db.symbols, live, Actual(db.entries)),
          connections := KeepConnections(db.connections, OrphanIds(db.symbols, live))),
      deleted,
      CountWrites(db.symbols, live, Actual(db.entries)),
      "Cleaned up " + NatToString(deleted) + " orphaned symbols")
  }

  /** A name is live exactly when it occurs at least once. */
  lemma LiveIffCounted(entries: seq<Entry>, name: string)
    ensures name in LiveNames(entries) <==> ActualCount(entries, name) > 0
  {
    CountPositive(NormalizedNames(entries), name);
  }

  /** The live set is `normalizeSymbol` of every listed name. */
  lemma LiveNamesAreImages(entries: seq<Entry>)
    ensures forall n :: n in LiveNames(entries) <==>
              exists x :: x in ListedNames(entries) && NormalizeSymbol(x) == n
  {
    var ls := ListedNames(entries);
    forall n | n in LiveNames(entries)
      ensures exists x :: x in ls && NormalizeSymbol(x) == n
    {
      var i :| 0 <= i < |ls| && NormalizedNames(entries)[i] == n;
      assert ls[i] in ls;
    }
    forall n | exists x :: x in ls && NormalizeSymbol(x) == n
      ensures n in LiveNames(entries)
    {
      var x :| x in ls && NormalizeSymbol(x) == n;
      var i :| 0 <= i < |ls| && ls[i] == x;
      assert NormalizedNames(entries)[i] == n;
    }
  }

  /** Counting is additive over entries, and repeats within one entry count. */
  lemma ActualCountAppend(entries: seq<Entry>, e: Entry, name: string)
    ensures ActualCount(entries + [e], name) ==
            ActualCount(entries, name) + Count(Images(e.detectedSymbols), name)
  {
    var es := entries + [e];
    assert es[..|es| - 1] == entries;
    assert Images(ListedNames(es)) == Images(ListedNames(entries)) + Images(e.detectedSymbols);
    CountAppend(Images(ListedNames(entries)), Images(e.detectedSymbols), name);
  }

  /** A symbol survives exactly when its name is live, and differs from
      before only in its count. */
  lemma {:induction false} SurvivorsExactly(symbols: seq<Symbol>, live: set<string>, actual: string -> nat)
    ensures forall s :: s in Survivors(symbols, live, actual) ==>
              exists i :: 0 <= i < |symbols| && symbols[i].name in live
                          && s == symbols[i].(occurrences := actual(symbols[i].name))
    ensures forall i :: 0 <= i < |symbols| && symbols[i].name in live ==>
              symbols[i].(occurrences := actual(symbols[i].name)) in Survivors(symbols, live, actual)
    ensures |Survivors(symbols, live, actual)| == |symbols| - OrphanCount(symbols, live)
  {
    if |symbols| > 0 {
      var init := symbols[..|symbols| - 1];
      SurvivorsExactly(init, live, actual);
      var r := Survivors(symbols, live, actual);
      forall s | s in r
        ensures exists i :: 0 <= i < |symbols| && symbols[i].name in live
                            && s == symbols[i].(occurrences := actual(symbols[i].name))
      {
        if s in Survivors(init, live, actual) {
          var i :| 0 <= i < |init| && init[i].name in live
                   && s == init[i].(occurrences := actual(init[i].name));
          assert symbols[i] == init[i];
        }
      }
      forall i | 0 <= i < |symbols| && symbols[i].name in live
        ensures symbols[i].(occurrences := actual(symbols[i].name)) in r
      {
        if i < |init| {
          assert symbols[i] == init[i];
        }
      }
    }
  }

  /** Every surviving count is the derived one, and it is positive. */
  lemma SurvivorCounts(symbols: seq<Symbol>, entries: seq<Entry>)
    ensures forall s :: s in Survivors(symbols, LiveNames(entries), Actual(entries)) ==>
              s.name in LiveNames(entries) && s.occurrences == ActualCount(entries, s.name) > 0
  {
    SurvivorsExactly(symbols, LiveNames(entries), Actual(entries));
    forall s | s in Survivors(symbols, LiveNames(entries), Actual(entries))
      ensures s.name in LiveNames(entries) && s.occurrences == ActualCount(entries, s.name) > 0
    {
      LiveIffCounted(entries, s.name);
    }
  }

  /** A connection is kept exactly when neither end is a deleted symbol. */
  lemma {:induction false} KeepConnectionsExactly(connections: seq<Connection>, gone: set<string>)
    ensures forall c :: c in KeepConnections(connections, gone) <==>
              c in connections && c.fromId !in gone && c.toId !in gone
  {
    if |connections| > 0 {
      var init := connections[..|connections| - 1];
      KeepConnectionsExactly(init, gone);
      assert connections == init + [connections[|connections| - 1]];
    }
  }

  /** The pass leaves the entries alone, and reports as many deletions as
      symbols disappear. */
  lemma DeleteReport(db: Db)
    ensures Delete(db).db.entries == db.entries
    ensures Delete(db).db.constellations == db.constellations
    ensures |Delete(db).db.symbols| + Delete(db).deletedCount == |db.symbols|
  {
    SurvivorsExactly(db.symbols, LiveNames(db.entries), Actual(db.entries));
  }

  /** When every symbol is live no id is an orphan's. */
  lemma {:induction false} NoOrphans(symbols: seq<Symbol>, live: set<string>)
    requires forall s :: s in symbols ==> s.name in live
    ensures OrphanCount(symbols, live) == 0 && OrphanIds(symbols, live) == {}
  {
    if |symbols| > 0 {
      NoOrphans(symbols[..|symbols| - 1], live);
      assert symbols[|symbols| - 1] in symbols;
    }
    assert forall i :: 0 <= i < |symbols| ==> symbols[i] in symbols;
  }

  /** Symbols that already carry their derived counts come back unchanged. */
  lemma {:induction false} SurvivorsOfReconciled(symbols: seq<Symbol>, live: set<string>, actual: string -> nat)
    requires forall s :: s in symbols ==> s.name in live && s.occurrences == actual(s.name)
    ensures Survivors(symbols, live, actual) == symbols
    ensures CountWrites(symbols, live, actual) == 0
  {
    if |symbols| > 0 {
      var init, last := symbols[..|symbols| - 1], symbols[|symbols| - 1];
      assert symbols == init + [last];
      assert forall s :: s in init ==> s in symbols;
      SurvivorsOfReconciled(init, live, actual);
      assert last in symbols;
    }
  }

  /** Nothing a connection points at is gone: filtering keeps them all. */
  lemma {:induction false} KeepAll(connections: seq<Connection>)
    ensures KeepConnections(connections, {}) == connections
  {
    if |connections| > 0 {
      KeepAll(connections[..|connections| - 1]);
      assert connections == connections[..|connections| - 1] + [connections[|connections| - 1]];
    }
  }

  /** Running the pass a second time deletes nothing, writes nothing and
      leaves the database as the first run left it. */
  lemma DeleteIdempotent(db: Db)
    ensures var once := Delete(db).db;
      && Delete(once).db == once
      && Delete(once).deletedCount == 0
      && Delete(once).writes == 0
  {
    var once := Delete(db).db;
    SurvivorCounts(db.symbols, db.entries);
    SurvivorsOfReconciled(once.symbols, LiveNames(once.entries), Actual(once.entries));
    NoOrphans(once.symbols, LiveNames(once.entries));
    KeepAll(once.connections);
  }
}

=== FILE: sorting.dfy ===
/** `Array.prototype.sort` with a comparator of the form `(a, b) => key(b) - key(a)`:
    a STABLE sort into non-increasing key order (section 23.1.3.30 of
    ECMA-262 requires stability since its 2019 edition).

    The sort is written as an insertion sort that scans the input from
    left to right and places each element after every element already
    placed whose key is at least its own; the lemmas show the result is
    ordered, a permutation, and stable: the elements sharing one key keep
    their input order. */
module Sorting {

  /** `xs` is in non-increasing key order. */
  ghost predicate SortedDesc<T>(xs: seq<T>, key: T -> int)
  {
    forall i, j :: 0 <= i < j < |xs| ==> key(xs[i]) >= key(xs[j])
  }

  /** The elements of `xs` whose key is `k`, in their order in `xs`. */
  function WithKey<T>(xs: seq<T>, key: T -> int, k: int): (r: seq<T>)
    ensures |r| <= |xs|
    ensures forall i :: 0 <= i < |r| ==> key(r[i]) == k
  {
    if |xs| == 0 then []
    else WithKey(xs[..|xs| - 1], key, k) + (if key(xs[|xs| - 1]) == k then [xs[|xs| - 1]] else [])
  }

  /** Places `x` into the ordered `s`, after every element whose key is at
      least `key(x)`. */
  function Insert<T>(s: seq<T>, x: T, key: T -> int): (r: seq<T>)
    ensures |r| == |s| + 1
    ensures multiset(r) == multiset(s) + multiset{x}
  {
    if |s| == 0 || key(s[|s| - 1]) >= key(x) then s + [x]
    else
      var init := s[..|s| - 1];
      assert s == init + [s[|s| - 1]];
      Insert(init, x, key) + [s[|s| - 1]]
  }

  /** The stable sort into non-increasing key order. */
  function SortDesc<T>(xs: seq<T>, key: T -> int): (r: seq<T>)
    ensures |r| == |xs|
    ensures multiset(r) == multiset(xs)
  {
    if |xs| == 0 then []
    else
      var init := xs[..|xs| - 1];
      assert xs == init + [xs[|xs| - 1]];
      Insert(SortDesc(init, key), xs[|xs| - 1], key)
  }

  lemma {:induction false} WithKeyAppend<T>(xs: seq<T>, ys: seq<T>, key: T -> int, k: int)
    ensures WithKey(xs + ys, key, k) == WithKey(xs, key, k) + WithKey(ys, key, k)
    decreases |ys|
  {
    if |ys| == 0 {
      assert xs + ys == xs;
    } else {
      var zs := xs + ys;
      assert zs[..|zs| - 1] == xs + ys[..|ys| - 1];
      WithKeyAppend(xs, ys[..|ys| - 1], key, k);
    }
  }

  /** Insertion keeps the order. */
  lemma {:induction false} InsertSorted<T>(s: seq<T>, x: T, key: T -> int)
    requires SortedDesc(s, key)
    ensures SortedDesc(Insert(s, x, key), key)
  {
    if |s| > 0 && key(s[|s| - 1]) < key(x) {
      var init, last := s[..|s| - 1], s[|s| - 1];
      InsertSorted(init, x, key);
      var r := Insert(init, x, key);
      forall i | 0 <= i < |r|
        ensures key(r[i]) >= key(last)
      {
        assert r[i] in multiset(r);
        if r[i] != x {
          assert r[i] in multiset(init);
          var p :| 0 <= p < |init| && init[p] == r[i];
          assert s[p] == init[p];
        }
      }
    }
  }

  /** Insertion adds `x` as the LAST element of its key. */
  lemma {:induction false} InsertWithKey<T>(s: seq<T>, x: T, key: T -> int, k: int)
    ensures WithKey(Insert(s, x, key), key, k) == WithKey(s, key, k) + WithKey([x], key, k)
  {
    if |s| == 0 || key(s[|s| - 1]) >= key(x) {
      WithKeyAppend(s, [x], key, k);
    } else {
      var init, last := s[..|s| - 1], s[|s| - 1];
      InsertWithKey(init, x, key, k);
      var r := Insert(init, x, key);
      WithKeyAppend(r, [last], key, k);
      assert s == init + [last];
      WithKeyAppend(init, [last], key, k);
      if key(x) == k {
        assert WithKey([last], key, k) == [];
      }
    }
  }

  /** The result is ordered and, key by key, equal to the input: the sort
      is stable. */
  lemma {:induction false} SortDescProperties<T>(xs: seq<T>, key: T -> int)
    ensures SortedDesc(SortDesc(xs, key), key)
    ensures forall k :: WithKey(SortDesc(xs, key), key, k) == WithKey(xs, key, k)
  {
    if |xs| > 0 {
      var init, last := xs[..|xs| - 1], xs[|xs| - 1];
      SortDescProperties(init, key);
      InsertSorted(SortDesc(init, key), last, key);
      forall k ensures WithKey(SortDesc(xs, key), key, k) == WithKey(xs, key, k) {
        InsertWithKey(SortDesc(init, key), last, key, k);
        assert xs == init + [last];
        WithKeyAppend(init, [last], key, k);
      }
    }
  }

  /** An input already in order comes back unchanged. */
  lemma {:induction false} SortDescOfSorted<T>(xs: seq<T>, key: T -> int)
    requires SortedDesc(xs, key)
    ensures SortDesc(xs, key) == xs
  {
    if |xs| > 0 {
      var init, last := xs[..|xs| - 1], xs[|xs| - 1];
      assert xs == init + [last];
      assert SortedDesc(init, key) by {
        forall i, j | 0 <= i < j < |init|
          ensures key(init[i]) >= key(init[j])
        {
          assert init[i] == xs[i] && init[j] == xs[j];
        }
      }
      SortDescOfSorted(init, key);
      assert SortDesc(xs, key) == Insert(init, last, key);
      if |init| > 0 {
        assert key(init[|init| - 1]) >= key(last) by {
          assert init[|init| - 1] == xs[|xs| - 2];
        }
      }
    }
  }

  /** Sorting neither adds nor loses an element. */
  lemma SortDescMembers<T>(xs: seq<T>, key: T -> int)
    ensures forall x :: x in SortDesc(xs, key) <==> x in xs
  {
    var r := SortDesc(xs, key);
    forall x ensures x in r <==> x in xs {
      assert x in r <==> x in multiset(r);
      assert x in xs <==> x in multiset(xs);
    }
  }

  /** With no element of key `k` in `xs`, `WithKey` is empty. */
  lemma {:induction false} WithKeyNone<T>(xs: seq<T>, key: T -> int, k: int)
    requires forall q :: 0 <= q < |xs| ==> key(xs[q]) != k
    ensures WithKey(xs, key, k) == []
  {
    if |xs| > 0 {
      WithKeyNone(xs[..|xs| - 1], key, k);
    }
  }

  /** `WithKey` starts with the first element of key `k`. */
  lemma {:induction false} WithKeyFirst<T>(xs: seq<T>, key: T -> int, k: int, p: nat)
    requires p < |xs| && key(xs[p]) == k
    requires forall q :: 0 <= q < p ==> key(xs[q]) != k
    ensures |WithKey(xs, key, k)| > 0 && WithKey(xs, key, k)[0] == xs[p]
  {
    var init := xs[..|xs| - 1];
    if p == |xs| - 1 {
      WithKeyNone(init, key, k);
    } else {
      WithKeyFirst(init, key, k, p);
    }
  }

  /** The first element of the sorted sequence carries the largest key. */
  lemma SortDescMax<T>(xs: seq<T>, key: T -> int)
    requires |xs| > 0
    ensures forall x :: x in xs ==> key(x) <= key(SortDesc(xs, key)[0])
  {
    var r := SortDesc(xs, key);
    SortDescProperties(xs, key);
    SortDescMembers(xs, key);
    forall x | x in xs
      ensures key(x) <= key(r[0])
    {
      var i :| 0 <= i < |r| && r[i] == x;
      if i > 0 {
        assert key(r[0]) >= key(r[i]);
      }
    }
  }

  /** ... and it is the FIRST element of the input that carries that key. */
  lemma SortDescFirst<T>(xs: seq<T>, key: T -> int)
    requires |xs| > 0
    ensures forall x :: x in xs ==> key(x) <= key(SortDesc(xs, key)[0])
    ensures exists p :: 0 <= p < |xs| && xs[p] == SortDesc(xs, key)[0]
              && forall q :: 0 <= q < p ==> key(xs[q]) < key(xs[p])
  {
    SortDescMax(xs, key);
    SortDescProperties(xs, key);
    HeadIsFirst(xs, SortDesc(xs, key), key);
  }

  /** A stable reordering whose head carries the largest key starts with the
      first element of that key. */
  lemma HeadIsFirst<T>(xs: seq<T>, r: seq<T>, key: T -> int)
    requires |xs| > 0 && |r| > 0 && multiset(r) == multiset(xs)
    requires forall x :: x in xs ==> key(x) <= key(r[0])
    requires forall k :: WithKey(r, key, k) == WithKey(xs, key, k)
    ensures exists p :: 0 <= p < |xs| && xs[p] == r[0]
              && forall q :: 0 <= q < p ==> key(xs[q]) < key(xs[p])
  {
    var m := key(r[0]);
    assert r[0] in multiset(r);
    var p0 :| 0 <= p0 < |xs| && xs[p0] == r[0];
    var p := FirstWithKey(xs, key, m, p0);
    WithKeyFirst(xs, key, m, p);
    WithKeyFirst(r, key, m, 0);
    assert WithKey(r, key, m) == WithKey(xs, key, m);
    forall q | 0 <= q < p
      ensures key(xs[q]) < key(xs[p])
    {
      assert xs[q] in xs;
    }
  }

  /** The first position holding key `k`, given one that does. */
  lemma {:induction false} FirstWithKey<T>(xs: seq<T>, key: T -> int, k: int, p0: nat) returns (p: nat)
    requires p0 < |xs| && key(xs[p0]) == k
    ensures p <= p0 && key(xs[p]) == k
    ensures forall q :: 0 <= q < p ==> key(xs[q]) != k
    decreases p0
  {
    if exists q :: 0 <= q < p0 && key(xs[q]) == k {
      var q :| 0 <= q < p0 && key(xs[q]) == k;
      p := FirstWithKey(xs, key, k, q);
    } else {
      p := p0;
    }
  }
}

=== FILE: store.dfy ===
/** The database the routes and scripts share, as one immutable value.

    Each table is a sequence in the order the database returns it. A
    symbol's `name` is unique (the analyze route upserts by name, which
    the database only allows on a unique column). An entry's
    `detectedSymbols` column holds a JSON array of strings; the model keeps
    the decoded list, so `JSON.parse(entry.detectedSymbols || '[]')` is
    the field itself. Columns the code never reads or writes (timestamps,
    `meaning`) are left out. */
module Store {
  import opened Common

  /** The record the language model returns for one entry. */
  datatype Analysis = Analysis(
    analysisLog: string,
    detectedSymbols: seq<string>,
    dominantArchetype: Option<string>,
    reflectionQuestion: string,
    visualMood: string)

  datatype Entry = Entry(
    id: string,
    kind: string,
    contentText: Option<string>,
    imageUrl: Option<string>,
    detectedSymbols: seq<string>,
    dominantArchetype: Option<string>,
    visualMood: string,
    aiAnalysis: Analysis,
    analysisLog: string,
    reflectionQuestion: string)

  /** `level` and `category` are `None` while they still hold whatever the
      schema's column default is: no shown code ever assigns them. */
  datatype Symbol = Symbol(
    id: string,
    name: string,
    description: Option<string>,
    archetype: Option<string>,
    category: Option<string>,
    level: Option<int>,
    occurrences: int)

  datatype Connection = Connection(id: string, fromId: string, toId: string, strength: int)

  datatype Constellation = Constellation(
    pattern: string,
    description: string,
    symbols: seq<string>,
    confidence: real)

  datatype Db = Db(
    entries: seq<Entry>,
    symbols: seq<Symbol>,
    connections: seq<Connection>,
    constellations: seq<Constellation>)

  /** Every listed name of every entry, entry by entry, in order. */
  function ListedNames(entries: seq<Entry>): seq<string>
  {
    if |entries| == 0 then []
    else ListedNames(entries[..|entries| - 1]) + entries[|entries| - 1].detectedSymbols
  }

  /** No two symbols share a name. */
  ghost predicate UniqueNames(symbols: seq<Symbol>)
  {
    forall i, j :: 0 <= i < j < |symbols| ==> symbols[i].name != symbols[j].name
  }

  /** No two symbols share an id (the primary key). */
  ghost predicate UniqueIds(symbols: seq<Symbol>)
  {
    forall i, j :: 0 <= i < j < |symbols| ==> symbols[i].id != symbols[j].id
  }

  /** The position of the symbol called `name`, if there is one. */
  function FindByName(symbols: seq<Symbol>, name: string): (r: Option<nat>)
    ensures r.Some? ==> r.value < |symbols| && symbols[r.value].name == name
    ensures r.None? <==> forall i :: 0 <= i < |symbols| ==> symbols[i].name != name
  {
    if |symbols| == 0 then None
    else if symbols[|symbols| - 1].name == name then Some(|symbols| - 1)
    else FindByName(symbols[..|symbols| - 1], name)
  }

  /** The names of all symbols. */
  function Names(symbols: seq<Symbol>): set<string>
  {
    set i | 0 <= i < |symbols| :: symbols[i].name
  }

  /** A symbol's stored count, or 0 when no symbol has that name. */
  function OccurrencesOf(symbols: seq<Symbol>, name: string): int
  {
    match FindByName(symbols, name)
    case Some(i) => symbols[i].occurrences
    case None => 0
  }
}

=== FILE: symbol_lib.dfy ===
/** `components/SymbolLib.tsx`: the tables, the sort and the ASCII picture
    of the symbol library view.

    A symbol here is the record `GET /api/symbols` sends, with `level` a
    number. The picture of levels 4 and 5 (and of any level outside 1..3)
    is computed with `Math.sqrt` and floating-point thresholds; it is the
    parameter `radial`, the character at column `x` of row `y`. For levels
    1 to 3 every test compares an integer ratio with a double constant,
    and the model states each as the equivalent integer comparison. */
module SymbolLib {
  import opened Common
  import Sorting
  import Text
  import ConstellationGraph

  datatype LibSymbol = LibSymbol(
    id: string,
    name: string,
    category: Option<string>,
    level: int,
    occurrences: int)

  /** `getLevelDescription`: each of levels 1 to 5 has a title and a
      sentence, joined by `" - "`. */
  function LevelDescription(level: int): string
  {
    if 1 <= level <= 5 then LevelTitle(level) + " - " + LevelGloss(level) else "UNKNOWN"
  }

  function LevelTitle(level: int): string
  {
    if level == 1 then "RAW"
    else if level == 2 then "EMERGING"
    else if level == 3 then "DEFINED"
    else if level == 4 then "EVOLVED"
    else "MASTERED"
  }

  function LevelGloss(level: int): string
  {
    if level == 1 then "Pierwsze wystąpienie. Symbol jest surowy, 1-bitowy, niewyraźny."
    else if level == 2 then "Symbol zaczyna się krystalizować. Więcej szczegółów, większa klarowność."
    else if level == 3 then "Symbol jest wyraźny. Struktura jest czytelna, znaczenie głębsze."
    else if level == 4 then "Symbol osiągnął zaawansowaną formę. Bogata symbolika, głębokie znaczenie."
    else "Symbol w pełni rozwinięty. Kompleksowa struktura, pełna świadomość znaczenia."
  }

  /** The library's own copy of `getCategoryColor`. */
  function CategoryColor(category: Option<string>): string
  {
    match category
    case Some(c) =>
      if c == "NATURE" then "#33FF00"
      else if c == "PERSONA" then "#FFB000"
      else if c == "SHADOW" then "#FF3333"
      else if c == "SACRED" then "#00FFFF"
      else "#888888"
    case None => "#888888"
  }

  /** The file icon of a row. */
  function Icon(level: int): char
  {
    if level == 1 then '▢'
    else if level == 2 then '▦'
    else if level == 3 then '▩'
    else if level == 4 then '▨'
    else '█'
  }

  // ---------------------------------------------------------------------
  // Sorting

  /** The two numeric orders of the sort selector. */
  datatype NumericOrder = ByLevel | ByOccurrences

  function Level(s: LibSymbol): int
  {
    s.level
  }

  function Occurrences(s: LibSymbol): int
  {
    s.occurrences
  }

  function KeyOf(order: NumericOrder): LibSymbol -> int
  {
    match order
    case ByLevel => Level
    case ByOccurrences => Occurrences
  }

  /** `[...symbols].sort((a, b) => b.level - a.level)` and the same for
      `occurrences`. */
  function SortedSymbols(symbols: seq<LibSymbol>, order: NumericOrder): seq<LibSymbol>
  {
    Sorting.SortDesc(symbols, KeyOf(order))
  }

  // ---------------------------------------------------------------------
  // The ASCII picture

  /** The UTF-16 code units of `c`, summed: `split('')` splits a character
      outside the Basic Multilingual Plane into its two surrogates. */
  function CodeUnitSum(c: char): nat
  {
    var u := Text.CharUnits(c);
    if |u| == 1 then u[0] else u[0] + u[1]
  }

  /** `nameHash`: the sum of the name's code units. */
  function NameHash(name: string): nat
  {
    if |name| == 0 then 0 else NameHash(name[..|name| - 1]) + CodeUnitSum(name[|name| - 1])
  }

  /** The side of the square: `6 + level * 2`, no rows when not positive. */
  function Side(level: int): nat
  {
    if 6 + 2 * level > 0 then 6 + 2 * level else 0
  }

  /** The character at column `x` of row `y`. All operands of `%` are
      non-negative on levels 1 to 3. For level 1, `h1 / 100 < 0.15` holds
      exactly when `h1 < 15`. For level 2 the second threshold
      `0.3 * 1.5` evaluates to the double just below 0.45, so `▓` is
      `30 <= h1 < 45`. For level 3 the ratios over 200 meet 0.4, 0.6 and
      0.8 at 80, 120 and 160. */
  function Cell(level: int, hash: int, x: nat, y: nat, radial: (nat, nat) -> char): char
  {
    var h1 := (hash + x * 7 + y * 11 + level * 13) % 100;
    var h2 := (hash + x * 3 + y * 5 + level * 17) % 100;
    if level == 1 then (if h1 < 15 then '█' else ' ')
    else if level == 2 then (if h1 < 30 then '█' else if h1 < 45 then '▓' else '░')
    else if level == 3 then
      var p := (h1 + h2) % 200;
      if p < 80 then '█' else if p < 120 then '▓' else if p < 160 then '▒' else '░'
    else radial(x, y)
  }

  function Line(level: int, hash: int, y: nat, side: nat, radial: (nat, nat) -> char): (r: string)
    ensures |r| == side
    ensures forall x :: 0 <= x < side ==> r[x] == Cell(level, hash, x, y, radial)
  {
    seq(side, x requires 0 <= x < side => Cell(level, hash, x, y, radial))
  }

  /** The first `n` rows, each followed by a newline. */
  function Rows(level: int, hash: int, n: nat, side: nat, radial: (nat, nat) -> char): string
  {
    if n == 0 then ""
    else Rows(level, hash, n - 1, side, radial) + Line(level, hash, n - 1, side, radial) + "\n"
  }

  /** `getLevelVisual(level, name)`. */
  function Visual(level: int, name: string, radial: (nat, nat) -> char): string
  {
    Rows(level, NameHash(name), Side(level), Side(level), radial)
  }

  /** The characters the cells of a level can hold. */
  function Palette(level: int): set<char>
  {
    if level == 1 then {'█', ' '}
    else if level == 2 then {'█', '▓', '░'}
    else if level == 3 then {'█', '▓', '▒', '░'}
    else {}
  }

  // ---------------------------------------------------------------------
  // Lemmas

  /** Five distinct descriptions for levels 1 to 5, `UNKNOWN` for every
      other level. */
  lemma LevelDescriptions(level: int, other: int)
    ensures LevelDescription(level) == "UNKNOWN" <==> level < 1 || level > 5
    ensures 1 <= level <= 5 && 1 <= other <= 5 && level != other ==>
              LevelDescription(level) != LevelDescription(other)
  {
    KnownLevels(level);
    if 1 <= level <= 5 && 1 <= other <= 5 && level != other {
      DescriptionHead(level);
      DescriptionHead(other);
      HeadsDistinct(level, other);
    }
  }

  /** The first two characters of `s`, or all of it when shorter. */
  function Head(s: string): string
  {
    if |s| >= 2 then s[..2] else s
  }

  const Heads: seq<string> := ["RA", "EM", "DE", "EV", "MA"]

  lemma JoinHead(t: string, g: string)
    requires |t| >= 2
    ensures Head(t + " - " + g) == t[..2]
  {
  }

  lemma TitleHeads(level: int)
    requires 1 <= level <= 5
    ensures |LevelTitle(level)| >= 2 && LevelTitle(level)[..2] == Heads[level - 1]
  {
  }

  /** The first two letters of a level's description tell it apart. */
  lemma DescriptionHead(level: int)
    requires 1 <= level <= 5
    ensures Head(LevelDescription(level)) == Heads[level - 1]
  {
    TitleHeads(level);
    JoinHead(LevelTitle(level), LevelGloss(level));
  }

  lemma HeadsDistinct(level: int, other: int)
    requires 1 <= level <= 5 && 1 <= other <= 5 && level != other
    ensures Heads[level - 1] != Heads[other - 1]
  {
  }

  lemma KnownLevels(level: int)
    ensures LevelDescription(level) == "UNKNOWN" <==> level < 1 || level > 5
  {
    if 1 <= level <= 5 {
      DescriptionHead(level);
      UnknownHead(level);
    }
  }

  lemma UnknownHead(level: int)
    requires 1 <= level <= 5
    ensures Head("UNKNOWN") != Heads[level - 1]
  {
    assert Head("UNKNOWN") == "UN";
  }

  /** The library and the map colour categories alike. */
  lemma SameCategoryColors(category: Option<string>)
    ensures CategoryColor(category) == ConstellationGraph.CategoryColor(category)
    ensures CategoryColor(category) != "#888888" <==>
              category in {Some("NATURE"), Some("PERSONA"), Some("SHADOW"), Some("SACRED")}
  {
    ConstellationGraph.CategoryColors(category);
  }

  /** Levels 1 to 4 have four different icons; every other level shows a
      full block. */
  lemma Icons(level: int, other: int)
    ensures Icon(level) == '█' <==> level < 1 || level > 4
    ensures 1 <= level <= 4 && 1 <= other <= 4 && level != other ==> Icon(level) != Icon(other)
  {
  }

  /** Either sort is a stable permutation into non-increasing order of its
      key. */
  lemma SortedSymbolsFacts(symbols: seq<LibSymbol>, order: NumericOrder)
    ensures var r := SortedSymbols(symbols, order);
      && multiset(r) == multiset(symbols)
      && (forall i, j :: 0 <= i < j < |r| ==> KeyOf(order)(r[i]) >= KeyOf(order)(r[j]))
      && (forall k :: Sorting.WithKey(r, KeyOf(order), k) == Sorting.WithKey(symbols, KeyOf(order), k))
  {
    Sorting.SortDescProperties(symbols, KeyOf(order));
  }

  /** Sorting by level orders by level, by occurrences by occurrences. */
  lemma SortedByField(symbols: seq<LibSymbol>)
    ensures var r := SortedSymbols(symbols, ByLevel);
      forall i, j :: 0 <= i < j < |r| ==> r[i].level >= r[j].level
    ensures var r := SortedSymbols(symbols, ByOccurrences);
      forall i, j :: 0 <= i < j < |r| ==> r[i].occurrences >= r[j].occurrences
  {
    SortedSymbolsFacts(symbols, ByLevel);
    SortedSymbolsFacts(symbols, ByOccurrences);
  }

  /** `a * k <= b * k` for `a <= b` and `k >= 0`. */
  lemma MulMonotonic(a: nat, b: nat, k: nat)
    requires a <= b
    ensures a * k <= b * k
  {
  }

  /** The position of column `x` of row `y` in a picture whose rows hold
      `side` cells and a newline. */
  function Offset(y: nat, x: nat, side: nat): nat
  {
    y * (side + 1) + x
  }

  /** The character of the rows at column `x` of row `y`: the cell, or the
      newline when `x == side`. */
  function Expected(level: int, hash: int, x: nat, y: nat, side: nat, radial: (nat, nat) -> char): char
  {
    if x < side then Cell(level, hash, x, y, radial) else '\n'
  }

  /** The rows, character by character: row `y` holds its `side` cells and
      then a newline, at offset `y * (side + 1)`. */
  lemma {:induction false} RowsShape(level: int, hash: int, n: nat, side: nat, radial: (nat, nat) -> char)
    ensures var r := Rows(level, hash, n, side, radial);
      && |r| == n * (side + 1)
      && (forall y, x :: 0 <= y < n && 0 <= x <= side ==>
            Offset(y, x, side) < |r| && r[Offset(y, x, side)] == Expected(level, hash, x, y, side, radial))
  {
    if n > 0 {
      RowsShape(level, hash, n - 1, side, radial);
      var init := Rows(level, hash, n - 1, side, radial);
      var line := Line(level, hash, n - 1, side, radial);
      var r := Rows(level, hash, n, side, radial);
      var base := (n - 1) * (side + 1);
      assert r == init + line + "\n";
      assert |init| == base;
      assert n * (side + 1) == base + side + 1;
      forall y, x | 0 <= y < n && 0 <= x <= side
        ensures Offset(y, x, side) < |r| && r[Offset(y, x, side)] == Expected(level, hash, x, y, side, radial)
      {
        if y < n - 1 {
          MulMonotonic(y + 1, n - 1, side + 1);
          assert (y + 1) * (side + 1) == y * (side + 1) + side + 1;
          assert r[Offset(y, x, side)] == init[Offset(y, x, side)];
        } else {
          assert Offset(y, x, side) == base + x;
          if x < side {
            assert r[base + x] == line[x];
          } else {
            assert r[base + side] == '\n';
          }
        }
      }
    }
  }

  /** The picture of level `L` has `6 + 2L` lines of `6 + 2L` cells, each
      line ending in a newline. */
  lemma VisualShape(level: int, name: string, radial: (nat, nat) -> char)
    ensures var v, s := Visual(level, name, radial), Side(level);
      && |v| == s * (s + 1)
      && (1 <= level ==> s == 6 + 2 * level)
      && (forall y, x :: 0 <= y < s && 0 <= x <= s ==>
            Offset(y, x, s) < |v| && v[Offset(y, x, s)] == Expected(level, NameHash(name), x, y, s, radial))
  {
    RowsShape(level, NameHash(name), Side(level), Side(level), radial);
  }

  /** Every cell of levels 1 to 3 is from the level's palette. */
  lemma CellInPalette(level: int, hash: int, x: nat, y: nat, radial: (nat, nat) -> char)
    requires 1 <= level <= 3
    ensures Cell(level, hash, x, y, radial) in Palette(level)
  {
  }

  lemma {:induction false} RowsInPalette(level: int, hash: int, n: nat, side: nat, radial: (nat, nat) -> char)
    requires 1 <= level <= 3
    ensures forall c :: c in Rows(level, hash, n, side, radial) ==> c == '\n' || c in Palette(level)
  {
    if n > 0 {
      RowsInPalette(level, hash, n - 1, side, radial);
      var line := Line(level, hash, n - 1, side, radial);
      forall c | c in line
        ensures c in Palette(level)
      {
        var x :| 0 <= x < side && line[x] == c;
        CellInPalette(level, hash, x, n - 1, radial);
      }
    }
  }

  /** Level 1 draws only full blocks and spaces, level 2 three shades and
      level 3 four, whatever the name. */
  lemma VisualCharset(level: int, name: string, radial: (nat, nat) -> char)
    requires 1 <= level <= 3
    ensures forall c :: c in Visual(level, name, radial) ==> c == '\n' || c in Palette(level)
  {
    RowsInPalette(level, NameHash(name), Side(level), Side(level), radial);
  }

  lemma {:induction false} NameHashAppend(a: string, b: string)
    ensures NameHash(a + b) == NameHash(a) + NameHash(b)
    decreases |b|
  {
    if |b| == 0 {
      assert a + b == a;
    } else {
      var init := b[..|b| - 1];
      assert (a + b)[..|a + b| - 1] == a + init;
      NameHashAppend(a, init);
    }
  }

  /** The picture depends on the name only through the sum of its code
      units: swapping two halves of a name draws the same picture. */
  lemma VisualOfSwappedName(level: int, a: string, b: string, radial: (nat, nat) -> char)
    ensures Visual(level, a + b, radial) == Visual(level, b + a, radial)
  {
    NameHashAppend(a, b);
    NameHashAppend(b, a);
  }
}

=== FILE: symbol_normalizer.dfy ===
/** The symbol-name normalizer: a raw label from the language model becomes
    a deduplication key by lower-casing and trimming, then either a fixed
    plural-to-singular table or, failing that, a heuristic that strips one
    trailing `y`, `i`, `e` or `a`.

    The heuristic makes the normalizer NOT idempotent (`ryby` -> `ryba` ->
    `ryb`); `NotIdempotent` exhibits this. */
module SymbolNormalizer {
  import opened Common
  import opened Text
  import JsObject

  /** The table of known Polish plurals (and a few self-mapped singulars). */
  const SpecificRules: map<string, string> := map[
    "koty" := "kot", "psy" := "pies", "drzewa" := "drzewo",
    "kobiety" := "kobieta", "mężczyźni" := "mężczyzna", "dzieci" := "dziecko",
    "ludzie" := "człowiek", "zwierzęta" := "zwierzę", "ptaki" := "ptak",
    "ryby" := "ryba", "kwiaty" := "kwiat", "kamienie" := "kamień",
    "wody" := "woda", "ogień" := "ogień", "słońce" := "słońce",
    "księżyc" := "księżyc", "gwiazdy" := "gwiazda", "chmury" := "chmura",
    "góry" := "góra", "las" := "las", "lasy" := "las", "domy" := "dom",
    "miasta" := "miasto", "ulice" := "ulica", "samochody" := "samochód",
    "pociągi" := "pociąg", "mosty" := "most", "rzeki" := "rzeka",
    "morza" := "morze", "oceany" := "ocean"
  ]

  /** The endings the heuristic tries, in order. */
  const PluralEndings: seq<char> := ['y', 'i', 'e', 'a']

  /** The lookup key: `symbol.toLowerCase().trim()`. */
  function Key(symbol: string): string
  {
    Trim(ToLower(symbol))
  }

  /** The input counts as blank (`!symbol || symbol.trim().length === 0`). */
  predicate IsBlank(symbol: string)
  {
    |Trim(symbol)| == 0
  }

  /** The suffix heuristic: a regex `(.*)X$` for each ending X in turn; the
      first one that matches and leaves a stem of at least two UTF-16 code
      units wins (`candidate.length >= 2`). At most one ending can match,
      since only the last character is tested. */
  function StripPluralEnding(n: string): string
  {
    if |n| > 0 && n[|n| - 1] in PluralEndings && |Units(n[..|n| - 1])| >= 2 then n[..|n| - 1] else n
  }

  /** `normalizeSymbol`, table lookup by own properties only (see
      `NormalizeSymbolAsWritten` for the inherited-member lookup). */
  function NormalizeSymbol(symbol: string): (r: string)
    ensures IsBlank(symbol) ==> r == symbol
    ensures !IsBlank(symbol) ==> r != ""
  {
    if IsBlank(symbol) then symbol
    else
      var n := Key(symbol);
      if n in SpecificRules then TableValuesNonEmpty(); SpecificRules[n]
      else KeyOfNonBlank(symbol); StripPluralEnding(n)
  }

  /** Only blank labels have an empty key. */
  lemma KeyOfNonBlank(symbol: string)
    requires !IsBlank(symbol)
    ensures |Key(symbol)| > 0
  {
    TrimToLower(symbol);
  }

  lemma TableValuesNonEmpty()
    ensures forall k | k in SpecificRules :: |SpecificRules[k]| >= 3
  {
  }

  /** Blank input, whitespace included, comes back verbatim, untrimmed. */
  lemma BlankUnchanged(symbol: string)
    requires forall i :: 0 <= i < |symbol| ==> IsSpace(symbol[i])
    ensures NormalizeSymbol(symbol) == symbol
  {
  }

  /** A key listed in the table normalizes to its table value. */
  lemma TableHit(symbol: string)
    requires !IsBlank(symbol) && Key(symbol) in SpecificRules
    ensures NormalizeSymbol(symbol) == SpecificRules[Key(symbol)]
  {
  }

  /** Off the table the result is the key itself or the key less one final
      `y`/`i`/`e`/`a`; a stripped result keeps at least two code units, and
      any key of three or more code units ending in one of them is stripped. */
  lemma HeuristicStrip(symbol: string)
    requires !IsBlank(symbol) && Key(symbol) !in SpecificRules
    ensures var k, r := Key(symbol), NormalizeSymbol(symbol);
      && (r == k || (r == k[..|k| - 1] && k[|k| - 1] in PluralEndings))
      && (r != k ==> |Units(r)| >= 2)
      && (k[|k| - 1] in PluralEndings && |Units(k)| >= 3 ==> r != k)
  {
    KeyOfNonBlank(symbol);
    StripBounds(Key(symbol));
  }

  /** The suffix heuristic on its own, for a non-empty key. */
  lemma StripBounds(k: string)
    requires |k| > 0
    ensures var r := StripPluralEnding(k);
      && (r == k || (r == k[..|k| - 1] && k[|k| - 1] in PluralEndings))
      && (r != k ==> |Units(r)| >= 2)
      && (k[|k| - 1] in PluralEndings && |Units(k)| >= 3 ==> r != k)
  {
    if k[|k| - 1] in PluralEndings {
      UnitsOfBmpLast(k);
    }
  }

  /** Keys of at most two code units that miss the table are only lower-cased
      and trimmed. */
  lemma ShortKeysKept(symbol: string)
    requires !IsBlank(symbol) && Key(symbol) !in SpecificRules && |Units(Key(symbol))| <= 2
    ensures NormalizeSymbol(symbol) == Key(symbol)
  {
    var k := Key(symbol);
    KeyOfNonBlank(symbol);
    if k[|k| - 1] in PluralEndings {
      UnitsOfBmpLast(k);
    }
  }

  /** A character above U+FFFF is two code units, so a stem of one such
      character is long enough: `😀y` loses its `y`. */
  lemma AstralStemStripped()
    ensures NormalizeSymbol("\U{1F600}y") == "\U{1F600}"
  {
    var s := "\U{1F600}y";
    assert Trim(s) == s;
    assert ToLower(s) == s;
    assert s !in SpecificRules;
    assert s[..1] == "\U{1F600}";
    assert |Units(s[..1])| == 2;
  }

  /** The self-mapped table entries are fixed points. */
  lemma SelfMappedEntriesAreFixed()
    ensures NormalizeSymbol("ogień") == "ogień"
    ensures NormalizeSymbol("księżyc") == "księżyc"
    ensures NormalizeSymbol("las") == "las"
  {
    FixedOgien();
    FixedKsiezyc();
    FixedLas();
  }

  lemma FixedOgien()
    ensures NormalizeSymbol("ogień") == "ogień"
  {
    NormalizeCanonical("ogień");
  }

  lemma FixedKsiezyc()
    ensures NormalizeSymbol("księżyc") == "księżyc"
  {
    NormalizeCanonical("księżyc");
  }

  lemma FixedLas()
    ensures NormalizeSymbol("las") == "las"
  {
    NormalizeCanonical("las");
  }

  /** For `słońce` it is the table that prevents the `e` strip the
      heuristic would apply. */
  lemma TableShieldsSlonce()
    ensures NormalizeSymbol("słońce") == "słońce"
    ensures StripPluralEnding("słońce") == "słońc"
  {
    NormalizeCanonical("słońce");
  }

  /** The doc-comment example and the table's second row. */
  lemma TableExamples()
    ensures NormalizeSymbol("koty") == "kot"
    ensures NormalizeSymbol("psy") == "pies"
  {
    KotyExample();
    PsyExample();
  }

  lemma KotyExample()
    ensures NormalizeSymbol("koty") == "kot"
  {
    NormalizeCanonical("koty");
  }

  lemma PsyExample()
    ensures NormalizeSymbol("psy") == "pies"
  {
    NormalizeCanonical("psy");
  }

  /** `ryby` is in the table; `ryba` is not, so the heuristic strips its
      final `a`. */
  lemma FishExamples()
    ensures NormalizeSymbol("ryby") == "ryba"
    ensures NormalizeSymbol("ryba") == "ryb"
  {
    RybyExample();
    RybaExample();
  }

  lemma RybyExample()
    ensures NormalizeSymbol("ryby") == "ryba"
  {
    NormalizeCanonical("ryby");
  }

  lemma RybaExample()
    ensures NormalizeSymbol("ryba") == "ryb"
  {
    NormalizeCanonical("ryba");
  }

  /** Normalizing twice is not normalizing once. */
  lemma NotIdempotent()
    ensures exists x :: NormalizeSymbol(NormalizeSymbol(x)) != NormalizeSymbol(x)
  {
    FishExamples();
    assert NormalizeSymbol(NormalizeSymbol("ryby")) != NormalizeSymbol("ryby");
  }

  /** A non-empty lower-case label without outer whitespace is its own key,
      so it goes straight to the table or the heuristic. */
  lemma NormalizeCanonical(s: string)
    requires |s| > 0 && !IsSpace(s[0]) && !IsSpace(s[|s| - 1])
    requires forall i :: 0 <= i < |s| ==> LowerChar(s[i]) == s[i]
    ensures Key(s) == s && !IsBlank(s)
    ensures NormalizeSymbol(s) == if s in SpecificRules then SpecificRules[s] else StripPluralEnding(s)
  {
    assert ToLower(s) == s;
    TrimOfTrimmed(s);
  }

  /** `normalizeSymbols`: map, drop falsy (that is, empty) results, then keep
      the first occurrence of each. */
  function NormalizeSymbols(symbols: seq<string>): (r: seq<string>)
    ensures NoDuplicates(r)
    ensures forall i :: 0 <= i < |r| ==> r[i] != ""
  {
    Distinct(NonEmpty(Images(symbols)))
  }

  /** `symbols.map(normalizeSymbol)`. */
  function Images(symbols: seq<string>): (r: seq<string>)
    ensures |r| == |symbols|
    ensures forall i :: 0 <= i < |symbols| ==> r[i] == NormalizeSymbol(symbols[i])
  {
    seq(|symbols|, i requires 0 <= i < |symbols| => NormalizeSymbol(symbols[i]))
  }

  /** `.filter(Boolean)` on strings: the non-empty ones, in order. */
  function NonEmpty(xs: seq<string>): (r: seq<string>)
    ensures forall y :: y in r <==> y in xs && y != ""
  {
    if |xs| == 0 then []
    else if xs[|xs| - 1] == "" then NonEmpty(xs[..|xs| - 1])
    else NonEmpty(xs[..|xs| - 1]) + [xs[|xs| - 1]]
  }

  /** Every output is the image of some input, every non-empty image is an
      output, and only the empty string is dropped. */
  lemma NormalizeSymbolsContents(symbols: seq<string>)
    ensures forall y :: y in NormalizeSymbols(symbols) ==>
              exists x :: x in symbols && NormalizeSymbol(x) == y
    ensures forall x :: x in symbols && x != "" ==> NormalizeSymbol(x) in NormalizeSymbols(symbols)
  {
    var im := Images(symbols);
    var r := NormalizeSymbols(symbols);
    forall y | y in r
      ensures exists x :: x in symbols && NormalizeSymbol(x) == y
    {
      assert y in NonEmpty(im);
      var i :| 0 <= i < |im| && im[i] == y;
      assert symbols[i] in symbols;
    }
    forall x | x in symbols && x != ""
      ensures NormalizeSymbol(x) in r
    {
      var i :| 0 <= i < |symbols| && symbols[i] == x;
      assert im[i] == NormalizeSymbol(x);
      assert NormalizeSymbol(x) in NonEmpty(im);
    }
  }

  /** Whitespace-only labels are not empty, so they survive unchanged. */
  lemma BlankLabelsSurvive(symbols: seq<string>, x: string)
    requires x in symbols && x != "" && IsBlank(x)
    ensures x in NormalizeSymbols(symbols)
  {
    NormalizeSymbolsContents(symbols);
  }

  /** The output keeps the order in which each key first appears among the
      images of the input. */
  lemma NormalizeSymbolsOrder(symbols: seq<string>)
    ensures var ys := NonEmpty(Images(symbols)); var r := NormalizeSymbols(symbols);
      forall i, j :: 0 <= i < j < |r| ==> IndexOf(ys, r[i]) < IndexOf(ys, r[j])
  {
    DistinctKeepsFirstOccurrenceOrder(NonEmpty(Images(symbols)));
  }

  /** `normalizeSymbol` exactly as written: `specificRules[normalized]` also
      finds members inherited from `Object.prototype`, and the function then
      returns that member instead of a string. */
  function NormalizeSymbolAsWritten(symbol: string): JsObject.JsValue
  {
    if IsBlank(symbol) then JsObject.Str(symbol)
    else
      var n := Key(symbol);
      if n in SpecificRules then JsObject.Str(SpecificRules[n])
      else if n in JsObject.InheritedNames then JsObject.Member(n)
      else JsObject.Str(StripPluralEnding(n))
  }

  /** The label `constructor` normalizes to the `Object` constructor
      function, not to a string. */
  lemma AsWrittenReturnsInheritedMember()
    ensures NormalizeSymbolAsWritten("constructor") == JsObject.Member("constructor")
    ensures NormalizeSymbol("constructor") == "constructor"
  {
    NormalizeCanonical("constructor");
  }

  /** Away from the inherited names the code as written and the corrected
      lookup agree. */
  lemma AsWrittenAgreesOffInheritedNames(symbol: string)
    requires IsBlank(symbol) || Key(symbol) !in JsObject.InheritedNames
    ensures NormalizeSymbolAsWritten(symbol) == JsObject.Str(NormalizeSymbol(symbol))
  {
  }
}

=== FILE: text.dfy ===
/** The JavaScript string operations the symbol pipeline relies on:
    `trim`, `toLowerCase`, `toUpperCase`, `includes`, `join`, the `<`
    comparison of strings and the decimal rendering of a counter.

    Strings are `seq<char>`. Case mapping is defined over a fixed
    alphabet: ASCII letters and the eighteen Polish letters
    `ą ć ę ł ń ó ś ź ż` / `Ą Ć Ę Ł Ń Ó Ś Ź Ż`; every other character maps
    to itself, which is where the model departs from full Unicode case
    mapping. Whitespace is the complete set that `String.prototype.trim`
    removes (section 22.1.3.32 of ECMA-262: WhiteSpace and LineTerminator). */
module Text {

  /** The characters `trim` strips. */
  predicate IsSpace(c: char)
  {
    || c == '\t' || c == '\n' || c == '\U{000B}' || c == '\U{000C}' || c == '\r'
    || c == ' ' || c == '\U{00A0}' || c == '\U{1680}'
    || ('\U{2000}' <= c <= '\U{200A}')
    || c == '\U{2028}' || c == '\U{2029}' || c == '\U{202F}' || c == '\U{205F}'
    || c == '\U{3000}' || c == '\U{FEFF}'
  }

  function LowerChar(c: char): char
  {
    if 'A' <= c <= 'Z' then (c as int + 32) as char
    else match c
      case 'Ą' => 'ą'
      case 'Ć' => 'ć'
      case 'Ę' => 'ę'
      case 'Ł' => 'ł'
      case 'Ń' => 'ń'
      case 'Ó' => 'ó'
      case 'Ś' => 'ś'
      case 'Ź' => 'ź'
      case 'Ż' => 'ż'
      case _ => c
  }

  function UpperChar(c: char): char
  {
    if 'a' <= c <= 'z' then (c as int - 32) as char
    else match c
      case 'ą' => 'Ą'
      case 'ć' => 'Ć'
      case 'ę' => 'Ę'
      case 'ł' => 'Ł'
      case 'ń' => 'Ń'
      case 'ó' => 'Ó'
      case 'ś' => 'Ś'
      case 'ź' => 'Ź'
      case 'ż' => 'Ż'
      case _ => c
  }

  /** Case mapping never turns a non-space into a space or back. */
  lemma CaseMappingKeepsSpaces(c: char)
    ensures IsSpace(LowerChar(c)) <==> IsSpace(c)
    ensures IsSpace(UpperChar(c)) <==> IsSpace(c)
  {
  }

  /** `s.toLowerCase()`: character by character, length preserved. */
  function ToLower(s: string): (r: string)
    ensures |r| == |s|
    ensures forall i :: 0 <= i < |s| ==> r[i] == LowerChar(s[i])
  {
    seq(|s|, i requires 0 <= i < |s| => LowerChar(s[i]))
  }

  /** `s.toUpperCase()`: character by character, length preserved. */
  function ToUpper(s: string): (r: string)
    ensures |r| == |s|
    ensures forall i :: 0 <= i < |s| ==> r[i] == UpperChar(s[i])
  {
    seq(|s|, i requires 0 <= i < |s| => UpperChar(s[i]))
  }

  /** Index of the first non-space character at or after `i`, or `|s|`. */
  function SkipSpaces(s: string, i: nat): (k: nat)
    requires i <= |s|
    ensures i <= k <= |s|
    ensures forall j :: i <= j < k ==> IsSpace(s[j])
    ensures k < |s| ==> !IsSpace(s[k])
    decreases |s| - i
  {
    if i == |s| || !IsSpace(s[i]) then i else SkipSpaces(s, i + 1)
  }

  /** One past the last non-space character before `j`, or `lo`. */
  function SkipSpacesBack(s: string, lo: nat, j: nat): (k: nat)
    requires lo <= j <= |s|
    ensures lo <= k <= j
    ensures forall i :: k <= i < j ==> IsSpace(s[i])
    ensures k > lo ==> !IsSpace(s[k - 1])
    decreases j
  {
    if j == lo || !IsSpace(s[j - 1]) then j else SkipSpacesBack(s, lo, j - 1)
  }

  /** Number of leading whitespace characters of `s`. */
  function Lead(s: string): (n: nat)
    ensures n <= |s|
    ensures forall i :: 0 <= i < n ==> IsSpace(s[i])
    ensures n < |s| ==> !IsSpace(s[n])
  {
    SkipSpaces(s, 0)
  }

  /** `s.trim()`: the leading and trailing whitespace removed. */
  function Trim(s: string): (r: string)
    ensures Lead(s) + |r| <= |s|
    ensures r == s[Lead(s)..Lead(s) + |r|]
    ensures forall i :: Lead(s) + |r| <= i < |s| ==> IsSpace(s[i])
    ensures |r| > 0 ==> !IsSpace(r[0]) && !IsSpace(r[|r| - 1])
    ensures |r| == 0 <==> forall i :: 0 <= i < |s| ==> IsSpace(s[i])
  {
    var a := Lead(s);
    var b := SkipSpacesBack(s, a, |s|);
    s[a..b]
  }

  /** A string with no outer whitespace is its own trim. */
  lemma TrimOfTrimmed(s: string)
    requires |s| > 0 ==> !IsSpace(s[0]) && !IsSpace(s[|s| - 1])
    ensures Trim(s) == s
  {
    if |s| > 0 {
      assert Lead(s) == 0;
      assert SkipSpacesBack(s, 0, |s|) == |s|;
    }
  }

  lemma TrimIdempotent(s: string)
    ensures Trim(Trim(s)) == Trim(s)
  {
    TrimOfTrimmed(Trim(s));
  }

  /** Two equally long strings with whitespace at the same positions. */
  ghost predicate SameSpaces(s: string, t: string)
  {
    |s| == |t| && forall i :: 0 <= i < |s| ==> (IsSpace(s[i]) <==> IsSpace(t[i]))
  }

  lemma {:induction false} SkipSpacesAgree(s: string, t: string, i: nat)
    requires SameSpaces(s, t) && i <= |s|
    ensures SkipSpaces(s, i) == SkipSpaces(t, i)
    decreases |s| - i
  {
    if i < |s| && IsSpace(s[i]) {
      SkipSpacesAgree(s, t, i + 1);
    }
  }

  lemma {:induction false} SkipSpacesBackAgree(s: string, t: string, lo: nat, j: nat)
    requires SameSpaces(s, t) && lo <= j <= |s|
    ensures SkipSpacesBack(s, lo, j) == SkipSpacesBack(t, lo, j)
    decreases j
  {
    if j > lo && IsSpace(s[j - 1]) {
      SkipSpacesBackAgree(s, t, lo, j - 1);
    }
  }

  /** Lower-casing keeps every whitespace position. */
  lemma LowerKeepsSpaces(s: string)
    ensures SameSpaces(s, ToLower(s))
  {
    forall i | 0 <= i < |s|
      ensures IsSpace(ToLower(s)[i]) <==> IsSpace(s[i])
    {
      CaseMappingKeepsSpaces(s[i]);
    }
  }

  /** Lower-casing before or after trimming gives the same string. */
  lemma TrimToLower(s: string)
    ensures Trim(ToLower(s)) == ToLower(Trim(s))
  {
    var t := ToLower(s);
    LowerKeepsSpaces(s);
    SkipSpacesAgree(s, t, 0);
    var a := Lead(s);
    SkipSpacesBackAgree(s, t, a, |s|);
    var b := SkipSpacesBack(s, a, |s|);
    assert ToLower(s[a..b]) == t[a..b];
  }

  /** `s.includes(sub)`: `sub` occurs in `s` at some position. */
  predicate Contains(s: string, sub: string)
  {
    exists i | 0 <= i <= |s| - |sub| :: OccursAt(s, sub, i)
  }

  /** `sub` is the slice of `s` that starts at `i`. */
  predicate OccursAt(s: string, sub: string, i: nat)
  {
    i + |sub| <= |s| && s[i..i + |sub|] == sub
  }

  /** The UTF-16 code units of one character: the character itself inside
      the Basic Multilingual Plane, a surrogate pair outside it. */
  function CharUnits(c: char): (r: seq<nat>)
    ensures |r| == 1 <==> c as int < 0x1_0000
    ensures |r| == 1 || |r| == 2
  {
    var v := c as int;
    if v < 0x1_0000 then [v]
    else [0xD800 + (v - 0x1_0000) / 0x400, 0xDC00 + (v - 0x1_0000) % 0x400]
  }

  /** The string as JavaScript holds it: `.length` and `s[i]` count these
      UTF-16 code units, so a character above U+FFFF counts twice. */
  function Units(s: string): (r: seq<nat>)
    ensures |r| >= |s|
  {
    if |s| == 0 then [] else Units(s[..|s| - 1]) + CharUnits(s[|s| - 1])
  }

  /** No character lies above U+FFFF. */
  predicate InBmp(s: string)
  {
    forall i :: 0 <= i < |s| ==> s[i] as int < 0x1_0000
  }

  /** The code points of `s`, one number per character. */
  function CodePoints(s: string): (r: seq<nat>)
    ensures |r| == |s|
  {
    seq(|s|, i requires 0 <= i < |s| => s[i] as int)
  }

  /** Within the Basic Multilingual Plane the code units are the code
      points. */
  lemma {:induction false} UnitsOfBmp(s: string)
    requires InBmp(s)
    ensures Units(s) == CodePoints(s)
  {
    if |s| > 0 {
      var init := s[..|s| - 1];
      assert InBmp(init) by {
        forall i | 0 <= i < |init| ensures init[i] as int < 0x1_0000 {
          assert init[i] == s[i];
        }
      }
      UnitsOfBmp(init);
      assert CodePoints(s) == CodePoints(init) + [s[|s| - 1] as int];
    }
  }

  /** Appending one character of the Basic Multilingual Plane adds one code
      unit. */
  lemma UnitsOfBmpLast(s: string)
    requires |s| > 0 && s[|s| - 1] as int < 0x1_0000
    ensures |Units(s)| == |Units(s[..|s| - 1])| + 1
  {
  }

  /** `xs.join(sep)`. */
  function Join(xs: seq<string>, sep: string): (r: string)
    ensures |xs| == 0 ==> r == ""
    ensures |xs| == 1 ==> r == xs[0]
  {
    if |xs| == 0 then ""
    else if |xs| == 1 then xs[0]
    else Join(xs[..|xs| - 1], sep) + sep + xs[|xs| - 1]
  }

  /** JavaScript's `a < b` on strings: lexicographic on character codes,
      a proper prefix coming first. */
  predicate Less(a: string, b: string)
  {
    if |a| == 0 then |b| > 0
    else if |b| == 0 then false
    else if a[0] == b[0] then Less(a[1..], b[1..])
    else a[0] < b[0]
  }

  predicate LessOrEqual(a: string, b: string)
  {
    Less(a, b) || a == b
  }

  lemma {:induction false} LessIrreflexive(a: string)
    ensures !Less(a, a)
  {
    if |a| > 0 {
      LessIrreflexive(a[1..]);
    }
  }

  /** `<` on strings is total: when `a < b` fails, `b <= a`. */
  lemma {:induction false} LessTotal(a: string, b: string)
    ensures Less(a, b) || a == b || Less(b, a)
  {
    if |a| > 0 && |b| > 0 && a[0] == b[0] {
      LessTotal(a[1..], b[1..]);
      if a[1..] == b[1..] {
        assert a == [a[0]] + a[1..] && b == [b[0]] + b[1..];
      }
    }
  }

  lemma {:induction false} LessAsymmetric(a: string, b: string)
    ensures Less(a, b) ==> !Less(b, a)
  {
    if |a| > 0 && |b| > 0 && a[0] == b[0] {
      LessAsymmetric(a[1..], b[1..]);
    }
  }

  function DigitChar(d: nat): char
    requires d < 10
  {
    ('0' as int + d) as char
  }

  /** Decimal rendering of a counter, as in a template literal `${n}`. */
  function NatToString(n: nat): (r: string)
    ensures |r| > 0
    ensures forall i :: 0 <= i < |r| ==> '0' <= r[i] <= '9'
    ensures r[0] == '0' ==> n == 0
  {
    if n < 10 then [DigitChar(n)]
    else NatToString(n / 10) + [DigitChar(n % 10)]
  }

  /** Distinct counters render as distinct strings. */
  lemma {:induction false} NatToStringInjective(m: nat, n: nat)
    requires NatToString(m) == NatToString(n)
    ensures m == n
  {
    if m >= 10 && n >= 10 {
      var r := NatToString(m);
      assert r[..|r| - 1] == NatToString(m / 10);
      assert NatToString(n)[..|r| - 1] == NatToString(n / 10);
      NatToStringInjective(m / 10, n / 10);
      assert DigitChar(m % 10) == DigitChar(n % 10);
    }
  }
}
